=== FILE: README.md ===
# PalletFlow in Dafny

PalletFlow schedules pallets from three production machines (origins A, B and C) onto capacity-limited FIFO belts. Pallets wait on the belts until they mature. They are then withdrawn in lot-sized windows, one origin at a time. This project models that scheduling logic in Dafny and proves properties of the model. It covers four Python files.

- `simulation.py` is the main engine, a minute-stepped `SimulationEngine`:
  - 12 belts of 22 slots, with the head at index 0;
  - three dedicated belts per origin and three shared ("dynamic") belts;
  - per-origin lot counters;
  - the production loop, which never mixes lots on a belt;
  - a rotating window scheduler and paced consumption, one pallet every X/3 minutes;
  - three allocation strategies and three consumption strategies.

  The model is modules `Belts`, `Allocation`, `Consumption` and `Simulation`. The engine is a class whose methods change its fields. `Valid` is its invariant and holds after every method:
  - no belt exceeds its capacity;
  - every belt holds a single lot;
  - every belt is in FIFO order: pallets sit in production order, none was produced after the current minute, and each matures maturation minutes after it was produced;
  - each origin's outstanding count equals the number of pallets of its current lot stored on the belts;
  - the lot counters stay within `0 <= outstanding <= produced <= lot_size`;
  - handed-out lot ids stay below the next one;
  - at most one window is active, and it belongs to the origin the rotation points at.

  The consumption pace is exact: the engine keeps `3 * next_consume_time`, so `X/3.0` needs no floating point.
- `simulation_simpy.py` is the SimPy variant, module `LaneSystem`. Its lanes (`Esteira`) carry an origin affinity. `Sistema` assigns lanes, stores pallets and releases ready heads. The SimPy clock is a parameter.
- `lab_alocation.py` is an exploratory allocator, module `LabAllocation`:
  - storage lines have a source affinity;
  - lots are filled up to LOTE_SIZE;
  - a queue of lot ids (`dynamical_lot`) hands whole lots to three dynamic lines.

  Its module-level globals are the fields of class `Plant`.
- `build_script.py` is the first exploratory script, module `BuildScript`. Lots are numbered in list order. Consumption raises when a head is not mature, and the model returns that as a `Failure` result.
- The two scripts share the machine rotation. Module `MachineTurns` holds it, with the lot cycle count as a parameter. That count is 90 in `lab_alocation.py` and 30 in `build_script.py`.

The scripts' `ceil`-of-float constants are stated as the integers they evaluate to:
- LOTE_SIZE 90;
- MATURATE_CICLE 150;
- CYCLE_BY_LOT 90 in `lab_alocation.py` and 30 in `build_script.py`.

Where the comments and the code disagree, the model follows the code:
- The dedicated belts are rows 0-2 for A, 3-5 for B and 6-8 for C, and the shared belts are rows 9-11. A comment in `simulation.py` describes a different layout.
- `_assign_lot` starts a new lot only once the current lot is complete and none of its pallets is still stored. This is what the code does through `peek_next_lot_id`. Its docstring says instead that a new lot may start as soon as one pallet has been consumed.
- `assign_lanes` is meant to give each origin at least its quota of lanes. But the list of empty lanes also holds empty lanes that already have the origin, so it can take such a lane again and count it twice. The model keeps that behaviour. `LaneSystem.RetakenLaneLeavesQuotaShort` gives an example: a quota of two lanes ends with one lane while a free lane stays unassigned. `LaneSystem.QuotaStep` states the quota outcome for the case where no empty lane already has the origin.

## Model

| member | source | states |
|---|---|---|
| Belts.ScanPos | simulation.py:50 | the position `(start + k) % n` of a wrapping scan always lies in `0..n-1` |
| Belts.OriginRows | simulation.py:272-277 | each origin has three dedicated belts, all among rows 0-8 (never a shared belt) |
| Belts.AppendKeepsSingleLot | simulation.py:347-362 | appending a pallet of the tail's lot (or to an empty belt) keeps every pallet of the belt in one lot |
| Belts.TailKeepsSingleLot | simulation.py:576 | removing the head keeps a belt single-lot |
| Belts.HeadIsOldest | simulation.py:362 | on a belt in production order, the head was produced no later than any pallet behind it |
| Belts.AppendKeepsFifo | simulation.py:338-362 | a pallet produced now and maturing maturation minutes later, appended at the tail, keeps the belt in FIFO order |
| Belts.TailKeepsFifo | simulation.py:576 | removing the head keeps a belt in FIFO order |
| Belts.ImmatureHeadBlocksBelt | simulation.py:575-576 | on a FIFO belt whose head is not mature at a minute, no pallet is mature at that minute, since the head matures first; popping only heads misses no mature pallet |
| Belts.AppendCount | simulation.py:362-365 | appending a pallet adds one to the stored count of its own lot and leaves every other lot's count unchanged |
| Belts.PopCount | simulation.py:576-583 | removing a head takes one from the stored count of the head's lot and leaves every other lot's count unchanged |
| Belts.LotCountBelow | simulation.py:394-399 | a lot id above the lot of every stored pallet has no pallet stored |
| Belts.LotCountPositive | simulation.py:582-583 | a stored pallet of a lot makes that lot's stored count positive |
| Allocation.SelectMostFree | simulation.py:26-37 | returns a row of `rows` whose free space is maximal, the first such row on ties, with room left; None exactly when no row has free space |
| Allocation.ScanReaches | simulation.py:49-50 | a scan of n positions from any start visits every index, so a failed round-robin scan saw every belt full |
| Allocation.RoundRobinAllocation.constructor | simulation.py:43-44 | the three cursors start at 0 |
| Allocation.RoundRobinAllocation.SelectBelt | simulation.py:46-56 | returns the first non-full belt scanning from the cursor and sets the cursor just past it; when all belts are full, returns None and leaves the cursor unchanged |
| Allocation.PreferredDynamic | simulation.py:74-83 | the preferred shared belts (9 and 10 for A while its lot is under 44 pallets, 11 for B, none for C) are all shared belts |
| Allocation.Without | simulation.py:127 | the remaining shared belts are exactly the shared belts not in the preferred list |
| Allocation.MostFreeLowestRow | simulation.py:113-115 | the candidate that maximises (free space, -row) |
| Allocation.SelectDedicatedThreePlusDynamic | simulation.py:69-128 | returns a non-full dedicated or shared belt, and None exactly when all of them are full; a preferred belt holding the next lot wins (most free, lowest row); a belt outside the preferred set is used only when every preferred belt is full; a shared belt outside both sets only when every dedicated belt is full; with no preferred belt holding the next lot, the result is the first most free belt of its own tier |
| Allocation.StickyRows | simulation.py:106-112 | exactly the preferred shared belts with room that already hold a pallet of the next lot from the origin |
| Allocation.SelectByTier | simulation.py:116-128 | the first most free preferred belt, else the first most free dedicated belt, else the first most free remaining shared belt; a later tier only when every belt of the earlier tiers is full; None exactly when all are full |
| Consumption.PickLeastFree | simulation.py:183-198 | among belts whose head is a mature pallet of the origin, the one with the fewest free slots, the lowest row on ties; None exactly when no such head exists |
| Consumption.LongestReadyQueue | simulation.py:150-160 | among belts with a ready head, the first with the longest queue; None exactly when no head is ready |
| Simulation.MarkConsumed | simulation.py:578-580 | the consumption minute is written only into an existing record that has none yet; no other record changes |
| Simulation.LastMature | simulation.py:427-437 | the maximum maturation minute over the current lot's pallets on the given belts; None exactly when the lot has no pallet there |
| Simulation.AnyReadySplit | simulation.py:200-207 | a ready head exists in two groups of belts exactly when one exists in either group |
| Simulation.ClockKeepsBelts | simulation.py:316 | the clock moving on keeps every belt valid, in FIFO order included |
| Simulation.StoreKeepsInvariant | simulation.py:362-365 | storing a pallet produced now, of its origin's current lot, at a tail with room that is empty or of that lot keeps the belts valid (capacity, single lot, FIFO); the outstanding count grows by one and still equals the lot's stored pallets |
| Simulation.PopKeepsInvariant | simulation.py:576-583 | removing a head keeps the belts valid; a head of its origin's current lot has a positive outstanding count, and dropping it by one keeps it equal to the stored pallets; any other head changes no count |
| Simulation.AdvanceKeepsInvariant | simulation.py:394-399 | a new lot id has no pallet stored, so the reset count 0 is exact; the belts stay valid as the next id moves on |
| Simulation.SimulationEngine.constructor | simulation.py:242-301 | X at least 1, lot size `max(1, 2160 // X)`, empty belts, lots A1/B2/C3 with next id 4, activation at 0, one window and two windows, no window active |
| Simulation.SimulationEngine.CurrentLotPalletIsOutstanding | simulation.py:582-583 | a stored pallet of its origin's current lot implies that origin's outstanding count is positive, so the `> 0` guard of the decrement never blocks it |
| Simulation.SimulationEngine.PeekNextLotId | simulation.py:382-392 | the current lot exactly while it is below the lot size; None exactly when it is complete and still has outstanding pallets; otherwise a fresh id above every current lot |
| Simulation.SimulationEngine.AdvanceLot | simulation.py:394-399 | the origin takes the next global id, which increases by one; its produced and outstanding counts reset to 0; the invariant holds |
| Simulation.SimulationEngine.AssignLot | simulation.py:401-424 | returns a lot exactly when the current lot has room or nothing outstanding; a new lot is started only when the current one is complete; then the origin's counters reset to 0 and the global id advances; otherwise lots are unchanged |
| Simulation.SimulationEngine.SelectBelt | simulation.py:330-331 | the belt the configured strategy picks (`Picks`): the first most free dedicated belt for most-free; the first non-full belt from the cursor for round robin, with the cursor moved just past it (unchanged on None); the dedicated-plus-shared tier rule for the third, over the origin's next lot. The belt is admissible and not full; None exactly when every admissible belt is full; no other origin's cursor changes |
| Simulation.SimulationEngine.SelectMostFreeBelt | simulation.py:26-37 | the first most free dedicated belt of the origin, admissible and not full; None exactly when all three are full |
| Simulation.SimulationEngine.SelectRoundRobinBelt | simulation.py:46-56 | the round-robin pick over the origin's dedicated belts from its cursor, and the new cursor; no other origin's cursor changes |
| Simulation.SimulationEngine.RetryBelt | simulation.py:350-353 | a second selection by the strategy, from the cursor the first left; it replaces the first belt only when it is another belt |
| Simulation.SimulationEngine.ProduceOne | simulation.py:324-366 | one production iteration: NoLot exactly when the complete lot still has pallets stored; otherwise the belt is chosen as `ChoosesBelt` says, over the counters after the lot is assigned; a stored pallet goes to that belt `row`, admissible and empty or ending with its lot, with a new id, record and next production minute (`PalletStoredOn`); otherwise belts, records, ids and production times are unchanged (the rollback); the origin's produced and outstanding counts are reset to 0 when a new lot was started, even if nothing is then stored, and grow by one when a pallet is stored |
| Simulation.SimulationEngine.PlacePallet | simulation.py:330-366 | the strategy's belt is chosen as `ChoosesBelt` says (NoBelt when the first selection finds none; the first belt when it takes the lot; else the second selection when it is another belt); the pallet is stored on it, or nothing but the round-robin cursor changes; its lot's produced and outstanding counts grow by one exactly when it is stored |
| Simulation.SimulationEngine.ChooseBelt | simulation.py:330-356 | the belt choice with one retry when the first belt would mix lots (`ChoosesBelt`: the first selection by the strategy and the cursor it leaves; when its belt's tail is another lot, the second selection from that cursor, taken only when it names another belt); Produced names a non-full admissible belt that is empty or ends with the lot; Mixed names a belt whose tail is another lot |
| Simulation.SimulationEngine.CommitPallet | simulation.py:335-366 | the pallet with the next id matures maturation minutes after now, is appended at the tail, gets a record with no consumption minute, and moves the next production time X minutes on; its lot's produced and outstanding counts grow by one |
| Simulation.SimulationEngine.RecordPallet | simulation.py:336-366 | the next pallet id grows by one; the pallet gets a record with its origin, lot, id and creation minute and no consumption minute; its origin's next production minute moves X minutes on |
| Simulation.SimulationEngine.StorePallet | simulation.py:362-365 | the pallet is appended to the belt, and the produced and outstanding counts of its origin grow by one |
| Simulation.SimulationEngine.TryProduce | simulation.py:319-366 | production only appends to the tails of belts (every old belt is a prefix of the new one), leaves the window state alone and keeps the invariant |
| Simulation.SimulationEngine.ProduceDue | simulation.py:324-366 | the loop ends (unless a pallet would mix lots) only when production is not due, the lot must wait, or every admissible belt is full |
| Simulation.SimulationEngine.PopIfMatureHeadOfOrigin | simulation.py:569-585 | pops exactly when the head exists, comes from the origin and is mature; then only the head leaves, the record is marked once, and the outstanding count drops by one only for a current-lot pallet with a positive count; otherwise nothing changes |
| Simulation.SimulationEngine.RemoveHead | simulation.py:576-583 | the head leaves and its record gets the consumption minute once; the outstanding count drops by one only for a head of its origin's current lot with a positive count; nothing else changes, and the invariant holds (FIFO order and outstanding equal to stored included) |
| Simulation.SimulationEngine.PopFirstReady | simulation.py:134-143 | pops the head of the first belt in order with a ready head; nothing changes when there is none |
| Simulation.SimulationEngine.ConsumePrioritizedFirstThree | simulation.py:134-143 | dedicated belts first, then shared ones: pops the first ready head in that order, exactly when one exists |
| Simulation.SimulationEngine.ConsumeLongestQueueHead | simulation.py:149-166 | pops exactly when a ready head exists, from the first belt, in dedicated-then-shared order, whose queue is the longest among the ready ones |
| Simulation.SimulationEngine.ConsumeDynamicLeastFreeSpace | simulation.py:180-208 | pops exactly when a ready head exists on the shared or the dedicated belts; from the shared group if it has one, else the dedicated group; always the least-free ready belt of that group |
| Simulation.SimulationEngine.PopLeastFree | simulation.py:201-203 | pops the head of the belt pick_row chooses, exactly when a ready head exists in the group |
| Simulation.SimulationEngine.Consume | simulation.py:514-520 | whichever strategy is configured, it pops exactly when some dedicated or shared belt has a ready head of the origin, and then pops the head that strategy chooses (first ready in order, first longest ready queue, or least free ready belt of the shared group before the dedicated one); otherwise nothing changes |
| Simulation.SimulationEngine.TryConsume | simulation.py:506-532 | no attempt without an active window or outside the paced slot and the boundary's extra attempt; a paced attempt that pops moves the next slot X/3 minutes on; a pop removes the head the configured strategy chooses (`StrategyRow`), marks its record and lowers the outstanding count of its current lot; the window ends at once when the lot is consumed; lot ids, produced counts, production and events are untouched |
| Simulation.SimulationEngine.ConsumeSlot | simulation.py:519-528 | one attempt: when a head of the origin is ready, the head the configured strategy chooses (`StrategyRow`) leaves, its record is marked and its current lot's outstanding count drops; the window count grows by one, the pace advances by X/3 only when paced, and the window ends now once the count reaches the lot size |
| Simulation.SimulationEngine.CountConsumed | simulation.py:521-528 | the window count grows by one; a paced attempt moves the next slot X/3 minutes on; the window ends now once the count reaches the lot size, otherwise its end is unchanged |
| Simulation.SimulationEngine.WindowDueNow | simulation.py:457-461 | true exactly when the current lot has pallets stored and all of them mature within window_minutes from now |
| Simulation.SimulationEngine.MaybeStartWindow | simulation.py:445-475 | a running window is left alone; an expired one advances the rotation by one mod 3; a window opens for the rotation's origin exactly when its lot is complete and unconsumed and due; it ends window_minutes later, consumption starts now, and exactly one event is appended |
| Simulation.SimulationEngine.CloseExpiredWindow | simulation.py:449-452 | an expired window advances the rotation by one mod 3 and clears the active origin; nothing else changes |
| Simulation.SimulationEngine.OpenWindowIfDue | simulation.py:453-472 | opens the window for the origin the rotation points at exactly when its lot is complete, unconsumed and due; otherwise nothing changes |
| Simulation.SimulationEngine.OpenWindow | simulation.py:462-472 | the active origin, window end, pace and window count are set, and one window_start event is appended |
| Simulation.SimulationEngine.Step | simulation.py:309-316 | the clock advances by `max(1, dt)` minutes; the invariant (capacity, single lot and FIFO order per belt, bounded counters, outstanding equal to the current lot's stored pallets, one window) holds after every minute; events are only appended |
| Simulation.SimulationEngine.Tick | simulation.py:313-316 | one minute of step: the invariant holds afterwards, the clock moves on by one minute, and events are only appended |
| Simulation.SimulationEngine.DrainEvents | simulation.py:602-605 | returns the pending events and leaves none; nothing else changes |
| Simulation.SimulationEngine.GridAsCells | simulation.py:588-600 | a 12 x 22 grid; column `21 - i` shows the origin and lot of the pallet at position i of the belt (head rightmost); every other cell is empty with lot 0 |
| LaneSystem.ReadyPrefix | simulation_simpy.py:138-142 | the length of the longest run of ready pallets at the front of a queue: all before it are ready, the one at it is not |
| LaneSystem.ReadyPrefixIs | simulation_simpy.py:138-142 | any index j with every pallet before it ready and the one at j not ready is the ready prefix |
| LaneSystem.InventoryPositiveIff | simulation_simpy.py:132-156 | an origin's matured inventory is positive exactly when one of its lanes has a ready head, i.e. exactly when pop_one_for can release a pallet |
| LaneSystem.InventoryUpdate | simulation_simpy.py:132-143 | replacing one lane changes the inventory by the difference of the two lanes' contributions |
| LaneSystem.PopLowersInventory | simulation_simpy.py:145-156 | releasing the ready head of one of the origin's lanes lowers its matured inventory by exactly one |
| LaneSystem.EmptyLanes | simulation_simpy.py:98-101 | the lanes whose queue is empty, each listed once, in increasing lane order, and every empty lane listed |
| LaneSystem.Taken | simulation_simpy.py:106-110 | how many lanes one quota takes: none exactly when the origin's count already meets the quota or no empty lane is left; never more than are left; after taking, the count reaches the quota or every remaining lane was taken, and it never passes the quota |
| LaneSystem.SetOneCount | simulation_simpy.py:109-110 | giving the origin to one lane that did not have it counts one more lane of that origin |
| LaneSystem.AssignCount | simulation_simpy.py:107-110 | giving the origin to distinct lanes that did not have it raises its count by exactly their number |
| LaneSystem.QuotaStep | simulation_simpy.py:105-110 | when no empty lane already has the origin, one quota leaves the origin's count unchanged if already at or above the quota, else raises it to the quota, or by every remaining empty lane when there are too few |
| LaneSystem.RetakenLaneLeavesQuotaShort | simulation_simpy.py:98-110 | with lane 0 free and lane 1 empty but already of A, a quota of two lanes for A takes lane 1 again, leaves A with one lane, and leaves lane 0 free |
| LaneSystem.Esteira.constructor | simulation_simpy.py:34-38 | an empty lane with no affinity |
| LaneSystem.Esteira.Space | simulation_simpy.py:40-41 | free slots are between 0 and the capacity, and 0 exactly when the lane is full |
| LaneSystem.Esteira.Push | simulation_simpy.py:43-47 | succeeds exactly when the queue is below capacity and then appends at the tail; otherwise the queue is unchanged |
| LaneSystem.Esteira.PeekReady | simulation_simpy.py:49-52 | the head, exactly when the queue is non-empty and the head is ready |
| LaneSystem.Esteira.PopReady | simulation_simpy.py:54-59 | returns what peek_ready returns, and removes the head exactly in that case |
| LaneSystem.Sistema.constructor | simulation_simpy.py:65 | twelve distinct empty lanes of capacity 22 with no affinity |
| LaneSystem.Sistema.AssignLanes | simulation_simpy.py:92-110 | queues never change; only lanes empty at the start change affinity, and only to an origin of the quotas; the affinities afterwards are exactly AssignSpec's: for each quota in order, Taken lanes from the end of the remaining empty list get the origin |
| LaneSystem.Sistema.EmptyAtStart | simulation_simpy.py:97-101 | the lanes empty at the start, as EmptyLanes lists them |
| LaneSystem.Sistema.ApplyQuota | simulation_simpy.py:105-110 | one quota: as many lanes as Taken gives for the origin's count before the quota, taken from the end of the empty list, get the origin; what is left of the list is its prefix; queues are unchanged; AssignSpec on the rest equals AssignSpec on the whole |
| LaneSystem.Sistema.TakeEmpty | simulation_simpy.py:105-110 | lanes are taken from the end of the empty list until the count reaches the quota or the list runs out; exactly Taken(have, need, left) lanes are taken, and exactly those get the origin |
| LaneSystem.Sistema.StoreAt | simulation_simpy.py:130 | push on one lane; the other lanes are untouched |
| LaneSystem.Sistema.BestCandidate | simulation_simpy.py:118-129 | the first lane of the origin with free space and the most space; None exactly when there is none |
| LaneSystem.Sistema.FirstEmptyFor | simulation_simpy.py:120-122 | the first empty lane with no affinity or the pallet's; None exactly when there is none |
| LaneSystem.Sistema.PushPallet | simulation_simpy.py:113-130 | succeeds exactly when a lane of the origin has room or an empty lane is free for it; the pallet goes to the lane push_pallet's preference order picks, which then has the pallet's origin; on failure nothing changes |
| LaneSystem.Sistema.ClaimAndStore | simulation_simpy.py:122-124 | the empty lane takes the origin and holds exactly the pallet |
| LaneSystem.Sistema.MaturedInventory | simulation_simpy.py:132-143 | the sum, over the origin's lanes, of each queue's ready prefix |
| LaneSystem.Sistema.LongestReadyLane | simulation_simpy.py:149-155 | the first ready lane of the origin with the longest queue; None exactly when there is none |
| LaneSystem.Sistema.PopAt | simulation_simpy.py:156 | pop_ready on one lane; the other lanes are untouched |
| LaneSystem.Sistema.PopOneFor | simulation_simpy.py:145-156 | None, with nothing changed, exactly when the origin has no matured inventory; otherwise the head of the longest ready lane leaves and the inventory drops by exactly one |
| MachineTurns.OnlyABeforeFirstLot | lab_alocation.py:166-176 | until the first lot's worth of cycles has passed, only machine A produces |
| MachineTurns.AOnEveryThirdCycle | lab_alocation.py:168-169 | machine A produces exactly on cycles `n % 3 == 1` |
| MachineTurns.ThreeCyclesProduceEachSource | build_script.py:80-90 | after the warm-up, any three consecutive cycles produce one pallet of each machine |
| LabAllocation.CountMature | lab_alocation.py:107-108 | the number of mature pallets of the source never exceeds the number of pallets |
| LabAllocation.CountMatureMonotone | lab_alocation.py:107-108 | a later cycle never has fewer mature pallets of a source |
| LabAllocation.CountMatureAllMature | lab_alocation.py:107-108 | once all pallets are mature and of the source, the count is the number of pallets |
| LabAllocation.CountMatureAppend | lab_alocation.py:107-108 | appending a pallet adds one to the count exactly when it is of the source and mature |
| LabAllocation.Attribute | lab_alocation.py:133-138 | the pass keeps one entry per dynamic line and never lengthens the queue |
| LabAllocation.AttributeKeepsAndTakesFromFront | lab_alocation.py:133-138 | lines with a lot keep it, a changed line gets a queued id, and what remains of the queue is its tail |
| LabAllocation.AttributeFillsWhileQueued | lab_alocation.py:133-138 | while ids remain queued after the pass, every dynamic line has a lot |
| LabAllocation.AttributeStep | lab_alocation.py:134-136 | one line's attribution advances the pass by one line |
| LabAllocation.DropSource | lab_alocation.py:151-155 | an id is kept exactly when it was queued and its lot is not of the pallet's source |
| LabAllocation.DropSourceKeepsCopies | lab_alocation.py:151-155 | every copy of an id whose lot is of another source survives, and no copy of any other id does |
| LabAllocation.NewLines | lab_alocation.py:269-285 | fresh, distinct, empty lines of 22 slots numbered from the first id, with the given sources |
| LabAllocation.Lot.constructor | lab_alocation.py:63-67 | an empty, unfinished lot |
| LabAllocation.Lot.AddPallet | lab_alocation.py:69-72 | appends the pallet; the lot is finished once it holds LOTE_SIZE pallets, and the flag keeps meaning that |
| LabAllocation.Lot.GetNextPallet | lab_alocation.py:74-86 | returns and removes the head exactly when the lot is non-empty and no cycle is given or the head is mature; otherwise the lot is unchanged |
| LabAllocation.StorageLine.constructor | lab_alocation.py:93-98 | an empty line with no active lot |
| LabAllocation.StorageLine.CountMatureItems | lab_alocation.py:107-108 | the count never exceeds the pallets on the line |
| LabAllocation.StorageLine.CountEmptySpaces | lab_alocation.py:110-111 | free slots lie between 0 and the size, and are 0 exactly when the line is full |
| LabAllocation.StorageLine.AddPallet | lab_alocation.py:116-122 | succeeds exactly when can_add_pallet holds (room, and no source or the same one); then the pallet is at the tail and the line has its source; otherwise nothing changes |
| LabAllocation.StorageLine.ConsumePallet | lab_alocation.py:124-130 | removes and returns the head exactly when it exists and is mature; otherwise nothing changes |
| LabAllocation.Plant.constructor | lab_alocation.py:269-285 | three dynamic lines without a source, then three storage lines each for A, B and C, all empty with 22 slots |
| LabAllocation.Plant.CreatePallet | lab_alocation.py:166-176 | a pallet exactly on the machine rotation's cycles, with the next pallet id, created at the cycle and maturing MATURATE_CICLE later |
| LabAllocation.Plant.AtributeDynamicLines | lab_alocation.py:133-138 | the dynamic lines' lots and the queue become the value pass's result; what remains of the queue is its tail; nothing but active lots changes |
| LabAllocation.Plant.AttributeOne | lab_alocation.py:135-136 | a line without a lot takes the queue's first id, if any |
| LabAllocation.Plant.FindLot | lab_alocation.py:154 | the first lot with the queued id, which always exists |
| LabAllocation.Plant.DropLotsOf | lab_alocation.py:151-155 | the queue drops the ids of the pallet's source and keeps the others in order |
| LabAllocation.Plant.FindOpenLot | lab_alocation.py:143-146 | the first unfinished lot of the source; None exactly when there is none |
| LabAllocation.Plant.AddPalletToLot | lab_alocation.py:141-163 | with an unfinished lot of the source, the first one gets the pallet and nothing else changes; otherwise a lot with the next id is appended holding the pallet, the queue drops the source's ids and gets the new id twice, and free dynamic lines take queued ids |
| LabAllocation.Plant.AddToNewLot | lab_alocation.py:148-162 | the new-lot branch, as above |
| LabAllocation.Plant.OpenLot | lab_alocation.py:149-159 | the new lot gets the next id, and the queue and dynamic lines are updated before the lot joins the list |
| LabAllocation.Plant.NewLot | lab_alocation.py:149-158 | the lot counter grows by one, and the queue drops the source's ids and gets the new id twice |
| LabAllocation.Plant.AppendLot | lab_alocation.py:160-162 | the lot joins the list and gets the pallet; the lines are untouched |
| LabAllocation.Plant.AddToLot | lab_alocation.py:162 | only the chosen lot changes, by add_pallet |
| LabAllocation.Plant.ConsumeAt | lab_alocation.py:216-225 | consume_pallet on one line; the other lines are untouched |
| LabAllocation.Plant.ConsumeFirstIn | lab_alocation.py:216-225 | the first line of the range with a mature head loses that head; nothing changes when there is none |
| LabAllocation.Plant.FindFirstMaturePallet | lab_alocation.py:214-227 | dynamic lines, then storage lines: the first mature head leaves (at most one pallet) and is returned with its line; None, with nothing changed, exactly when no head is mature |
| LabAllocation.Plant.Consuming | lab_alocation.py:230-239 | as above; a dynamic line that empties loses its source and lot |
| LabAllocation.Plant.ReleaseIfEmpty | lab_alocation.py:235-237 | only an emptied dynamic line is released |
| LabAllocation.Plant.AddAt | lab_alocation.py:250-265 | add_pallet on one accepting line; the other lines are untouched |
| LabAllocation.Plant.AlocateToDynamicStorage | lab_alocation.py:250-255 | succeeds exactly when a dynamic line reserved for the lot accepts the pallet; the first such line gets it; otherwise nothing changes |
| LabAllocation.Plant.AlocateToStorage | lab_alocation.py:258-265 | succeeds exactly when a storage line with the pallet's source accepts it; the first such line gets it; otherwise nothing changes |
| BuildScript.CreatePallet | build_script.py:80-90 | a pallet exactly on the rotation's cycles (CYCLE_BY_LOT 30), of that machine, created at the cycle and maturing 150 cycles later |
| BuildScript.MatureCount | build_script.py:109-114 | the mature pallets of a lot never outnumber its pallets |
| BuildScript.MatureCountIsPrefix | build_script.py:109-114 | in a lot in creation order, the mature pallets are exactly the first `count_mature_pallets` ones |
| BuildScript.Lot.constructor | build_script.py:42-46 | an empty, unfinished lot with the given id |
| BuildScript.Lot.AddPallet | build_script.py:48-51 | appends the pallet and sets the finished flag once the lot holds LOTE_SIZE pallets |
| BuildScript.Lot.GetNextPallet | build_script.py:53-59 | an empty lot fails with nothing removed; otherwise the head is removed, and the result fails as not mature when `mature_time > cycle`, even though the head is gone |
| BuildScript.CountMaturePallets | build_script.py:109-114 | the number of the lot's pallets with `mature_time <= cycle` |
| BuildScript.Script.constructor | build_script.py:15-16 | no lots and no lot being consumed |
| BuildScript.Script.FindOpenLot | build_script.py:67-70 | the first unfinished lot of the type; None exactly when there is none |
| BuildScript.Script.AddPalletToLot | build_script.py:65-77 | the first unfinished lot of the type gets the pallet, or a lot with id `len(lots) + 1` is appended holding it; lot k always has id k + 1 |
| BuildScript.Script.AddToLot | build_script.py:76 | only the chosen lot changes, by add_pallet |
| BuildScript.Script.Consuming | build_script.py:93-107 | fails when there are no lots; otherwise the first lot becomes and stays the lot being consumed, loses its head, and the result is the head, a not-mature failure or an empty-lot failure |

## Left out

- The random number generator seeded in `SimulationEngine.__init__` is never used for a decision.
- `heatmap_gui.py` is not part of this model. It is user interface: widgets, drawing, timers and CSV export.
- The SimPy processes of `simulation_simpy.py` (`produtor`, `scheduler_lotes`, `coleta_kpis`, `simular`) are left out. They are cooperative processes with timeouts.
- Also left out are the float KPIs (`block_time`, `idle_time_f2`, `CONS_INTERVAL`, `BATCH_PALLETS`), `log_event`, `uso_snapshot`, `total_ocupacao`, event CSV export, plotting, and the lanes' display names.
- `print` output, and the script loops under `__main__` and at the end of `build_script.py`: they are output and drivers. The lab script's line configuration is `Plant.constructor`.
- The commented-out `consuming` of `lab_alocation.py` is not code. Nor are the lab script's id generators `next_lot_id` and `next_pallet_id`; they are the counters of class `Plant`.
- `lab_alocation.py`'s `count_mature_pallets` is left out. It is the same count as `BuildScript.CountMaturePallets` and is called from nowhere.
- `simulation.py`'s `get_pallet_records`, `_select_belt_for_origin`, `_count_ready_by_end`, `_count_mature_until`, `_count_maturing_in_window`, `_pop_mature_from_prioritized`, `_pop_if_mature_head` and `pop_if_mature_head` are left out. They are unused by the engine and its strategies.
- `consumption_tick` returns the float `X / 3.0`. It is modelled exactly as the integer `3 * next_consume_time` compared with `3 * now`; no float is kept.
- Simulation.SimulationEngine.PlacePallet: the source reserves the pallet id and record before the mixing check and rolls them back when the pallet is not stored. The model decides first and commits afterwards, so the intermediate state is not modelled. The visible effect is the same.
- Simulation.SimulationEngine.Step: only the invariant, the clock and event growth are stated for a whole step. Its parts are specified one by one.
- Simulation.SimulationEngine.Tick: the same holds for one minute. The contract does not say that the minute is the window start, then the consumption attempt, then production; the three are specified one by one (`MaybeStartWindow`, `TryConsume`, `TryProduce`).
- Simulation.SimulationEngine.TryProduce: states only that belts grow at their tails and that the invariant holds. Each iteration is specified by `ProduceOne`.
- LabAllocation.StorageLine.CountMatureItems: its own contract is only the bound. What it counts is given by the lemmas `CountMatureAppend`, `CountMatureMonotone` and `CountMatureAllMature`.
- BuildScript.Lot.GetNextPallet: the script's default `cycle=None` would raise a TypeError in the comparison. The model takes a cycle, since every caller passes one.
- BuildScript.Script.Consuming: the branch that moves to the next lot is left out. It runs only when `get_next_pallet` returns None, which it never does, so the lot being consumed is always the first.
- BuildScript.Script.Consuming: the script raises on an empty lot list, on popping an empty lot and on an immature head. The model returns these as the failures NoLots, EmptyLot and NotMature.
- BuildScript.CountMaturePallets: the script reads its global `cycle` variable. The model passes the cycle as a parameter.
- Object identity in messages (`__str__`) is not modelled. Lot and line ids are.

=== FILE: allocation.dfy ===
/**
 * The three allocation strategies of simulation.py: each picks the belt
 * that receives the next pallet of an origin, or None when production
 * must wait (backpressure).
 */
module Allocation {
  import opened Options
  import opened Belts

  /** `row` sits at the first position of `rows` whose belt has the most free space. */
  predicate FirstMostFree(belts: seq<seq<Pallet>>, rows: seq<int>, row: int, capacity: int) {
    && ValidRows(belts, rows)
    && exists k :: (0 <= k < |rows| && rows[k] == row
      && (forall j :: 0 <= j < |rows| ==> Free(belts, rows[j], capacity) <= Free(belts, rows[k], capacity))
      && (forall j :: 0 <= j < k ==> Free(belts, rows[j], capacity) < Free(belts, rows[k], capacity)))
  }

  /**
   * MostFreeAllocation.select_belt (and the select_most_free helper of the
   * dedicated strategy): the first position of `rows` whose belt has the
   * most free space; None when no belt of `rows` has any free space.
   */
  method SelectMostFree(belts: seq<seq<Pallet>>, rows: seq<int>, capacity: int) returns (r: Option<int>)
    requires ValidRows(belts, rows)
    ensures r.None? <==> forall j :: 0 <= j < |rows| ==> Free(belts, rows[j], capacity) <= 0
    ensures r.Some? ==> FirstMostFree(belts, rows, r.value, capacity)
    ensures r.Some? ==> r.value in rows && |belts[r.value]| < capacity
  {
    var bestRow: Option<int> := None;
    var bestFree := -1;
    ghost var bestK := 0;
    for i := 0 to |rows|
      invariant bestRow.None? ==> bestFree == -1 && forall j :: 0 <= j < i ==> Free(belts, rows[j], capacity) < 0
      invariant bestRow.Some? ==> (0 <= bestK < i && bestRow.value == rows[bestK]
        && bestFree == Free(belts, rows[bestK], capacity)
        && (forall j :: 0 <= j < i ==> Free(belts, rows[j], capacity) <= bestFree)
        && (forall j :: 0 <= j < bestK ==> Free(belts, rows[j], capacity) < bestFree))
    {
      var free := capacity - |belts[rows[i]]|;
      if free > bestFree {
        bestFree := free;
        bestRow := Some(rows[i]);
        bestK := i;
      }
    }
    if bestFree <= 0 {
      return None;
    }
    return bestRow;
  }

  /** A scan of n positions started from `start` reaches every index 0..n-1. */
  lemma ScanReaches(start: int, n: int, i: int) returns (k: int)
    requires 0 <= start < n && 0 <= i < n
    ensures 0 <= k < n && ScanPos(start, k, n) == i
  {
    if i >= start {
      k := i - start;
    } else {
      k := i - start + n;
    }
  }

  /**
   * Round-robin's choice over `rows` from cursor `cursor`: the first belt
   * with room in a scan that starts at cursor mod |rows| and wraps around,
   * with `next` just past it; None with `next == cursor` when every belt
   * is full.
   */
  predicate RoundRobinPick(belts: seq<seq<Pallet>>, rows: seq<int>, capacity: int, cursor: int, r: Option<int>, next: int)
    requires ValidRows(belts, rows) && |rows| > 0
  {
    var n := |rows|;
    var start := cursor % n;
    match r
    case None => next == cursor && forall j :: 0 <= j < n ==> |belts[rows[j]]| >= capacity
    case Some(row) =>
      exists k :: 0 <= k < n && row == rows[ScanPos(start, k, n)] && |belts[row]| < capacity
        && (forall j :: 0 <= j < k ==> |belts[rows[ScanPos(start, j, n)]]| >= capacity)
        && next == (ScanPos(start, k, n) + 1) % n
  }

  /** RoundRobinAllocation: one rotation cursor per origin. */
  class RoundRobinAllocation {
    var nextIndex: PerOrigin<int>

    ghost predicate Valid()
      reads this
    {
      nextIndex.a >= 0 && nextIndex.b >= 0 && nextIndex.c >= 0
    }

    constructor ()
      ensures Valid() && nextIndex == PerOrigin(0, 0, 0)
    {
      nextIndex := PerOrigin(0, 0, 0);
    }

    /**
     * Scans `rows` once starting at the cursor and takes the first belt that
     * is not full; the cursor then points just past it. When every belt is
     * full the result is None and the cursor stays where it was.
     */
    method SelectBelt(belts: seq<seq<Pallet>>, rows: seq<int>, capacity: int, origin: Origin) returns (r: Option<int>)
      requires Valid() && ValidRows(belts, rows) && |rows| > 0
      modifies this
      ensures Valid()
      ensures RoundRobinPick(belts, rows, capacity, old(nextIndex.Get(origin)), r, nextIndex.Get(origin))
      ensures nextIndex == old(nextIndex).Set(origin, nextIndex.Get(origin))
    {
      var n := |rows|;
      var start := nextIndex.Get(origin) % n;
      for k := 0 to n
        invariant forall j :: 0 <= j < k ==> |belts[rows[ScanPos(start, j, n)]]| >= capacity
      {
        var idx := ScanPos(start, k, n);
        var row := rows[idx];
        if |belts[row]| < capacity {
          nextIndex := nextIndex.Set(origin, (idx + 1) % n);
          return Some(row);
        }
      }
      forall j | 0 <= j < n
        ensures |belts[rows[j]]| >= capacity
      {
        var k := ScanReaches(start, n, j);
      }
      return None;
    }
  }

  /**
   * Shared belts the dedicated strategy tries first: A uses 9 and 10 while
   * its current lot has fewer than 44 pallets, B uses 11, C none.
   */
  function PreferredDynamic(origin: Origin, producedA: int): (preferred: seq<int>)
    ensures forall i :: 0 <= i < |preferred| ==> preferred[i] in DynamicRows
  {
    match origin
    case A => if producedA < 44 then [9, 10] else []
    case B => [11]
    case C => []
  }

  /** The entries of `rows` not in `excluded`, in order (the last-resort shared belts). */
  function Without(rows: seq<int>, excluded: seq<int>): (rest: seq<int>)
    ensures forall row :: row in rest <==> row in rows && row !in excluded
    ensures forall i :: 0 <= i < |rest| ==> rest[i] in rows
  {
    if rows == [] then []
    else (if rows[0] in excluded then [] else [rows[0]]) + Without(rows[1..], excluded)
  }

  /** The belt already holds a pallet of lot `lot` from `origin`. */
  predicate HoldsLot(b: seq<Pallet>, lot: int, origin: Origin) {
    exists i :: 0 <= i < |b| && b[i].lotId == lot && b[i].origin == origin
  }

  /** A belt with room that already holds the lot about to be produced. */
  predicate Sticky(belts: seq<seq<Pallet>>, row: int, lot: int, origin: Origin, capacity: int)
    requires 0 <= row < |belts|
  {
    |belts[row]| < capacity && HoldsLot(belts[row], lot, origin)
  }

  /**
   * The maximum of `cands` under the key (free space, -row): the most free
   * belt, the lowest row on ties.
   */
  method MostFreeLowestRow(belts: seq<seq<Pallet>>, cands: seq<int>, capacity: int) returns (best: int)
    requires ValidRows(belts, cands) && |cands| > 0
    ensures best in cands
    ensures forall c :: c in cands ==>
      Free(belts, c, capacity) < Free(belts, best, capacity)
      || (Free(belts, c, capacity) == Free(belts, best, capacity) && best <= c)
  {
    best := cands[0];
    for i := 1 to |cands|
      invariant best in cands[..i]
      invariant forall j :: 0 <= j < i ==>
        Free(belts, cands[j], capacity) < Free(belts, best, capacity)
        || (Free(belts, cands[j], capacity) == Free(belts, best, capacity) && best <= cands[j])
    {
      var c := cands[i];
      var fc, fb := capacity - |belts[c]|, capacity - |belts[best]|;
      if fc > fb || (fc == fb && c < best) {
        best := c;
      }
    }
    assert cands[..|cands|] == cands;
  }

  /** Every belt of `rows` is full. */
  predicate AllFull(belts: seq<seq<Pallet>>, rows: seq<int>, capacity: int)
    requires ValidRows(belts, rows)
  {
    forall j :: 0 <= j < |rows| ==> |belts[rows[j]]| >= capacity
  }

  /** Some belt of `rows` has room and already holds lot `lot` of `origin`. */
  predicate AnySticky(belts: seq<seq<Pallet>>, rows: seq<int>, lot: int, origin: Origin, capacity: int)
    requires ValidRows(belts, rows)
  {
    exists j :: 0 <= j < |rows| && Sticky(belts, rows[j], lot, origin, capacity)
  }

  /** Belt `row` is the most free of the Sticky belts of `rows`, the lowest row on ties. */
  predicate MostFreeSticky(belts: seq<seq<Pallet>>, rows: seq<int>, row: int, lot: int, origin: Origin, capacity: int)
    requires ValidRows(belts, rows)
  {
    && row in rows && 0 <= row < |belts| && Sticky(belts, row, lot, origin, capacity)
    && forall j :: 0 <= j < |rows| && Sticky(belts, rows[j], lot, origin, capacity) ==>
         Free(belts, rows[j], capacity) < Free(belts, row, capacity)
         || (Free(belts, rows[j], capacity) == Free(belts, row, capacity) && row <= rows[j])
  }

  /**
   * The dedicated strategy's choice for lot `nextLot` of `origin`: None
   * exactly when every dedicated and shared belt is full, else a non-full
   * one of them. A preferred shared belt that already holds the lot wins
   * (most free, lowest row on ties); otherwise the first most free belt of
   * the first tier with room: the preferred shared belts, the dedicated
   * belts, the other shared belts.
   */
  ghost predicate DedicatedPick(belts: seq<seq<Pallet>>, capacity: int, origin: Origin, producedA: int, nextLot: int, r: Option<int>)
    requires |belts| == Rows
  {
    var preferred := PreferredDynamic(origin, producedA);
    var dedicated := OriginRows(origin);
    match r
    case None => AllFull(belts, dedicated, capacity) && AllFull(belts, DynamicRows, capacity)
    case Some(row) =>
      && (row in dedicated || row in DynamicRows) && |belts[row]| < capacity
      && if AnySticky(belts, preferred, nextLot, origin, capacity) then
           MostFreeSticky(belts, preferred, row, nextLot, origin, capacity)
         else if !AllFull(belts, preferred, capacity) then FirstMostFree(belts, preferred, row, capacity)
         else if !AllFull(belts, dedicated, capacity) then FirstMostFree(belts, dedicated, row, capacity)
         else FirstMostFree(belts, Without(DynamicRows, preferred), row, capacity)
  }

  /**
   * DedicatedThreePlusDynamicAllocation.select_belt: preferred shared belts
   * first (keeping the next lot on belts that already hold it), then the
   * origin's dedicated belts, then the shared belts not preferred.
   */
  method SelectDedicatedThreePlusDynamic(belts: seq<seq<Pallet>>, capacity: int, origin: Origin, producedA: int, nextLot: int)
    returns (r: Option<int>)
    requires |belts| == Rows
    ensures DedicatedPick(belts, capacity, origin, producedA, nextLot, r)
  {
    var preferred := PreferredDynamic(origin, producedA);
    var sticky := StickyRows(belts, capacity, preferred, origin, nextLot);
    if |sticky| > 0 {
      var best := MostFreeLowestRow(belts, sticky, capacity);
      return Some(best);
    }
    r := SelectByTier(belts, capacity, origin, preferred);
  }

  /** The preferred shared belts with room that already hold lot `nextLot` of `origin`, in order. */
  method StickyRows(belts: seq<seq<Pallet>>, capacity: int, preferred: seq<int>, origin: Origin, nextLot: int)
    returns (sticky: seq<int>)
    requires ValidRows(belts, preferred)
    ensures forall row :: row in sticky <==> row in preferred && Sticky(belts, row, nextLot, origin, capacity)
    ensures forall j :: 0 <= j < |sticky| ==> sticky[j] in preferred
  {
    sticky := [];
    for i := 0 to |preferred|
      invariant forall row :: row in sticky <==> row in preferred[..i] && Sticky(belts, row, nextLot, origin, capacity)
      invariant forall j :: 0 <= j < |sticky| ==> sticky[j] in preferred
    {
      var row := preferred[i];
      if |belts[row]| >= capacity {
        continue;
      }
      if HoldsLot(belts[row], nextLot, origin) {
        sticky := sticky + [row];
      }
    }
    assert preferred[..|preferred|] == preferred;
  }

  /**
   * The tiers of the dedicated strategy when no preferred belt already
   * holds the lot: the most free preferred shared belt, else the most free
   * dedicated belt, else the most free of the remaining shared belts.
   */
  method SelectByTier(belts: seq<seq<Pallet>>, capacity: int, origin: Origin, preferred: seq<int>) returns (r: Option<int>)
    requires |belts| == Rows && forall i :: 0 <= i < |preferred| ==> preferred[i] in DynamicRows
    ensures r.Some? ==> (r.value in OriginRows(origin) || r.value in DynamicRows) && |belts[r.value]| < capacity
    ensures r.None? <==> forall row :: (row in OriginRows(origin) || row in DynamicRows) ==> |belts[row]| >= capacity
    ensures r.Some? && r.value !in preferred ==> forall row :: row in preferred ==> |belts[row]| >= capacity
    ensures r.Some? && r.value !in preferred && r.value !in OriginRows(origin) ==>
      forall row :: row in OriginRows(origin) ==> |belts[row]| >= capacity
    ensures r.Some? ==>
      if r.value in preferred then FirstMostFree(belts, preferred, r.value, capacity)
      else if r.value in OriginRows(origin) then FirstMostFree(belts, OriginRows(origin), r.value, capacity)
      else FirstMostFree(belts, Without(DynamicRows, preferred), r.value, capacity)
  {
    if |preferred| > 0 {
      r := SelectMostFree(belts, preferred, capacity);
      if r.Some? {
        return;
      }
    }
    r := SelectMostFree(belts, OriginRows(origin), capacity);
    if r.Some? {
      return;
    }
    r := SelectMostFree(belts, Without(DynamicRows, preferred), capacity);
  }
}

=== FILE: belts.dfy ===
/** The optional value used wherever the source returns `None` for "nothing". */
module Options {
  datatype Option<+T> = None | Some(value: T)
}

/**
 * Pallets, belts and the fixed belt layout of the tick-stepped engine
 * (simulation.py): twelve FIFO belts of 22 slots, the head at index 0.
 */
module Belts {
  import opened Options

  datatype Origin = A | B | C

  /** One value per origin: the source's dictionaries keyed by 'A', 'B' and 'C'. */
  datatype PerOrigin<T> = PerOrigin(a: T, b: T, c: T) {
    function Get(o: Origin): T {
      match o
      case A => a
      case B => b
      case C => c
    }

    function Set(o: Origin, v: T): (m: PerOrigin<T>)
      ensures m.Get(o) == v
      ensures o != A ==> m.a == a
      ensures o != B ==> m.b == b
      ensures o != C ==> m.c == c
    {
      match o
      case A => this.(a := v)
      case B => this.(b := v)
      case C => this.(c := v)
    }
  }

  /** A produced pallet; its maturation minute is fixed when it is created. */
  datatype Pallet = Pallet(origin: Origin, tProd: int, tMature: int, lotId: int, palletId: int)

  const Rows: int := 12
  const Cols: int := 22

  /** The rotation of consumption windows over the origins. */
  const Rotation: seq<Origin> := [A, B, C]

  /** Dedicated belts of each origin. */
  function OriginRows(o: Origin): (rows: seq<int>)
    ensures |rows| == 3 && forall i :: 0 <= i < |rows| ==> 0 <= rows[i] < 9
  {
    match o
    case A => [0, 1, 2]
    case B => [3, 4, 5]
    case C => [6, 7, 8]
  }

  /** Belts shared by all origins. */
  const DynamicRows: seq<int> := [9, 10, 11]

  /**
   * Position k of a scan of n entries that starts at `start` and wraps
   * around: (start + k) mod n, written out for start and k below n.
   */
  function ScanPos(start: int, k: int, n: int): (i: int)
    requires 0 <= start < n && 0 <= k < n
    ensures 0 <= i < n
  {
    if start + k < n then start + k else start + k - n
  }

  /** A pallet may leave once the clock has reached its maturation minute. */
  predicate IsMature(p: Pallet, now: int) {
    now >= p.tMature
  }

  /** Every entry of `rows` names a belt. */
  predicate ValidRows(belts: seq<seq<Pallet>>, rows: seq<int>) {
    forall i :: 0 <= i < |rows| ==> 0 <= rows[i] < |belts|
  }

  function Free(belts: seq<seq<Pallet>>, r: int, capacity: int): int
    requires 0 <= r < |belts|
  {
    capacity - |belts[r]|
  }

  /** The head of belt `r` exists, comes from `origin` and is mature: the only pallet that may be popped. */
  predicate HeadReady(belts: seq<seq<Pallet>>, r: int, origin: Origin, now: int)
    requires 0 <= r < |belts|
  {
    |belts[r]| > 0 && belts[r][0].origin == origin && IsMature(belts[r][0], now)
  }

  /** A pallet of lot `lot` may join belt `b`: it is empty or its tail pallet has that lot. */
  predicate AcceptsLot(b: seq<Pallet>, lot: int) {
    b == [] || b[|b| - 1].lotId == lot
  }

  /**
   * The invariant every belt of the engine keeps: all its pallets belong to
   * one lot (lots are never mixed on a belt), and that lot id has already
   * been handed out.
   */
  predicate SingleLotBelt(b: seq<Pallet>, nextLot: int) {
    forall i :: 0 <= i < |b| ==> b[i].lotId == b[0].lotId < nextLot
  }

  /** Appending a pallet at the tail keeps the belt single-lot when its lot is the tail's lot. */
  lemma AppendKeepsSingleLot(b: seq<Pallet>, p: Pallet, nextLot: int)
    requires SingleLotBelt(b, nextLot) && p.lotId < nextLot
    requires b == [] || b[|b| - 1].lotId == p.lotId
    ensures SingleLotBelt(b + [p], nextLot)
  {
  }

  /** Removing the head keeps the belt single-lot. */
  lemma TailKeepsSingleLot(b: seq<Pallet>, nextLot: int)
    requires SingleLotBelt(b, nextLot) && b != []
    ensures SingleLotBelt(b[1..], nextLot)
  {
  }

  /**
   * A belt in FIFO order: production minutes never decrease from head to
   * tail, no pallet was produced after `now`, and every pallet matures
   * `maturation` minutes after it was produced.
   */
  predicate FifoBelt(b: seq<Pallet>, now: int, maturation: int) {
    && ProductionOrdered(b)
    && (forall i :: 0 <= i < |b| ==> b[i].tProd <= now && b[i].tMature == b[i].tProd + maturation)
  }

  /** Each pallet was produced no earlier than the one ahead of it. */
  predicate ProductionOrdered(b: seq<Pallet>) {
    |b| <= 1 || (ProductionOrdered(b[..|b| - 1]) && b[|b| - 2].tProd <= b[|b| - 1].tProd)
  }

  /** The head of an ordered belt is its oldest pallet. */
  lemma {:induction false} HeadIsOldest(b: seq<Pallet>)
    requires ProductionOrdered(b) && b != []
    ensures forall i :: 0 <= i < |b| ==> b[0].tProd <= b[i].tProd
  {
    if |b| > 1 {
      var front := b[..|b| - 1];
      HeadIsOldest(front);
      assert forall i :: 0 <= i < |front| ==> front[i] == b[i];
    }
  }

  /** Removing the head keeps the rest ordered. */
  lemma {:induction false} TailOrdered(b: seq<Pallet>)
    requires ProductionOrdered(b) && b != []
    ensures ProductionOrdered(b[1..])
  {
    if |b| > 2 {
      TailOrdered(b[..|b| - 1]);
      assert b[1..][..|b| - 2] == b[..|b| - 1][1..];
    }
  }

  /** A pallet produced now, appended at the tail, keeps the belt in FIFO order. */
  lemma AppendKeepsFifo(b: seq<Pallet>, p: Pallet, now: int, maturation: int)
    requires FifoBelt(b, now, maturation) && p.tProd == now && p.tMature == now + maturation
    ensures FifoBelt(b + [p], now, maturation)
  {
    assert (b + [p])[..|b|] == b;
  }

  /** Removing the head keeps the belt in FIFO order. */
  lemma TailKeepsFifo(b: seq<Pallet>, now: int, maturation: int)
    requires FifoBelt(b, now, maturation) && b != []
    ensures FifoBelt(b[1..], now, maturation)
  {
    TailOrdered(b);
  }

  /**
   * The head is the oldest pallet of a FIFO belt, so it matures first: when
   * the head is not mature at minute t, no pallet behind it is. Popping only
   * heads therefore misses no mature pallet of the belt.
   */
  lemma ImmatureHeadBlocksBelt(b: seq<Pallet>, now: int, maturation: int, t: int)
    requires FifoBelt(b, now, maturation) && b != [] && !IsMature(b[0], t)
    ensures forall i :: 0 <= i < |b| ==> !IsMature(b[i], t)
  {
    HeadIsOldest(b);
  }

  /** The invariant of one belt: within capacity, a single lot, FIFO order. */
  predicate BeltOk(b: seq<Pallet>, nextLot: int, now: int, maturation: int) {
    |b| <= Cols && SingleLotBelt(b, nextLot) && FifoBelt(b, now, maturation)
  }

  /** Belts 0 .. k-1 each keep the belt invariant. */
  predicate BeltsOkBelow(belts: seq<seq<Pallet>>, k: nat, nextLot: int, now: int, maturation: int)
    requires k <= |belts|
  {
    k == 0 || (BeltsOkBelow(belts, k - 1, nextLot, now, maturation) && BeltOk(belts[k - 1], nextLot, now, maturation))
  }

  lemma {:induction false} BeltsOkBelowAt(belts: seq<seq<Pallet>>, k: nat, r: int, nextLot: int, now: int, maturation: int)
    requires k <= |belts| && BeltsOkBelow(belts, k, nextLot, now, maturation) && 0 <= r < k
    ensures BeltOk(belts[r], nextLot, now, maturation)
  {
    if r < k - 1 {
      BeltsOkBelowAt(belts, k - 1, r, nextLot, now, maturation);
    }
  }

  /** Replacing one belt by a belt that keeps the invariant keeps all of them. */
  lemma {:induction false} BeltsOkBelowUpdate(belts: seq<seq<Pallet>>, k: nat, row: int, nb: seq<Pallet>,
                                               nextLot: int, now: int, maturation: int)
    requires k <= |belts| && BeltsOkBelow(belts, k, nextLot, now, maturation)
    requires 0 <= row < |belts| && BeltOk(nb, nextLot, now, maturation)
    ensures BeltsOkBelow(belts[row := nb], k, nextLot, now, maturation)
  {
    if k > 0 {
      BeltsOkBelowUpdate(belts, k - 1, row, nb, nextLot, now, maturation);
    }
  }

  /** Later lot ids and a later clock keep every belt valid. */
  lemma {:induction false} BeltsOkBelowLater(belts: seq<seq<Pallet>>, k: nat, nextLot: int, now: int, maturation: int,
                                              nextLot': int, now': int)
    requires k <= |belts| && BeltsOkBelow(belts, k, nextLot, now, maturation)
    requires nextLot <= nextLot' && now <= now'
    ensures BeltsOkBelow(belts, k, nextLot', now', maturation)
  {
    if k > 0 {
      BeltsOkBelowLater(belts, k - 1, nextLot, now, maturation, nextLot', now');
    }
  }

  /** Empty belts keep the invariant. */
  lemma {:induction false} EmptyBeltsOk(belts: seq<seq<Pallet>>, k: nat, nextLot: int, now: int, maturation: int)
    requires k <= |belts| && forall r :: 0 <= r < |belts| ==> belts[r] == []
    ensures BeltsOkBelow(belts, k, nextLot, now, maturation)
  {
    if k > 0 {
      EmptyBeltsOk(belts, k - 1, nextLot, now, maturation);
    }
  }

  /** Pallet `p` belongs to lot `lot` of `origin`. */
  predicate IsLotPallet(p: Pallet, origin: Origin, lot: int) {
    p.origin == origin && p.lotId == lot
  }

  /** The number of pallets of lot `lot` from `origin` on one belt. */
  function BeltLotCount(b: seq<Pallet>, origin: Origin, lot: int): (n: nat)
    ensures n <= |b|
  {
    if b == [] then 0
    else BeltLotCount(b[..|b| - 1], origin, lot) + (if IsLotPallet(b[|b| - 1], origin, lot) then 1 else 0)
  }

  /** Counting from the head: the head counts once, then the rest of the belt. */
  lemma {:induction false} BeltLotCountHead(b: seq<Pallet>, origin: Origin, lot: int)
    requires b != []
    ensures BeltLotCount(b, origin, lot) == BeltLotCount(b[1..], origin, lot) + (if IsLotPallet(b[0], origin, lot) then 1 else 0)
  {
    var n := |b| - 1;
    if n == 0 {
      assert b[1..] == [] && b[..n] == [];
    } else {
      BeltLotCountHead(b[..n], origin, lot);
      assert b[..n][1..] == b[1..][..n - 1];
      assert b[1..][n - 1] == b[n];
    }
  }

  /** The number of pallets of lot `lot` from `origin` over all belts. */
  function LotCount(belts: seq<seq<Pallet>>, origin: Origin, lot: int): nat
  {
    if belts == [] then 0
    else LotCount(belts[..|belts| - 1], origin, lot) + BeltLotCount(belts[|belts| - 1], origin, lot)
  }

  /** Replacing belt r changes the count by the difference of the two belts' counts. */
  lemma {:induction false} LotCountUpdate(belts: seq<seq<Pallet>>, r: int, nb: seq<Pallet>, origin: Origin, lot: int)
    requires 0 <= r < |belts|
    ensures LotCount(belts[r := nb], origin, lot) + BeltLotCount(belts[r], origin, lot)
         == LotCount(belts, origin, lot) + BeltLotCount(nb, origin, lot)
  {
    var n := |belts| - 1;
    if r == n {
      assert belts[r := nb][..n] == belts[..n];
    } else {
      assert belts[r := nb][..n] == belts[..n][r := nb];
      LotCountUpdate(belts[..n], r, nb, origin, lot);
    }
  }

  /** Appending `p` to belt r adds one to the count of `p`'s lot and leaves the other counts alone. */
  lemma AppendCount(belts: seq<seq<Pallet>>, r: int, p: Pallet, origin: Origin, lot: int)
    requires 0 <= r < |belts|
    ensures LotCount(belts[r := belts[r] + [p]], origin, lot)
         == LotCount(belts, origin, lot) + (if IsLotPallet(p, origin, lot) then 1 else 0)
  {
    LotCountUpdate(belts, r, belts[r] + [p], origin, lot);
    assert (belts[r] + [p])[..|belts[r]|] == belts[r];
  }

  /** Removing the head of belt r takes one from the count of the head's lot and leaves the other counts alone. */
  lemma PopCount(belts: seq<seq<Pallet>>, r: int, origin: Origin, lot: int)
    requires 0 <= r < |belts| && belts[r] != []
    ensures LotCount(belts[r := belts[r][1..]], origin, lot)
         == LotCount(belts, origin, lot) - (if IsLotPallet(belts[r][0], origin, lot) then 1 else 0)
  {
    LotCountUpdate(belts, r, belts[r][1..], origin, lot);
    BeltLotCountHead(belts[r], origin, lot);
  }

  /** A lot counts no pallet on a belt whose pallets all have smaller lot ids. */
  lemma {:induction false} BeltLotCountBelow(b: seq<Pallet>, origin: Origin, lot: int)
    requires forall i :: 0 <= i < |b| ==> b[i].lotId < lot
    ensures BeltLotCount(b, origin, lot) == 0
  {
    if b != [] {
      BeltLotCountBelow(b[..|b| - 1], origin, lot);
    }
  }

  /** A lot id above every stored pallet's lot counts no pallet. */
  lemma {:induction false} LotCountBelow(belts: seq<seq<Pallet>>, origin: Origin, lot: int)
    requires forall r, i :: 0 <= r < |belts| && 0 <= i < |belts[r]| ==> belts[r][i].lotId < lot
    ensures LotCount(belts, origin, lot) == 0
  {
    if belts != [] {
      var n := |belts| - 1;
      LotCountBelow(belts[..n], origin, lot);
      BeltLotCountBelow(belts[n], origin, lot);
    }
  }

  /** A stored pallet of the lot makes its count positive. */
  lemma {:induction false} LotCountPositive(belts: seq<seq<Pallet>>, r: int, i: int, origin: Origin, lot: int)
    requires 0 <= r < |belts| && 0 <= i < |belts[r]| && IsLotPallet(belts[r][i], origin, lot)
    ensures LotCount(belts, origin, lot) > 0
  {
    var n := |belts| - 1;
    if r < n {
      LotCountPositive(belts[..n], r, i, origin, lot);
    } else {
      BeltLotCountPositive(belts[r], i, origin, lot);
    }
  }

  lemma {:induction false} BeltLotCountPositive(b: seq<Pallet>, i: int, origin: Origin, lot: int)
    requires 0 <= i < |b| && IsLotPallet(b[i], origin, lot)
    ensures BeltLotCount(b, origin, lot) > 0
  {
    if i < |b| - 1 {
      BeltLotCountPositive(b[..|b| - 1], i, origin, lot);
    }
  }
}

=== FILE: build_script.dfy ===
/**
 * The first exploratory script, build_script.py: pallets from the three
 * machines are gathered into lots of LOTE_SIZE (ids 1, 2, ... in list
 * order), and consumption takes heads from the first lot, raising when the
 * head is not mature. Exceptions are the Failure case of a Result.
 */
module BuildScript {
  import opened Options
  import opened Belts
  import opened MachineTurns

  // The ceil-of-float constants of the script, as the integers they evaluate to.
  const LoteSize: int := 90
  const CycleByLot: int := 30
  const MaturateCicle: int := 150

  datatype BuildPallet = BuildPallet(kind: Origin, createdTime: int)

  /** Pallet.mature_time. */
  function MatureTime(p: BuildPallet): int {
    p.createdTime + MaturateCicle
  }

  /** The exceptions the script can raise while consuming. */
  datatype ScriptError = EmptyLot | NotMature(pallet: BuildPallet) | NoLots

  datatype Result<T> = Success(value: T) | Failure(error: ScriptError)

  /**
   * create_pallet: the pallet of cycle `n`, created at `n`, from the machine
   * whose turn it is; None when no machine produces.
   */
  function CreatePallet(n: int): (p: Option<BuildPallet>)
    ensures p.Some? <==> SourceForCycle(n, CycleByLot).Some?
    ensures p.Some? ==> (p.value.kind == SourceForCycle(n, CycleByLot).value && p.value.createdTime == n
      && MatureTime(p.value) == n + MaturateCicle)
  {
    match SourceForCycle(n, CycleByLot)
    case None => None
    case Some(kind) => Some(BuildPallet(kind, n))
  }

  /** The pallets of `ps` that are mature at `cycle`. */
  function MatureCount(ps: seq<BuildPallet>, cycle: int): (n: nat)
    ensures n <= |ps|
  {
    if ps == [] then 0
    else MatureCount(ps[..|ps| - 1], cycle) + (if MatureTime(ps[|ps| - 1]) <= cycle then 1 else 0)
  }

  /** Pallets in the order they were created. */
  predicate InCreationOrder(ps: seq<BuildPallet>) {
    forall i, j :: 0 <= i < j < |ps| ==> ps[i].createdTime <= ps[j].createdTime
  }

  /**
   * In a lot filled in creation order the mature pallets are a prefix: the
   * count is the number of heads get_next_pallet can return in a row
   * without raising.
   */
  lemma {:induction false} MatureCountIsPrefix(ps: seq<BuildPallet>, cycle: int)
    requires InCreationOrder(ps)
    ensures forall i :: 0 <= i < |ps| ==> (MatureTime(ps[i]) <= cycle <==> i < MatureCount(ps, cycle))
  {
    if ps != [] {
      var init := ps[..|ps| - 1];
      MatureCountIsPrefix(init, cycle);
      forall i | 0 <= i < |ps|
        ensures MatureTime(ps[i]) <= cycle <==> i < MatureCount(ps, cycle)
      {
        if i < |init| {
          assert init[i] == ps[i];
          assert ps[i].createdTime <= ps[|ps| - 1].createdTime;
        } else if MatureTime(ps[i]) > cycle && |init| > 0 {
          assert init[|init| - 1] == ps[|ps| - 2];
        }
      }
    }
  }

  datatype LotState = LotState(id: int, kind: Origin, pallets: seq<BuildPallet>, creationFinished: bool)

  /** add_pallet_to_lot may add to this lot: same type and still being filled. */
  predicate Open(l: LotState, kind: Origin) {
    l.kind == kind && !l.creationFinished
  }

  /** Lot k is the first open lot of `kind`. */
  predicate FirstOpen(lots: seq<LotState>, k: int, kind: Origin) {
    0 <= k < |lots| && Open(lots[k], kind) && forall j :: 0 <= j < k ==> !Open(lots[j], kind)
  }

  /** Lot: pallets of one type gathered until LOTE_SIZE of them have been added. */
  class Lot {
    const id: int
    const kind: Origin
    const creatingTime: int
    var pallets: seq<BuildPallet>
    var creationFinished: bool

    function State(): LotState
      reads this
    {
      LotState(id, kind, pallets, creationFinished)
    }

    /** A lot not yet finished has fewer than LOTE_SIZE pallets. */
    ghost predicate Valid()
      reads this
    {
      !creationFinished ==> |pallets| < LoteSize
    }

    constructor (id: int, kind: Origin, creatingTime: int)
      ensures Valid() && State() == LotState(id, kind, [], false) && this.creatingTime == creatingTime
    {
      this.id := id;
      this.kind := kind;
      this.creatingTime := creatingTime;
      pallets := [];
      creationFinished := false;
    }

    /** add_pallet: appends, and marks the lot finished when it reaches LOTE_SIZE. */
    method AddPallet(p: BuildPallet)
      requires Valid()
      modifies this
      ensures Valid()
      ensures pallets == old(pallets) + [p]
      ensures creationFinished == (old(creationFinished) || |pallets| == LoteSize)
    {
      pallets := pallets + [p];
      if |pallets| == LoteSize {
        creationFinished := true;
      }
    }

    /**
     * get_next_pallet: pops the head, then raises when it is not mature;
     * the head is gone even then. An empty lot raises with nothing removed.
     */
    method GetNextPallet(cycle: int) returns (r: Result<BuildPallet>)
      requires Valid()
      modifies this
      ensures Valid()
      ensures old(pallets) == [] ==> r == Failure(EmptyLot) && pallets == old(pallets)
      ensures old(pallets) != [] ==> (pallets == old(pallets)[1..]
        && r == (if MatureTime(old(pallets)[0]) > cycle then Failure(NotMature(old(pallets)[0])) else Success(old(pallets)[0])))
      ensures creationFinished == old(creationFinished)
    {
      if pallets == [] {
        return Failure(EmptyLot);
      }
      var pallet := pallets[0];
      pallets := pallets[1..];
      if MatureTime(pallet) > cycle {
        return Failure(NotMature(pallet));
      }
      return Success(pallet);
    }
  }

  /**
   * count_mature_pallets: the pallets of `lot` mature at `cycle` (the
   * script reads its global cycle counter; here it is a parameter).
   */
  method CountMaturePallets(lot: Lot, cycle: int) returns (count: nat)
    ensures count == MatureCount(lot.pallets, cycle)
  {
    var pallets := lot.pallets;
    count := 0;
    for i := 0 to |pallets|
      invariant count == MatureCount(pallets[..i], cycle)
    {
      assert pallets[..i + 1][..i] == pallets[..i];
      if MatureTime(pallets[i]) <= cycle {
        count := count + 1;
      }
    }
    assert pallets[..|pallets|] == pallets;
  }

  /** The script's globals: the list of lots and the lot being consumed. */
  class Script {
    var lots: seq<Lot>
    var consumingLot: Option<Lot>

    function LotStates(): (ls: seq<LotState>)
      reads this`lots, lots
      ensures |ls| == |lots| && forall i :: 0 <= i < |lots| ==> ls[i] == lots[i].State()
    {
      var l := lots;
      seq(|l|, i reads l requires 0 <= i < |l| => l[i].State())
    }

    /**
     * Lot k has id k + 1 (ids are len(lots) + 1 when a lot is made, and it
     * is appended at once); every lot keeps its flag consistent; the lot
     * being consumed is always the first.
     */
    ghost predicate Valid()
      reads this, lots
    {
      && (forall k :: 0 <= k < |lots| ==> lots[k].id == k + 1 && lots[k].Valid())
      && (consumingLot.Some? ==> |lots| > 0 && consumingLot.value == lots[0])
    }

    constructor ()
      ensures Valid() && lots == [] && consumingLot == None
    {
      lots := [];
      consumingLot := None;
    }

    /** The first lot of `kind` that is still being filled, if any. */
    method FindOpenLot(kind: Origin) returns (found: Option<int>)
      ensures found.None? <==> forall k :: 0 <= k < |lots| ==> !Open(lots[k].State(), kind)
      ensures found.Some? ==> FirstOpen(LotStates(), found.value, kind)
    {
      for k := 0 to |lots|
        invariant forall j :: 0 <= j < k ==> !Open(lots[j].State(), kind)
      {
        if lots[k].kind == kind && !lots[k].creationFinished {
          return Some(k);
        }
      }
      return None;
    }

    /**
     * add_pallet_to_lot: the pallet joins the first lot of its type that is
     * still being filled; if there is none, a lot with id len(lots) + 1 is
     * appended and gets it.
     */
    method AddPalletToLot(p: BuildPallet) returns (clot: Lot)
      requires Valid()
      modifies this, lots
      ensures Valid() && consumingLot == old(consumingLot)
      ensures (exists k :: FirstOpen(old(LotStates()), k, p.kind)) ==>
        && lots == old(lots)
        && exists k :: (FirstOpen(old(LotStates()), k, p.kind) && clot == lots[k]
             && LotStates() == old(LotStates())[k := WithPallet(old(LotStates())[k], p)])
      ensures !(exists k :: FirstOpen(old(LotStates()), k, p.kind)) ==>
        && fresh(clot) && lots == old(lots) + [clot] && clot.creatingTime == p.createdTime
        && LotStates() == old(LotStates()) + [LotState(|old(lots)| + 1, p.kind, [p], false)]
    {
      var found := FindOpenLot(p.kind);
      if found.Some? {
        clot := lots[found.value];
        AddToLot(found.value, p);
        return;
      }
      assert !exists k :: FirstOpen(old(LotStates()), k, p.kind);
      clot := new Lot(|lots| + 1, p.kind, p.createdTime);
      ghost var before := LotStates();
      assert forall k :: 0 <= k < |lots| ==> lots[k] != clot;
      lots := lots + [clot];
      clot.AddPallet(p);
      assert forall k :: 0 <= k < |before| ==> LotStates()[k] == before[k];
      assert LotStates()[|before|] == LotState(|before| + 1, p.kind, [p], false);
    }

    /** The existing-lot branch of add_pallet_to_lot: lot k gets the pallet, nothing else changes. */
    method AddToLot(k: int, p: BuildPallet)
      requires Valid() && 0 <= k < |lots|
      modifies lots[k]
      ensures Valid()
      ensures LotStates() == old(LotStates())[k := WithPallet(old(LotStates())[k], p)]
    {
      lots[k].AddPallet(p);
      assert forall j :: 0 <= j < |lots| && j != k ==> lots[j] != lots[k] by {
        forall j | 0 <= j < |lots| && j != k
          ensures lots[j] != lots[k]
        {
          assert lots[j].id == j + 1 && lots[k].id == k + 1;
        }
      }
    }

    /**
     * consuming: the first lot becomes the lot being consumed, and its head
     * is taken as get_next_pallet takes it. Since get_next_pallet never
     * returns None, the lot being consumed is always the first one.
     */
    method Consuming(cycle: int) returns (r: Result<BuildPallet>)
      requires Valid()
      modifies this, lots
      ensures Valid() && lots == old(lots)
      ensures old(lots) == [] ==> r == Failure(NoLots) && LotStates() == old(LotStates())
      ensures old(lots) != [] ==> (consumingLot == Some(lots[0])
        && LotStates()[1..] == old(LotStates())[1..]
        && var head := old(LotStates())[0];
           && LotStates()[0] == head.(pallets := if head.pallets == [] then [] else head.pallets[1..])
           && (head.pallets == [] ==> r == Failure(EmptyLot))
           && (head.pallets != [] && MatureTime(head.pallets[0]) > cycle ==> r == Failure(NotMature(head.pallets[0])))
           && (head.pallets != [] && MatureTime(head.pallets[0]) <= cycle ==> r == Success(head.pallets[0])))
    {
      if consumingLot.None? {
        if lots == [] {
          return Failure(NoLots);
        }
        consumingLot := Some(lots[0]);
      }
      ghost var before := LotStates();
      var lot := consumingLot.value;
      r := lot.GetNextPallet(cycle);
      assert forall j :: 1 <= j < |lots| ==> lots[j] != lot by {
        forall j | 1 <= j < |lots|
          ensures lots[j] != lot
        {
          assert lots[j].id == j + 1 && lot.id == 1;
        }
      }
      assert LotStates()[1..] == before[1..];
    }
  }

  /** What Lot.add_pallet makes of lot `l`. */
  function WithPallet(l: LotState, p: BuildPallet): LotState {
    l.(pallets := l.pallets + [p], creationFinished := l.creationFinished || |l.pallets| + 1 == LoteSize)
  }
}

=== FILE: consumption.dfy ===
/**
 * The row choices of the consumption strategies of simulation.py. Each
 * considers only belts whose head is a mature pallet of the active origin
 * (HeadReady); the engine then pops that head.
 */
module Consumption {
  import opened Options
  import opened Belts

  /** Some belt of `rows` has a head that may be popped for `origin`. */
  predicate AnyReady(belts: seq<seq<Pallet>>, rows: seq<int>, origin: Origin, now: int)
    requires ValidRows(belts, rows)
  {
    exists j :: 0 <= j < |rows| && HeadReady(belts, rows[j], origin, now)
  }

  /**
   * Belt `row` of `rows` has a ready head and the fewest free slots among
   * the belts of `rows` with a ready head, the lowest row on ties.
   */
  predicate LeastFreeReady(belts: seq<seq<Pallet>>, rows: seq<int>, row: int, origin: Origin, now: int, capacity: int)
    requires ValidRows(belts, rows)
  {
    && row in rows && 0 <= row < |belts| && HeadReady(belts, row, origin, now)
    && forall j :: 0 <= j < |rows| && HeadReady(belts, rows[j], origin, now) ==>
         Free(belts, row, capacity) < Free(belts, rows[j], capacity)
         || (Free(belts, row, capacity) == Free(belts, rows[j], capacity) && row <= rows[j])
  }

  /**
   * PrioritizedFirstThreeConsumption's row for `origin`: the first of its
   * dedicated belts, then the shared ones, whose head is ready.
   */
  predicate FirstReadyRow(belts: seq<seq<Pallet>>, origin: Origin, now: int, row: int)
    requires |belts| == Rows
  {
    var rows := OriginRows(origin) + DynamicRows;
    exists k :: 0 <= k < |rows| && rows[k] == row && HeadReady(belts, rows[k], origin, now)
      && forall j :: 0 <= j < k ==> !HeadReady(belts, rows[j], origin, now)
  }

  /**
   * Belt `row` of `rows` has a ready head and the longest queue among the
   * belts of `rows` with a ready head, the first such in the order of `rows`.
   */
  predicate LongestReadyAt(belts: seq<seq<Pallet>>, rows: seq<int>, row: int, origin: Origin, now: int)
    requires ValidRows(belts, rows)
  {
    exists k :: 0 <= k < |rows| && rows[k] == row && HeadReady(belts, rows[k], origin, now)
      && (forall j :: 0 <= j < |rows| && HeadReady(belts, rows[j], origin, now) ==> |belts[rows[j]]| <= |belts[rows[k]]|)
      && (forall j :: 0 <= j < k && HeadReady(belts, rows[j], origin, now) ==> |belts[rows[j]]| < |belts[rows[k]]|)
  }

  /**
   * LongestQueueHeadConsumption's row for `origin`: among its dedicated and
   * the shared belts with a ready head, the first with the longest queue.
   */
  predicate LongestReadyRow(belts: seq<seq<Pallet>>, origin: Origin, now: int, row: int)
    requires |belts| == Rows
  {
    LongestReadyAt(belts, OriginRows(origin) + DynamicRows, row, origin, now)
  }

  /**
   * DynamicLeastFreeSpaceConsumption's row for `origin`: the shared belts
   * when one of them has a ready head, else the dedicated ones, and within
   * that group the LeastFreeReady belt.
   */
  predicate LeastFreeRow(belts: seq<seq<Pallet>>, origin: Origin, now: int, row: int)
    requires |belts| == Rows
  {
    var group := if AnyReady(belts, DynamicRows, origin, now) then DynamicRows else OriginRows(origin);
    LeastFreeReady(belts, group, row, origin, now, Cols)
  }

  /**
   * DynamicLeastFreeSpaceConsumption's pick_row: among the belts of `rows`
   * with a ready head, the one with the fewest free slots, the lowest row
   * on ties (the minimum of the pair (free, row)); None when no head is ready.
   */
  method PickLeastFree(belts: seq<seq<Pallet>>, rows: seq<int>, origin: Origin, now: int, capacity: int)
    returns (r: Option<int>)
    requires ValidRows(belts, rows)
    ensures r.None? <==> !AnyReady(belts, rows, origin, now)
    ensures r.Some? ==> LeastFreeReady(belts, rows, r.value, origin, now, capacity)
  {
    r := None;
    var bestFree := 0;
    for i := 0 to |rows|
      invariant r.None? ==> forall j :: 0 <= j < i ==> !HeadReady(belts, rows[j], origin, now)
      invariant r.Some? ==> (r.value in rows[..i] && 0 <= r.value < |belts| && HeadReady(belts, r.value, origin, now)
        && bestFree == Free(belts, r.value, capacity)
        && forall j :: 0 <= j < i && HeadReady(belts, rows[j], origin, now) ==>
             bestFree < Free(belts, rows[j], capacity)
             || (bestFree == Free(belts, rows[j], capacity) && r.value <= rows[j]))
    {
      var row := rows[i];
      var belt := belts[row];
      if belt == [] {
        continue;
      }
      var head := belt[0];
      if head.origin != origin || !IsMature(head, now) {
        continue;
      }
      var free := capacity - |belt|;
      if r.None? || free < bestFree || (free == bestFree && row < r.value) {
        bestFree := free;
        r := Some(row);
      }
    }
    assert rows[..|rows|] == rows;
  }

  /**
   * LongestQueueHeadConsumption's choice: among the belts of `rows` with a
   * ready head, the longest queue, the first such belt in `rows` on ties
   * (Python's max keeps the first maximum); None when no head is ready.
   */
  method LongestReadyQueue(belts: seq<seq<Pallet>>, rows: seq<int>, origin: Origin, now: int)
    returns (r: Option<int>)
    requires ValidRows(belts, rows)
    ensures r.None? <==> !AnyReady(belts, rows, origin, now)
    ensures r.Some? ==> r.value in rows && HeadReady(belts, r.value, origin, now)
    ensures r.Some? ==> LongestReadyAt(belts, rows, r.value, origin, now)
  {
    // One pass over `rows` that both filters the candidates and keeps the
    // first longest one seen so far, as max() over candidate_rows does.
    var best: Option<nat> := None;
    for i := 0 to |rows|
      invariant best.None? ==> forall j :: 0 <= j < i ==> !HeadReady(belts, rows[j], origin, now)
      invariant best.Some? ==> (best.value < i && HeadReady(belts, rows[best.value], origin, now)
        && (forall j :: 0 <= j < i && HeadReady(belts, rows[j], origin, now) ==> |belts[rows[j]]| <= |belts[rows[best.value]]|)
        && (forall j :: 0 <= j < best.value && HeadReady(belts, rows[j], origin, now) ==> |belts[rows[j]]| < |belts[rows[best.value]]|))
    {
      var row := rows[i];
      if belts[row] != [] {
        var head := belts[row][0];
        if head.origin == origin && IsMature(head, now) {
          if best.None? || |belts[row]| > |belts[rows[best.value]]| {
            best := Some(i);
          }
        }
      }
    }
    if best.None? {
      return None;
    }
    return Some(rows[best.value]);
  }
}

=== FILE: lab_allocation.dfy ===
/**
 * The machine rotation shared by the two exploratory scripts
 * (lab_alocation.py and build_script.py): cycle n is served by machine
 * n mod 3, and machines B and C only start after one and two lots' worth of
 * cycles.
 */
module MachineTurns {
  import opened Options
  import opened Belts

  const CreateMachine: int := 3

  /** create_pallet's choice of source for cycle `n`, None when no machine produces. */
  function SourceForCycle(n: int, cycleByLot: int): Option<Origin> {
    if n % CreateMachine == 1 then Some(A)
    else if n % CreateMachine == 2 && n > cycleByLot then Some(B)
    else if n % CreateMachine == 0 && n > cycleByLot * 2 then Some(C)
    else None
  }

  /** Before B starts, only A produces, on every third cycle. */
  lemma OnlyABeforeFirstLot(n: int, cycleByLot: int)
    requires 0 <= cycleByLot && n <= cycleByLot
    ensures SourceForCycle(n, cycleByLot) == Some(A) || SourceForCycle(n, cycleByLot) == None
  {
  }

  /** Machine A works on every third cycle from the start, whatever the thresholds. */
  lemma AOnEveryThirdCycle(n: int, cycleByLot: int)
    ensures SourceForCycle(n, cycleByLot) == Some(A) <==> n % 3 == 1
  {
  }

  /**
   * After the warm-up, any three consecutive cycles produce one pallet of
   * each source.
   */
  lemma ThreeCyclesProduceEachSource(n: int, cycleByLot: int)
    requires cycleByLot >= 0 && n > cycleByLot * 2
    ensures SourceForCycle(n, cycleByLot).Some? && SourceForCycle(n + 1, cycleByLot).Some?
      && SourceForCycle(n + 2, cycleByLot).Some?
    ensures SourceForCycle(n, cycleByLot) != SourceForCycle(n + 1, cycleByLot)
      && SourceForCycle(n + 1, cycleByLot) != SourceForCycle(n + 2, cycleByLot)
      && SourceForCycle(n, cycleByLot) != SourceForCycle(n + 2, cycleByLot)
  {
    assert (n + 1) % 3 == (n % 3 + 1) % 3;
    assert (n + 2) % 3 == (n % 3 + 2) % 3;
  }
}

/**
 * The exploratory cycle-stepped allocator of lab_alocation.py: pallets are
 * made by three machines in turn, gathered into lots of LOTE_SIZE, and
 * stored on storage lines with a source affinity; three dynamic lines are
 * handed whole lots through the `dynamical_lot` queue. The module-level
 * globals of the script (lots, dynamical_lot, the line lists and the id
 * counters) are the fields of class Plant.
 */
module LabAllocation {
  import opened Options
  import opened Belts
  import opened MachineTurns

  // The ceil-of-float constants of the script, as the integers they evaluate to
  // (consuming time per pallet 24 / 3 = 8 cycles).
  const LoteSize: int := 90
  const CycleByLot: int := 90
  const MaturateCicle: int := 150

  datatype LabPallet = LabPallet(source: Origin, createdTime: int, id: int)

  /** Pallet.mature_time: the cycle from which the pallet may be consumed. */
  function MatureTime(p: LabPallet): int {
    p.createdTime + MaturateCicle
  }

  /** The source create_pallet gives cycle `n`, with this script's CYCLE_BY_LOT. */
  function PalletSource(n: int): Option<Origin> {
    SourceForCycle(n, CycleByLot)
  }

  /** count_mature_items: the pallets of `source` whose mature time is at most `cycle`. */
  function CountMature(ps: seq<LabPallet>, source: Origin, cycle: int): (n: nat)
    ensures n <= |ps|
  {
    if ps == [] then 0
    else (if ps[0].source == source && MatureTime(ps[0]) <= cycle then 1 else 0) + CountMature(ps[1..], source, cycle)
  }

  /** A later cycle never has fewer mature pallets. */
  lemma {:induction false} CountMatureMonotone(ps: seq<LabPallet>, source: Origin, c1: int, c2: int)
    requires c1 <= c2
    ensures CountMature(ps, source, c1) <= CountMature(ps, source, c2)
  {
    if ps != [] {
      CountMatureMonotone(ps[1..], source, c1, c2);
    }
  }

  /**
   * Appending a pallet at the tail, as add_pallet does, adds one to the
   * count exactly when that pallet is of `source` and mature.
   */
  lemma {:induction false} CountMatureAppend(ps: seq<LabPallet>, p: LabPallet, source: Origin, cycle: int)
    ensures CountMature(ps + [p], source, cycle)
         == CountMature(ps, source, cycle) + (if p.source == source && MatureTime(p) <= cycle then 1 else 0)
  {
    if ps != [] {
      assert (ps + [p])[1..] == ps[1..] + [p];
      CountMatureAppend(ps[1..], p, source, cycle);
    }
  }

  /** Once every pallet is mature, the count is the number of pallets of that source. */
  lemma {:induction false} CountMatureAllMature(ps: seq<LabPallet>, source: Origin, cycle: int)
    requires forall i :: 0 <= i < |ps| ==> MatureTime(ps[i]) <= cycle && ps[i].source == source
    ensures CountMature(ps, source, cycle) == |ps|
  {
    if ps != [] {
      assert forall i :: 0 <= i < |ps| - 1 ==> ps[1..][i] == ps[i + 1];
      CountMatureAllMature(ps[1..], source, cycle);
    }
  }

  /** A storage line as a value: capacity, active lot and source, pallets head first. */
  datatype LineState = LineState(size: int, activeLot: Option<int>, activeSource: Option<Origin>, pallets: seq<LabPallet>)

  /** can_add_pallet: room left, and no source yet or the pallet's source. */
  predicate CanAdd(l: LineState, p: LabPallet) {
    |l.pallets| < l.size && (l.activeSource == None || l.activeSource == Some(p.source))
  }

  /** What StorageLine.add_pallet makes of a line that accepts `p`. */
  function Stored(l: LineState, p: LabPallet): LineState {
    l.(activeSource := Some(p.source), pallets := l.pallets + [p])
  }

  /** alocate_to_dynamic_storage's test: the line is reserved for lot `lotId` and accepts `p`. */
  predicate TakesLot(l: LineState, lotId: int, p: LabPallet) {
    l.activeLot == Some(lotId) && CanAdd(l, p)
  }

  /** alocate_to_storage's test: the line already has the pallet's source and accepts `p`. */
  predicate TakesSource(l: LineState, p: LabPallet) {
    l.activeSource == Some(p.source) && CanAdd(l, p)
  }

  /** The head of the line exists and is mature at `cycle`. */
  predicate HeadMature(l: LineState, cycle: int) {
    l.pallets != [] && MatureTime(l.pallets[0]) <= cycle
  }

  /** A lot as a value. */
  datatype LotState = LotState(id: int, source: Origin, pallets: seq<LabPallet>, creationFinished: bool)

  /** add_pallet_to_lot may add to this lot: same source and still being filled. */
  predicate Open(l: LotState, source: Origin) {
    l.source == source && !l.creationFinished
  }

  /** Lot k is the first open lot of `source`. */
  predicate FirstOpen(lots: seq<LotState>, k: int, source: Origin) {
    0 <= k < |lots| && Open(lots[k], source) && forall j :: 0 <= j < k ==> !Open(lots[j], source)
  }

  /** What Lot.add_pallet makes of lot `l`. */
  function WithPallet(l: LotState, p: LabPallet): LotState {
    l.(pallets := l.pallets + [p], creationFinished := l.creationFinished || |l.pallets| + 1 == LoteSize)
  }

  /** Lot: pallets of one source gathered until LOTE_SIZE of them have been added. */
  class Lot {
    const id: int
    const source: Origin
    const creatingTime: int
    var pallets: seq<LabPallet>
    var creationFinished: bool

    function State(): LotState
      reads this
    {
      LotState(id, source, pallets, creationFinished)
    }

    /** While a lot is filled, the flag says exactly that LOTE_SIZE pallets are in it. */
    ghost predicate Filling()
      reads this
    {
      |pallets| <= LoteSize && (creationFinished <==> |pallets| == LoteSize)
    }

    constructor (id: int, source: Origin, creatingTime: int)
      ensures Filling() && this.id == id && this.source == source && this.creatingTime == creatingTime
      ensures pallets == [] && !creationFinished
    {
      this.id := id;
      this.source := source;
      this.creatingTime := creatingTime;
      pallets := [];
      creationFinished := false;
    }

    /** add_pallet: appends, and marks the lot finished when it reaches LOTE_SIZE. */
    method AddPallet(p: LabPallet)
      modifies this
      ensures pallets == old(pallets) + [p]
      ensures creationFinished == (old(creationFinished) || |pallets| == LoteSize)
      ensures old(Filling()) && !old(creationFinished) ==> Filling()
    {
      pallets := pallets + [p];
      if |pallets| == LoteSize {
        creationFinished := true;
      }
    }

    /**
     * get_next_pallet: the head, removed, unless the lot is empty or a cycle
     * is given and the head is not mature by then.
     */
    method GetNextPallet(cycle: Option<int>) returns (r: Option<LabPallet>)
      modifies this
      ensures r.Some? <==> old(pallets) != [] && (cycle.None? || MatureTime(old(pallets)[0]) <= cycle.value)
      ensures r.Some? ==> r.value == old(pallets)[0] && pallets == old(pallets)[1..]
      ensures r.None? ==> pallets == old(pallets)
      ensures creationFinished == old(creationFinished)
    {
      if pallets == [] {
        return None;
      }
      var pallet := pallets[0];
      if cycle.Some? && MatureTime(pallet) > cycle.value {
        return None;
      }
      pallets := pallets[1..];
      return Some(pallet);
    }
  }

  /** StorageLine: a FIFO line of `size` slots with an active lot and source. */
  class StorageLine {
    const id: int
    const size: int
    var activeLot: Option<int>
    var activeSource: Option<Origin>
    var pallets: seq<LabPallet>

    ghost predicate Valid()
      reads this
    {
      0 <= |pallets| <= size
    }

    function State(): LineState
      reads this
    {
      LineState(size, activeLot, activeSource, pallets)
    }

    constructor (id: int, size: int, activeSource: Option<Origin>)
      requires size >= 0
      ensures Valid() && this.id == id && State() == LineState(size, None, activeSource, [])
    {
      this.id := id;
      this.size := size;
      this.activeLot := None;
      this.activeSource := activeSource;
      this.pallets := [];
    }

    /** count_mature_items over this line's pallets. */
    function CountMatureItems(source: Origin, cycle: int): (n: nat)
      reads this
      ensures n <= |pallets|
    {
      CountMature(pallets, source, cycle)
    }

    /** count_empty_spaces: never negative and zero exactly when the line is full. */
    function CountEmptySpaces(): (n: int)
      reads this
      ensures Valid() ==> 0 <= n <= size
      ensures Valid() ==> (n == 0 <==> |pallets| == size)
    {
      size - |pallets|
    }

    predicate CanAddPallet(p: LabPallet)
      reads this
    {
      CanAdd(State(), p)
    }

    /**
     * add_pallet: refused with no change when can_add_pallet fails;
     * otherwise appended at the tail, and the line's source is then the
     * pallet's.
     */
    method AddPallet(p: LabPallet) returns (ok: bool)
      requires Valid()
      modifies this
      ensures Valid()
      ensures ok == CanAdd(old(State()), p)
      ensures ok ==> State() == Stored(old(State()), p)
      ensures !ok ==> State() == old(State())
    {
      if !CanAddPallet(p) {
        return false;
      }
      if activeSource == None {
        activeSource := Some(p.source);
      }
      pallets := pallets + [p];
      return true;
    }

    /** consume_pallet: the head, removed, only when it is mature at `cycle`. */
    method ConsumePallet(cycle: int) returns (r: Option<LabPallet>)
      requires Valid()
      modifies this
      ensures Valid()
      ensures r.Some? <==> HeadMature(old(State()), cycle)
      ensures r.Some? ==> r.value == old(pallets)[0] && State() == old(State()).(pallets := old(pallets)[1..])
      ensures r.None? ==> State() == old(State())
    {
      if pallets == [] {
        return None;
      }
      var pallet := pallets[0];
      if MatureTime(pallet) > cycle {
        return None;
      }
      pallets := pallets[1..];
      return Some(pallet);
    }
  }

  /**
   * atribute_dynamic_lines on values: each line without an active lot, in
   * order, takes the next id from the front of the queue (or stays without
   * one once the queue is empty). Returns the new active lots and what is
   * left of the queue.
   */
  function Attribute(actives: seq<Option<int>>, queue: seq<int>): (r: (seq<Option<int>>, seq<int>))
    ensures |r.0| == |actives| && |r.1| <= |queue|
  {
    if actives == [] then ([], queue)
    else if actives[0].Some? then
      var t := Attribute(actives[1..], queue);
      ([actives[0]] + t.0, t.1)
    else if queue == [] then
      var t := Attribute(actives[1..], queue);
      ([None] + t.0, t.1)
    else
      var t := Attribute(actives[1..], queue[1..]);
      ([Some(queue[0])] + t.0, t.1)
  }

  /**
   * Lines that already have a lot keep it; a line that changes gets an id
   * of the queue; what is left of the queue is its tail, so ids are handed
   * out from the front in order.
   */
  lemma {:induction false} AttributeKeepsAndTakesFromFront(actives: seq<Option<int>>, queue: seq<int>)
    ensures var r := Attribute(actives, queue);
      && r.1 == queue[|queue| - |r.1|..]
      && (forall i :: 0 <= i < |actives| && actives[i].Some? ==> r.0[i] == actives[i])
      && (forall i :: 0 <= i < |actives| && r.0[i] != actives[i] ==> r.0[i].Some? && r.0[i].value in queue)
  {
    if actives != [] {
      var rest := if actives[0].None? && queue != [] then queue[1..] else queue;
      AttributeKeepsAndTakesFromFront(actives[1..], rest);
      var t := Attribute(actives[1..], rest);
      var r := Attribute(actives, queue);
      assert r.0 == [r.0[0]] + t.0 && r.1 == t.1;
      assert forall i :: 1 <= i < |actives| ==> actives[i] == actives[1..][i - 1] && r.0[i] == t.0[i - 1];
      if actives[0].None? && queue != [] {
        assert queue[1..][|rest| - |t.1|..] == queue[|queue| - |t.1|..];
        assert forall x :: x in rest ==> x in queue;
      }
    }
  }

  /** While ids remain queued after the pass, every line has a lot. */
  lemma {:induction false} AttributeFillsWhileQueued(actives: seq<Option<int>>, queue: seq<int>)
    requires Attribute(actives, queue).1 != []
    ensures forall i :: 0 <= i < |actives| ==> Attribute(actives, queue).0[i].Some?
  {
    if actives != [] {
      var rest := if actives[0].None? && queue != [] then queue[1..] else queue;
      AttributeFillsWhileQueued(actives[1..], rest);
      var t := Attribute(actives[1..], rest);
      var r := Attribute(actives, queue);
      assert forall i :: 1 <= i < |actives| ==> r.0[i] == t.0[i - 1];
    }
  }

  /**
   * One step of the pass: when entry i of `before` (still as in `a0`) has
   * been attributed from queue `q`, leaving `after` and `q'`, the pass over
   * `a0` is `after`'s first i + 1 entries followed by the pass over the rest.
   */
  lemma AttributeStep(a0: seq<Option<int>>, q0: seq<int>, i: int, before: seq<Option<int>>, q: seq<int>,
                      after: seq<Option<int>>, q': seq<int>)
    requires 0 <= i < |a0| && |before| == |a0| && before[i..] == a0[i..]
    requires Attribute(a0, q0).0 == before[..i] + Attribute(a0[i..], q).0
    requires Attribute(a0, q0).1 == Attribute(a0[i..], q).1
    requires if before[i].None? && q != [] then after == before[i := Some(q[0])] && q' == q[1..]
             else after == before && q' == q
    ensures |after| == |a0| && after[i + 1..] == a0[i + 1..]
    ensures Attribute(a0, q0).0 == after[..i + 1] + Attribute(a0[i + 1..], q').0
    ensures Attribute(a0, q0).1 == Attribute(a0[i + 1..], q').1
  {
    assert a0[i..][1..] == a0[i + 1..] && a0[i..][0] == before[i];
    assert Attribute(a0[i..], q).0 == [after[i]] + Attribute(a0[i + 1..], q').0;
    assert after[..i + 1] == before[..i] + [after[i]];
  }

  /**
   * The ids of `ids` whose lot does not come from `source`, in order; the
   * lot with id k is the k-th of `sources`.
   */
  function DropSource(ids: seq<int>, sources: seq<Origin>, source: Origin): (r: seq<int>)
    requires forall i :: 0 <= i < |ids| ==> 1 <= ids[i] <= |sources|
    ensures forall id :: id in r <==> id in ids && sources[id - 1] != source
    ensures |r| <= |ids|
  {
    if ids == [] then []
    else
      var last := ids[|ids| - 1];
      assert forall id :: id in ids <==> id in ids[..|ids| - 1] || id == last;
      DropSource(ids[..|ids| - 1], sources, source) + (if sources[last - 1] != source then [last] else [])
  }

  /** Dropping the lots of `source` keeps every other lot with all its copies and removes the rest entirely. */
  lemma {:induction false} DropSourceKeepsCopies(ids: seq<int>, sources: seq<Origin>, source: Origin, id: int)
    requires forall i :: 0 <= i < |ids| ==> 1 <= ids[i] <= |sources|
    ensures multiset(DropSource(ids, sources, source))[id] ==
      (if id in ids && sources[id - 1] != source then multiset(ids)[id] else 0)
  {
    if ids != [] {
      var front, last := ids[..|ids| - 1], ids[|ids| - 1];
      assert ids == front + [last];
      DropSourceKeepsCopies(front, sources, source, id);
      var kept := if sources[last - 1] != source then [last] else [];
      assert DropSource(ids, sources, source) == DropSource(front, sources, source) + kept;
      assert multiset(DropSource(ids, sources, source))[id] == multiset(DropSource(front, sources, source))[id] + multiset(kept)[id];
      assert multiset(ids)[id] == multiset(front)[id] + multiset([last])[id];
      assert id in ids <==> id in front || id == last;
      if id == last {
        assert multiset(kept)[id] == (if sources[last - 1] != source then 1 else 0);
      } else {
        assert multiset(kept)[id] == 0 && multiset([last])[id] == 0;
      }
    }
  }

  /** The line's head may be taken and it is the first such line of `lines`. */
  predicate FirstMature(lines: seq<LineState>, k: int, cycle: int)
  {
    0 <= k < |lines| && HeadMature(lines[k], cycle)
    && forall j :: 0 <= j < k ==> !HeadMature(lines[j], cycle)
  }

  /** What consuming leaves of line `l` after taking its head: a dynamic line that empties forgets its lot and source. */
  function AfterConsume(l: LineState, dynamic: bool): LineState
    requires l.pallets != []
  {
    var rest := l.(pallets := l.pallets[1..]);
    if dynamic && rest.pallets == [] then rest.(activeSource := None, activeLot := None) else rest
  }

  /** The initial source of the twelve lines: none on the dynamic lines, then A, B and C three times each. */
  const InitialSources: seq<Option<Origin>> :=
    [None, None, None, Some(A), Some(A), Some(A), Some(B), Some(B), Some(B), Some(C), Some(C), Some(C)]

  /** Fresh, distinct, empty lines of 22 slots numbered from `firstId`, with the given sources. */
  method NewLines(firstId: int, sources: seq<Option<Origin>>) returns (lines: seq<StorageLine>)
    ensures |lines| == |sources|
    ensures forall i :: 0 <= i < |lines| ==> (fresh(lines[i]) && lines[i].Valid()
      && lines[i].id == firstId + i && lines[i].State() == LineState(22, None, sources[i], []))
    ensures forall i, j :: 0 <= i < j < |lines| ==> lines[i] != lines[j]
  {
    lines := [];
    for i := 0 to |sources|
      invariant |lines| == i
      invariant forall k :: 0 <= k < i ==> (fresh(lines[k]) && lines[k].Valid()
        && lines[k].id == firstId + k && lines[k].State() == LineState(22, None, sources[k], []))
      invariant forall k, j :: 0 <= k < j < i ==> lines[k] != lines[j]
    {
      var line := new StorageLine(firstId + i, 22, sources[i]);
      lines := lines + [line];
    }
  }

  /** The lines with their active lots blanked out: what atribute_dynamic_lines leaves alone. */
  function WithoutLots(ls: seq<LineState>): (r: seq<LineState>)
    ensures |r| == |ls| && forall i :: 0 <= i < |ls| ==> r[i] == ls[i].(activeLot := None)
  {
    seq(|ls|, i requires 0 <= i < |ls| => ls[i].(activeLot := None))
  }

  /** The script's module-level state: lots, the dynamic-lot queue, the lines and the id counters. */
  class Plant {
    var lots: seq<Lot>
    var dynamicalLot: seq<int>
    const dynamicStorageLines: seq<StorageLine>
    const storageLines: seq<StorageLine>
    var lotCounter: int
    var palletCounter: int

    /** Dynamic lines first, then the storage lines: the order find_first_mature_pallet scans. */
    function AllLines(): seq<StorageLine> {
      dynamicStorageLines + storageLines
    }

    function Lines(): (ls: seq<LineState>)
      reads AllLines()
      ensures |ls| == |AllLines()|
      ensures forall i :: 0 <= i < |ls| ==> ls[i] == AllLines()[i].State()
    {
      seq(|AllLines()|, i reads AllLines() requires 0 <= i < |AllLines()| => AllLines()[i].State())
    }

    /** The active lots of the dynamic lines, in order. */
    function DynActives(): (a: seq<Option<int>>)
      reads dynamicStorageLines
      ensures |a| == |dynamicStorageLines|
      ensures forall i :: 0 <= i < |a| ==> a[i] == dynamicStorageLines[i].activeLot
    {
      seq(|dynamicStorageLines|, i reads dynamicStorageLines requires 0 <= i < |dynamicStorageLines| => dynamicStorageLines[i].activeLot)
    }

    /** The source of every lot, in list order. */
    function Sources(): (s: seq<Origin>)
      reads this`lots
      ensures |s| == |lots| && forall i :: 0 <= i < |lots| ==> s[i] == lots[i].source
    {
      var ls := lots;
      seq(|ls|, i requires 0 <= i < |ls| => ls[i].source)
    }

    /**
     * Lots are numbered 1, 2, ... in the order they are created and never
     * removed, every lot is being filled consistently with its flag, and the
     * queue only names existing lots.
     */
    ghost predicate LotsValid()
      reads this, lots
    {
      |lots| == lotCounter && Numbered() && Queued(|lots|) && forall k :: 0 <= k < |lots| ==> lots[k].Filling()
    }

    /** Lot k of the list has id k + 1. */
    ghost predicate Numbered()
      reads this`lots, lots
    {
      forall k :: 0 <= k < |lots| ==> lots[k].id == k + 1
    }

    /** Every queued id is between 1 and `last`. */
    ghost predicate Queued(last: int)
      reads this`dynamicalLot
    {
      forall i :: 0 <= i < |dynamicalLot| ==> 1 <= dynamicalLot[i] <= last
    }

    /** The lines are distinct objects and none holds more than its size. */
    ghost predicate LinesValid()
      reads AllLines()
    {
      && (forall i, j :: 0 <= i < j < |AllLines()| ==> AllLines()[i] != AllLines()[j])
      && (forall i :: 0 <= i < |AllLines()| ==> AllLines()[i].Valid())
    }

    ghost predicate Valid()
      reads this, lots, AllLines()
    {
      LinesValid() && LotsValid() && palletCounter >= 0
    }

    /** The lots as values, in list order. */
    function LotStates(): (ls: seq<LotState>)
      reads this`lots, lots
      ensures |ls| == |lots| && forall i :: 0 <= i < |lots| ==> ls[i] == lots[i].State()
    {
      var ls := lots;
      seq(|ls|, i reads ls requires 0 <= i < |ls| => ls[i].State())
    }

    /** The configuration the script runs: three dynamic lines, then three storage lines per source, 22 slots each. */
    constructor ()
      ensures Valid() && lots == [] && dynamicalLot == [] && palletCounter == 0
      ensures |dynamicStorageLines| == 3 && |storageLines| == 9
      ensures forall i :: 0 <= i < 12 ==> Lines()[i] == LineState(22, None, InitialSources[i], [])
    {
      var dynamic := NewLines(1, InitialSources[..3]);
      var storage := NewLines(4, InitialSources[3..]);
      dynamicStorageLines := dynamic;
      storageLines := storage;
      lots := [];
      dynamicalLot := [];
      lotCounter := 0;
      palletCounter := 0;
    }

    /**
     * create_pallet: the pallet of cycle `n`, if a machine produces one; it
     * takes the next pallet id and matures MATURATE_CICLE cycles later.
     */
    method CreatePallet(n: int) returns (p: Option<LabPallet>)
      requires Valid()
      modifies this
      ensures Valid()
      ensures p.Some? <==> PalletSource(n).Some?
      ensures p.Some? ==> (p.value == LabPallet(PalletSource(n).value, n, old(palletCounter) + 1)
        && MatureTime(p.value) == n + MaturateCicle)
      ensures palletCounter == old(palletCounter) + (if p.Some? then 1 else 0)
      ensures lots == old(lots) && dynamicalLot == old(dynamicalLot) && lotCounter == old(lotCounter)
    {
      var source := PalletSource(n);
      if source.None? {
        return None;
      }
      palletCounter := palletCounter + 1;
      return Some(LabPallet(source.value, n, palletCounter));
    }

    /**
     * atribute_dynamic_lines: every dynamic line without an active lot takes
     * the next id from the front of dynamical_lot. Nothing else changes.
     */
    method AtributeDynamicLines()
      requires LinesValid()
      modifies this`dynamicalLot, dynamicStorageLines
      ensures LinesValid()
      ensures DynActives() == Attribute(old(DynActives()), old(dynamicalLot)).0
      ensures dynamicalLot == Attribute(old(DynActives()), old(dynamicalLot)).1
      ensures dynamicalLot == old(dynamicalLot)[|old(dynamicalLot)| - |dynamicalLot|..]
      ensures WithoutLots(Lines()) == WithoutLots(old(Lines()))
      ensures Lines()[|dynamicStorageLines|..] == old(Lines())[|dynamicStorageLines|..]
    {
      ghost var a0 := DynActives();
      ghost var q0 := dynamicalLot;
      var n := |dynamicStorageLines|;
      assert a0[0..] == a0;
      for i := 0 to n
        invariant LinesValid()
        invariant |DynActives()| == n && DynActives()[i..] == a0[i..]
        invariant Attribute(a0, q0).0 == DynActives()[..i] + Attribute(a0[i..], dynamicalLot).0
        invariant Attribute(a0, q0).1 == Attribute(a0[i..], dynamicalLot).1
        invariant WithoutLots(Lines()) == WithoutLots(old(Lines()))
        invariant Lines()[n..] == old(Lines())[n..]
      {
        ghost var before := DynActives();
        ghost var q := dynamicalLot;
        AttributeOne(i);
        AttributeStep(a0, q0, i, before, q, DynActives(), dynamicalLot);
      }
      assert DynActives()[..n] == DynActives() && a0[n..] == [];
      AttributeKeepsAndTakesFromFront(a0, q0);
    }

    /** One step of atribute_dynamic_lines: dynamic line i takes the next queued id if it has no lot. */
    method AttributeOne(i: int)
      requires LinesValid() && 0 <= i < |dynamicStorageLines|
      modifies this`dynamicalLot, dynamicStorageLines[i]
      ensures LinesValid()
      ensures var a, q := old(DynActives()), old(dynamicalLot);
        if a[i].None? && q != [] then DynActives() == a[i := Some(q[0])] && dynamicalLot == q[1..]
        else DynActives() == a && dynamicalLot == q
      ensures WithoutLots(Lines()) == WithoutLots(old(Lines()))
      ensures Lines()[|dynamicStorageLines|..] == old(Lines())[|dynamicStorageLines|..]
    {
      var line := dynamicStorageLines[i];
      assert forall k :: 0 <= k < |dynamicStorageLines| ==> dynamicStorageLines[k] == AllLines()[k];
      if line.activeLot == None {
        if dynamicalLot != [] {
          line.activeLot := Some(dynamicalLot[0]);
          dynamicalLot := dynamicalLot[1..];
        } else {
          line.activeLot := None;
        }
      }
    }

    /**
     * The lot `next(lot for lot in lots if lot.id == id)` finds: with lots
     * numbered in list order it is always there.
     */
    method FindLot(id: int) returns (k: int)
      requires Numbered() && 1 <= id <= |lots|
      ensures 0 <= k < |lots| && lots[k].id == id && forall j :: 0 <= j < k ==> lots[j].id != id
    {
      k := 0;
      while lots[k].id != id
        invariant 0 <= k <= id - 1
        invariant forall j :: 0 <= j < k ==> lots[j].id != id
      {
        k := k + 1;
      }
    }

    /** The filter of add_pallet_to_lot: queued ids whose lot comes from `source` are dropped. */
    method DropLotsOf(source: Origin)
      requires Numbered() && Queued(|lots|)
      modifies this`dynamicalLot
      ensures Queued(|lots|)
      ensures dynamicalLot == DropSource(old(dynamicalLot), Sources(), source)
    {
      var queue := dynamicalLot;
      var kept: seq<int> := [];
      for i := 0 to |queue|
        invariant kept == DropSource(queue[..i], Sources(), source)
      {
        assert queue[..i + 1][..i] == queue[..i];
        var k := FindLot(queue[i]);
        assert k == queue[i] - 1;
        if lots[k].source != source {
          kept := kept + [queue[i]];
        }
      }
      assert queue[..|queue|] == queue;
      assert forall i :: 0 <= i < |kept| ==> kept[i] in queue;
      dynamicalLot := kept;
    }

    /** The first lot of `source` that is still being filled, if any. */
    method FindOpenLot(source: Origin) returns (found: Option<int>)
      ensures found.None? <==> forall k :: 0 <= k < |lots| ==> !Open(lots[k].State(), source)
      ensures found.Some? ==> FirstOpen(LotStates(), found.value, source)
    {
      for k := 0 to |lots|
        invariant forall j :: 0 <= j < k ==> !Open(lots[j].State(), source)
      {
        if lots[k].source == source && !lots[k].creationFinished {
          return Some(k);
        }
      }
      return None;
    }

    /**
     * add_pallet_to_lot: the pallet joins the first lot of its source that
     * is still being filled. If there is none, a new lot with the next id
     * is created: the queued ids of lots of that source are dropped, the new
     * id is queued twice (for two dynamic lines), free dynamic lines take
     * queued ids, and the lot is appended to `lots` before it gets the
     * pallet.
     */
    method AddPalletToLot(p: LabPallet) returns (clot: Lot)
      requires Valid()
      modifies this`lots, this`lotCounter, this`dynamicalLot, lots, dynamicStorageLines
      ensures Valid()
      ensures WithoutLots(Lines()) == WithoutLots(old(Lines()))
      ensures (exists k :: FirstOpen(old(LotStates()), k, p.source)) ==>
        && lots == old(lots) && dynamicalLot == old(dynamicalLot) && Lines() == old(Lines())
        && exists k :: (FirstOpen(old(LotStates()), k, p.source) && clot == lots[k]
             && LotStates() == old(LotStates())[k := WithPallet(old(LotStates())[k], p)])
      ensures !(exists k :: FirstOpen(old(LotStates()), k, p.source)) ==>
        var id := |old(lots)| + 1;
        var queued := DropSource(old(dynamicalLot), old(Sources()), p.source) + [id, id];
        && fresh(clot) && lots == old(lots) + [clot] && clot.creatingTime == p.createdTime
        && LotStates() == old(LotStates()) + [LotState(id, p.source, [p], false)]
        && DynActives() == Attribute(old(DynActives()), queued).0
        && dynamicalLot == Attribute(old(DynActives()), queued).1
    {
      var found := FindOpenLot(p.source);
      if found.Some? {
        clot := lots[found.value];
        AddToLot(found.value, p);
        assert FirstOpen(old(LotStates()), found.value, p.source) && clot == lots[found.value];
        return;
      }
      assert !exists k :: FirstOpen(old(LotStates()), k, p.source);
      clot := AddToNewLot(p);
    }

    /** The new-lot branch of add_pallet_to_lot. */
    method AddToNewLot(p: LabPallet) returns (clot: Lot)
      requires Valid()
      modifies this`lots, this`lotCounter, this`dynamicalLot, dynamicStorageLines
      ensures Valid()
      ensures WithoutLots(Lines()) == WithoutLots(old(Lines()))
      ensures var id := |old(lots)| + 1;
        var queued := DropSource(old(dynamicalLot), old(Sources()), p.source) + [id, id];
        && fresh(clot) && lots == old(lots) + [clot] && clot.creatingTime == p.createdTime
        && LotStates() == old(LotStates()) + [LotState(id, p.source, [p], false)]
        && DynActives() == Attribute(old(DynActives()), queued).0
        && dynamicalLot == Attribute(old(DynActives()), queued).1
    {
      clot := OpenLot(p);
      AppendLot(clot, p);
    }

    /**
     * A new lot before it joins `lots`: it takes the next id, the queue is
     * updated for it and the free dynamic lines take queued ids.
     */
    method OpenLot(p: LabPallet) returns (clot: Lot)
      requires Valid()
      modifies this`lotCounter, this`dynamicalLot, dynamicStorageLines
      ensures LinesValid() && palletCounter >= 0
      ensures lotCounter == |lots| + 1 && Numbered() && Queued(|lots| + 1)
      ensures forall k :: 0 <= k < |lots| ==> lots[k].Filling()
      ensures fresh(clot) && clot.State() == LotState(|lots| + 1, p.source, [], false)
      ensures clot.creatingTime == p.createdTime
      ensures LotStates() == old(LotStates()) && Sources() == old(Sources())
      ensures WithoutLots(Lines()) == WithoutLots(old(Lines()))
      ensures var id := |lots| + 1;
        var queued := DropSource(old(dynamicalLot), old(Sources()), p.source) + [id, id];
        && DynActives() == Attribute(old(DynActives()), queued).0
        && dynamicalLot == Attribute(old(DynActives()), queued).1
    {
      clot := NewLot(p);
      AtributeDynamicLines();
    }

    /** The existing-lot branch of add_pallet_to_lot: lot k gets the pallet, nothing else changes. */
    method AddToLot(k: int, p: LabPallet)
      requires Valid() && 0 <= k < |lots| && Open(lots[k].State(), p.source)
      modifies lots[k]
      ensures Valid()
      ensures lots == old(lots) && dynamicalLot == old(dynamicalLot) && Lines() == old(Lines())
      ensures LotStates() == old(LotStates())[k := WithPallet(old(LotStates())[k], p)]
    {
      lots[k].AddPallet(p);
      assert forall j :: 0 <= j < |lots| && j != k ==> lots[j] != lots[k] by {
        forall j | 0 <= j < |lots| && j != k
          ensures lots[j] != lots[k]
        {
          assert lots[j].id == j + 1 && lots[k].id == k + 1;
        }
      }
    }

    /** The last step of add_pallet_to_lot for a new lot: append it to `lots`, then give it the pallet. */
    method AppendLot(clot: Lot, p: LabPallet)
      requires LinesValid() && palletCounter >= 0
      requires lotCounter == |lots| + 1 && Numbered() && Queued(|lots| + 1)
      requires forall k :: 0 <= k < |lots| ==> lots[k].Filling()
      requires clot.State() == LotState(|lots| + 1, p.source, [], false)
      modifies this`lots, clot
      ensures Valid()
      ensures lots == old(lots) + [clot] && dynamicalLot == old(dynamicalLot)
      ensures Lines() == old(Lines()) && DynActives() == old(DynActives())
      ensures LotStates() == old(LotStates()) + [LotState(clot.id, p.source, [p], false)]
    {
      assert forall k :: 0 <= k < |lots| ==> lots[k] != clot;
      ghost var before := LotStates();
      lots := lots + [clot];
      clot.AddPallet(p);
      assert forall k :: 0 <= k < |before| ==> LotStates()[k] == before[k];
      assert LotStates()[|before|] == LotState(clot.id, p.source, [p], false);
    }

    /**
     * The first half of a new lot in add_pallet_to_lot: the lot takes the
     * next id, the queue drops the ids of lots from the pallet's source and
     * gets the new id twice. The lot is not in `lots` yet.
     */
    method NewLot(p: LabPallet) returns (clot: Lot)
      requires Valid()
      modifies this`lotCounter, this`dynamicalLot
      ensures fresh(clot) && clot.State() == LotState(|lots| + 1, p.source, [], false)
      ensures clot.creatingTime == p.createdTime
      ensures lotCounter == |lots| + 1
      ensures Lines() == old(Lines()) && DynActives() == old(DynActives())
      ensures LotStates() == old(LotStates()) && Sources() == old(Sources())
      ensures dynamicalLot == DropSource(old(dynamicalLot), Sources(), p.source) + [clot.id, clot.id]
      ensures Queued(|lots| + 1)
    {
      lotCounter := lotCounter + 1;
      clot := new Lot(lotCounter, p.source, p.createdTime);
      DropLotsOf(p.source);
      dynamicalLot := dynamicalLot + [clot.id, clot.id];
    }

    /** Takes the head of line k if it is mature; every other line is untouched. */
    method ConsumeAt(k: int, cycle: int) returns (r: Option<LabPallet>)
      requires LinesValid() && 0 <= k < |AllLines()|
      modifies AllLines()[k]
      ensures LinesValid()
      ensures r.Some? <==> HeadMature(old(Lines())[k], cycle)
      ensures r.Some? ==> (r.value == old(Lines())[k].pallets[0]
        && Lines() == old(Lines())[k := old(Lines())[k].(pallets := old(Lines())[k].pallets[1..])])
      ensures r.None? ==> Lines() == old(Lines())
    {
      r := AllLines()[k].ConsumePallet(cycle);
      assert forall j :: 0 <= j < |AllLines()| && j != k ==> AllLines()[j] != AllLines()[k];
    }

    /** One of the two loops of find_first_mature_pallet: lines from..to-1 in order, the first mature head is taken. */
    method ConsumeFirstIn(from: int, to: int, cycle: int) returns (r: Option<(LabPallet, int)>)
      requires LinesValid() && 0 <= from <= to <= |AllLines()|
      modifies AllLines()
      ensures LinesValid()
      ensures r.None? ==> Lines() == old(Lines()) && forall j :: from <= j < to ==> !HeadMature(old(Lines())[j], cycle)
      ensures r.Some? ==> var k := r.value.1;
        && from <= k < to && HeadMature(old(Lines())[k], cycle)
        && (forall j :: from <= j < k ==> !HeadMature(old(Lines())[j], cycle))
        && r.value.0 == old(Lines())[k].pallets[0]
        && Lines() == old(Lines())[k := old(Lines())[k].(pallets := old(Lines())[k].pallets[1..])]
    {
      for k := from to to
        invariant LinesValid() && Lines() == old(Lines())
        invariant forall j :: from <= j < k ==> !HeadMature(old(Lines())[j], cycle)
      {
        var pallet := ConsumeAt(k, cycle);
        if pallet.Some? {
          return Some((pallet.value, k));
        }
      }
      return None;
    }

    /**
     * find_first_mature_pallet: the dynamic lines, then the storage lines,
     * are scanned in order and the first mature head found is taken, with
     * its line. At most one pallet leaves; None, with nothing changed, when
     * no line has a mature head.
     */
    method FindFirstMaturePallet(cycle: int) returns (r: Option<(LabPallet, StorageLine)>)
      requires LinesValid()
      modifies AllLines()
      ensures LinesValid()
      ensures r.None? <==> forall k :: 0 <= k < |AllLines()| ==> !HeadMature(old(Lines())[k], cycle)
      ensures r.None? ==> Lines() == old(Lines())
      ensures r.Some? ==> exists k :: (FirstMature(old(Lines()), k, cycle) && r.value.1 == AllLines()[k]
        && r.value.0 == old(Lines())[k].pallets[0]
        && Lines() == old(Lines())[k := old(Lines())[k].(pallets := old(Lines())[k].pallets[1..])])
    {
      var found := ConsumeFirstIn(0, |dynamicStorageLines|, cycle);
      if found.Some? {
        return Some((found.value.0, AllLines()[found.value.1]));
      }
      found := ConsumeFirstIn(|dynamicStorageLines|, |AllLines()|, cycle);
      if found.Some? {
        return Some((found.value.0, AllLines()[found.value.1]));
      }
      return None;
    }

    /**
     * consuming: takes the first mature head as find_first_mature_pallet
     * does; a dynamic line that this leaves empty loses its active source
     * and lot, so it can take a new lot.
     */
    method Consuming(cycle: int) returns (p: Option<LabPallet>)
      requires LinesValid()
      modifies AllLines()
      ensures LinesValid()
      ensures p.None? <==> forall k :: 0 <= k < |AllLines()| ==> !HeadMature(old(Lines())[k], cycle)
      ensures p.None? ==> Lines() == old(Lines())
      ensures p.Some? ==> exists k :: (FirstMature(old(Lines()), k, cycle) && p.value == old(Lines())[k].pallets[0]
        && Lines() == old(Lines())[k := AfterConsume(old(Lines())[k], k < |dynamicStorageLines|)])
    {
      ghost var before := Lines();
      var result := FindFirstMaturePallet(cycle);
      if result.None? {
        return None;
      }
      var (pallet, line) := result.value;
      ghost var k :| FirstMature(before, k, cycle) && line == AllLines()[k]
        && pallet == before[k].pallets[0] && Lines() == before[k := before[k].(pallets := before[k].pallets[1..])];
      ReleaseIfEmpty(line, k);
      return Some(pallet);
    }

    /** The clean-up of consuming: a dynamic line left empty forgets its source and lot. */
    method ReleaseIfEmpty(line: StorageLine, ghost k: int)
      requires LinesValid() && 0 <= k < |AllLines()| && line == AllLines()[k]
      modifies line
      ensures LinesValid()
      ensures Lines() == old(Lines())[k :=
        if k < |dynamicStorageLines| && old(Lines())[k].pallets == [] then old(Lines())[k].(activeSource := None, activeLot := None)
        else old(Lines())[k]]
    {
      assert line in dynamicStorageLines <==> k < |dynamicStorageLines| by {
        assert forall j :: 0 <= j < |dynamicStorageLines| ==> dynamicStorageLines[j] == AllLines()[j];
      }
      if |line.pallets| == 0 && line in dynamicStorageLines {
        line.activeSource := None;
        line.activeLot := None;
      }
      assert forall j :: 0 <= j < |AllLines()| && j != k ==> AllLines()[j] != line;
    }

    /** Stores `p` on line k, which accepts it; every other line is untouched. */
    method AddAt(k: int, p: LabPallet)
      requires LinesValid() && 0 <= k < |AllLines()| && CanAdd(Lines()[k], p)
      modifies AllLines()[k]
      ensures LinesValid()
      ensures Lines() == old(Lines())[k := Stored(old(Lines())[k], p)]
    {
      var ok := AllLines()[k].AddPallet(p);
      assert forall j :: 0 <= j < |AllLines()| && j != k ==> AllLines()[j] != AllLines()[k];
    }

    /**
     * alocate_to_dynamic_storage: the first dynamic line reserved for the
     * pallet's lot that accepts it gets the pallet. False, with nothing
     * changed, when there is none.
     */
    method AlocateToDynamicStorage(lot: Lot, p: LabPallet) returns (ok: bool)
      requires LinesValid()
      modifies AllLines()
      ensures LinesValid()
      ensures ok <==> exists k :: 0 <= k < |dynamicStorageLines| && TakesLot(old(Lines())[k], lot.id, p)
      ensures !ok ==> Lines() == old(Lines())
      ensures ok ==> exists k :: (0 <= k < |dynamicStorageLines| && TakesLot(old(Lines())[k], lot.id, p)
        && (forall j :: 0 <= j < k ==> !TakesLot(old(Lines())[j], lot.id, p))
        && Lines() == old(Lines())[k := Stored(old(Lines())[k], p)])
    {
      for k := 0 to |dynamicStorageLines|
        invariant forall j :: 0 <= j < k ==> !TakesLot(Lines()[j], lot.id, p)
      {
        var line := dynamicStorageLines[k];
        assert line == AllLines()[k];
        if line.activeLot == Some(lot.id) && line.CanAddPallet(p) {
          AddAt(k, p);
          return true;
        }
      }
      return false;
    }

    /**
     * alocate_to_storage: the first storage line that already has the
     * pallet's source and accepts it gets the pallet. False, with nothing
     * changed, when there is none.
     */
    method AlocateToStorage(p: LabPallet) returns (ok: bool)
      requires LinesValid()
      modifies AllLines()
      ensures LinesValid()
      ensures ok <==> exists k :: |dynamicStorageLines| <= k < |AllLines()| && TakesSource(old(Lines())[k], p)
      ensures !ok ==> Lines() == old(Lines())
      ensures ok ==> exists k :: (|dynamicStorageLines| <= k < |AllLines()| && TakesSource(old(Lines())[k], p)
        && (forall j :: |dynamicStorageLines| <= j < k ==> !TakesSource(old(Lines())[j], p))
        && Lines() == old(Lines())[k := Stored(old(Lines())[k], p)])
    {
      var d := |dynamicStorageLines|;
      for i := 0 to |storageLines|
        invariant forall j :: d <= j < d + i ==> !TakesSource(Lines()[j], p)
      {
        var line := storageLines[i];
        assert line == AllLines()[d + i];
        if line.activeSource == Some(p.source) && line.CanAddPallet(p) {
          AddAt(d + i, p);
          return true;
        }
      }
      return false;
    }
  }
}

=== FILE: lane_system.dfy ===
/**
 * The lane model of simulation_simpy.py: twelve FIFO lanes (Esteira) of 22
 * slots, each with an origin affinity (`origem`) that only an empty lane
 * may change, and the Sistema methods that assign lanes, store pallets and
 * release ready pallets. The SimPy clock `env.now` is a parameter here.
 */
module LaneSystem {
  import opened Options
  import opened Belts

  /** Twenty hours, in minutes. */
  const Maturacao: int := 20 * 60
  const LaneCap: int := 22
  const NLanes: int := 12

  datatype LanePallet = LanePallet(id: int, origem: Origin, tProd: int)

  /** Pallet.pronto: the pallet has matured for MATURACAO minutes. */
  predicate Pronto(p: LanePallet, now: int) {
    now - p.tProd >= Maturacao
  }

  /** What a lane holds at one moment: its origin affinity and its queue, head first. */
  datatype LaneState = LaneState(origem: Option<Origin>, q: seq<LanePallet>)

  /**
   * The number of pallets at the front of `q` that are ready, up to the
   * first one that is not: only those can leave this lane in FIFO order.
   */
  function ReadyPrefix(q: seq<LanePallet>, now: int): (n: nat)
    ensures n <= |q|
    ensures forall k :: 0 <= k < n ==> Pronto(q[k], now)
    ensures n < |q| ==> !Pronto(q[n], now)
  {
    if q == [] || !Pronto(q[0], now) then 0 else 1 + ReadyPrefix(q[1..], now)
  }

  /** The ready prefix is determined by the first pallet that is not ready. */
  lemma {:induction false} ReadyPrefixIs(q: seq<LanePallet>, now: int, j: nat)
    requires j <= |q|
    requires forall k :: 0 <= k < j ==> Pronto(q[k], now)
    requires j == |q| || !Pronto(q[j], now)
    ensures ReadyPrefix(q, now) == j
  {
    if j > 0 {
      assert Pronto(q[0], now);
      assert forall k :: 0 <= k < j - 1 ==> q[1..][k] == q[k + 1];
      ReadyPrefixIs(q[1..], now, j - 1);
    }
  }

  /** The ready pallets of `origem` over all lanes: the value matured_inventory computes. */
  function Inventory(lanes: seq<LaneState>, origem: Origin, now: int): nat
  {
    if lanes == [] then 0
    else
      var last := lanes[|lanes| - 1];
      Inventory(lanes[..|lanes| - 1], origem, now) + (if last.origem == Some(origem) then ReadyPrefix(last.q, now) else 0)
  }

  /** Lane i belongs to `origem` and its head is ready. */
  predicate ReadyLane(lanes: seq<LaneState>, i: int, origem: Origin, now: int)
    requires 0 <= i < |lanes|
  {
    lanes[i].origem == Some(origem) && lanes[i].q != [] && Pronto(lanes[i].q[0], now)
  }

  /**
   * There is matured inventory for an origin exactly when one of its lanes
   * has a ready head, i.e. exactly when pop_one_for can release a pallet.
   */
  lemma {:induction false} InventoryPositiveIff(lanes: seq<LaneState>, origem: Origin, now: int)
    ensures Inventory(lanes, origem, now) > 0 <==> exists i :: 0 <= i < |lanes| && ReadyLane(lanes, i, origem, now)
  {
    if lanes != [] {
      var init := lanes[..|lanes| - 1];
      var last := |lanes| - 1;
      InventoryPositiveIff(init, origem, now);
      assert forall i :: 0 <= i < |init| ==> (ReadyLane(init, i, origem, now) <==> ReadyLane(lanes, i, origem, now));
      if ReadyLane(lanes, last, origem, now) {
        assert ReadyPrefix(lanes[last].q, now) > 0;
      } else if lanes[last].origem == Some(origem) && ReadyPrefix(lanes[last].q, now) > 0 {
        assert Pronto(lanes[last].q[0], now);
      }
    }
  }

  /** How many ready pallets of `origem` lane `l` contributes to the inventory. */
  function Contribution(l: LaneState, origem: Origin, now: int): nat {
    if l.origem == Some(origem) then ReadyPrefix(l.q, now) else 0
  }

  /** Replacing one lane changes the inventory by the difference of the two lanes' contributions. */
  lemma {:induction false} InventoryUpdate(lanes: seq<LaneState>, i: int, l: LaneState, origem: Origin, now: int)
    requires 0 <= i < |lanes|
    ensures Inventory(lanes[i := l], origem, now) + Contribution(lanes[i], origem, now)
         == Inventory(lanes, origem, now) + Contribution(l, origem, now)
  {
    var n := |lanes| - 1;
    if i == n {
      assert lanes[i := l][..n] == lanes[..n];
    } else {
      assert lanes[i := l][..n] == lanes[..n][i := l];
      InventoryUpdate(lanes[..n], i, l, origem, now);
    }
  }

  /**
   * Releasing the ready head of a lane of `origem` lowers that origin's
   * matured inventory by exactly one pallet.
   */
  lemma PopLowersInventory(lanes: seq<LaneState>, i: int, origem: Origin, now: int)
    requires 0 <= i < |lanes| && ReadyLane(lanes, i, origem, now)
    ensures Inventory(lanes[i := LaneState(lanes[i].origem, lanes[i].q[1..])], origem, now)
         == Inventory(lanes, origem, now) - 1
  {
    InventoryUpdate(lanes, i, LaneState(lanes[i].origem, lanes[i].q[1..]), origem, now);
  }

  /** Lane i may take a pallet of `origem` directly: it has that affinity and free space. */
  predicate Candidate(lanes: seq<LaneState>, i: int, origem: Origin)
    requires 0 <= i < |lanes|
  {
    lanes[i].origem == Some(origem) && |lanes[i].q| < LaneCap
  }

  /** Lane i is empty and free to (re)take affinity `origem`. */
  predicate EmptyFor(lanes: seq<LaneState>, i: int, origem: Origin)
    requires 0 <= i < |lanes|
  {
    lanes[i].q == [] && (lanes[i].origem == None || lanes[i].origem == Some(origem))
  }

  /** Lane i is the first candidate with the most free space (max keeps the first maximum). */
  predicate MostSpaceCandidate(lanes: seq<LaneState>, i: int, origem: Origin)
    requires 0 <= i < |lanes|
  {
    && Candidate(lanes, i, origem)
    && (forall j :: 0 <= j < |lanes| && Candidate(lanes, j, origem) ==> |lanes[i].q| <= |lanes[j].q|)
    && (forall j :: 0 <= j < i && Candidate(lanes, j, origem) ==> |lanes[i].q| < |lanes[j].q|)
  }

  /** Where push_pallet stores a pallet of `origem`. */
  predicate PushTarget(lanes: seq<LaneState>, i: int, origem: Origin)
    requires 0 <= i < |lanes|
  {
    if exists j :: 0 <= j < |lanes| && Candidate(lanes, j, origem) then MostSpaceCandidate(lanes, i, origem)
    else EmptyFor(lanes, i, origem) && forall j :: 0 <= j < i ==> !EmptyFor(lanes, j, origem)
  }

  /** Lane i is the first ready lane of `origem` with the longest queue: where pop_one_for takes from. */
  predicate LongestReady(lanes: seq<LaneState>, i: int, origem: Origin, now: int)
    requires 0 <= i < |lanes|
  {
    && ReadyLane(lanes, i, origem, now)
    && (forall j :: 0 <= j < |lanes| && ReadyLane(lanes, j, origem, now) ==> |lanes[j].q| <= |lanes[i].q|)
    && (forall j :: 0 <= j < i && ReadyLane(lanes, j, origem, now) ==> |lanes[j].q| < |lanes[i].q|)
  }

  /** Esteira: one FIFO lane with a capacity and an origin affinity. */
  class Esteira {
    const cap: int
    var q: seq<LanePallet>
    var origem: Option<Origin>

    ghost predicate Valid()
      reads this
    {
      0 <= |q| <= cap
    }

    constructor (cap: int)
      requires cap >= 0
      ensures Valid() && this.cap == cap && q == [] && origem == None
    {
      this.cap := cap;
      q := [];
      origem := None;
    }

    /** space: the free slots, never negative while push guards the capacity. */
    function Space(): (s: int)
      reads this
      ensures Valid() ==> 0 <= s <= cap
      ensures Valid() ==> (s == 0 <==> |q| == cap)
    {
      cap - |q|
    }

    /** push: appends at the tail unless the lane is full. */
    method Push(p: LanePallet) returns (ok: bool)
      requires Valid()
      modifies this
      ensures Valid()
      ensures ok == (|old(q)| < cap)
      ensures ok ==> q == old(q) + [p]
      ensures !ok ==> q == old(q)
      ensures origem == old(origem)
    {
      if |q| >= cap {
        return false;
      }
      q := q + [p];
      return true;
    }

    /** peek_ready: the head, when there is one and it is ready. */
    function PeekReady(now: int): (r: Option<LanePallet>)
      reads this
      ensures r.Some? <==> q != [] && Pronto(q[0], now)
      ensures r.Some? ==> r.value == q[0]
    {
      if q != [] && Pronto(q[0], now) then Some(q[0]) else None
    }

    /** pop_ready: removes and returns the head only when it is ready. */
    method PopReady(now: int) returns (p: Option<LanePallet>)
      requires Valid()
      modifies this
      ensures Valid()
      ensures p == old(PeekReady(now))
      ensures p.Some? ==> q == old(q)[1..]
      ensures p.None? ==> q == old(q)
      ensures origem == old(origem)
    {
      p := PeekReady(now);
      if p.Some? {
        q := q[1..];
      }
    }
  }

  /** The origin affinities of the lanes, in order. */
  function Affinities(ls: seq<LaneState>): (affs: seq<Option<Origin>>)
    ensures |affs| == |ls| && forall i :: 0 <= i < |ls| ==> affs[i] == ls[i].origem
  {
    seq(|ls|, i requires 0 <= i < |ls| => ls[i].origem)
  }

  /** Number of lanes whose affinity is `origem`. */
  function CountAff(affs: seq<Option<Origin>>, origem: Origin): (n: nat)
    ensures n <= |affs|
  {
    if affs == [] then 0
    else CountAff(affs[..|affs| - 1], origem) + (if affs[|affs| - 1] == Some(origem) then 1 else 0)
  }

  /** The indices of the lanes among the first n whose queue is empty, in lane order. */
  function EmptyLanes(ls: seq<LaneState>, n: nat): (idx: seq<int>)
    requires n <= |ls|
    ensures forall k :: 0 <= k < |idx| ==> 0 <= idx[k] < n && ls[idx[k]].q == []
    ensures forall i :: 0 <= i < n && ls[i].q == [] ==> i in idx
    ensures forall k, j :: 0 <= k < j < |idx| ==> idx[k] < idx[j]
  {
    if n == 0 then [] else EmptyLanes(ls, n - 1) + (if ls[n - 1].q == [] then [n - 1] else [])
  }

  /** How many empty lanes a quota takes: its shortfall, capped by the empty lanes left. */
  function Taken(have: int, need: int, left: nat): (t: nat)
    ensures t <= left
    ensures t == 0 <==> have >= need || left == 0
    ensures t > 0 ==> have + t <= need && (have + t == need || t == left)
  {
    if have >= need then 0 else if need - have < left then need - have else left
  }

  /** Gives `origem` to the lanes of `idx`; every other affinity stays. */
  function Assign(affs: seq<Option<Origin>>, idx: seq<int>, origem: Origin): (r: seq<Option<Origin>>)
    ensures |r| == |affs| && forall i :: 0 <= i < |affs| ==> r[i] == (if i in idx then Some(origem) else affs[i])
  {
    seq(|affs|, i requires 0 <= i < |affs| => if i in idx then Some(origem) else affs[i])
  }

  /**
   * assign_lanes on values: for each quota in turn, the origin's current
   * count decides how many lanes it takes, and those are the last ones of
   * what is left of `empty`.
   */
  function AssignSpec(affs: seq<Option<Origin>>, empty: seq<int>, quotas: seq<(Origin, int)>): seq<Option<Origin>>
    decreases |quotas|
  {
    if quotas == [] then affs
    else
      var origem := quotas[0].0;
      var t := Taken(CountAff(affs, origem), quotas[0].1, |empty|);
      AssignSpec(Assign(affs, empty[|empty| - t..], origem), empty[..|empty| - t], quotas[1..])
  }

  /** AssignSpec takes the first quota's lanes, then goes on with the rest of the quotas. */
  lemma AssignSpecStep(affs: seq<Option<Origin>>, empty: seq<int>, quotas: seq<(Origin, int)>)
    requires quotas != []
    ensures var t := Taken(CountAff(affs, quotas[0].0), quotas[0].1, |empty|);
      AssignSpec(affs, empty, quotas) == AssignSpec(Assign(affs, empty[|empty| - t..], quotas[0].0), empty[..|empty| - t], quotas[1..])
  {
  }

  /** Giving `origem` to one lane that did not have it counts one more lane of `origem`. */
  lemma {:induction false} SetOneCount(affs: seq<Option<Origin>>, i: int, origem: Origin)
    requires 0 <= i < |affs| && affs[i] != Some(origem)
    ensures CountAff(affs[i := Some(origem)], origem) == CountAff(affs, origem) + 1
  {
    var n := |affs|;
    var upd := affs[i := Some(origem)];
    if i == n - 1 {
      assert upd[..n - 1] == affs[..n - 1];
    } else {
      assert upd[..n - 1] == affs[..n - 1][i := Some(origem)];
      SetOneCount(affs[..n - 1], i, origem);
    }
  }

  /** Giving `origem` to distinct lanes none of which had it counts each of them once. */
  lemma {:induction false} AssignCount(affs: seq<Option<Origin>>, idx: seq<int>, origem: Origin)
    requires forall k :: 0 <= k < |idx| ==> 0 <= idx[k] < |affs| && affs[idx[k]] != Some(origem)
    requires forall k, j :: 0 <= k < j < |idx| ==> idx[k] != idx[j]
    ensures CountAff(Assign(affs, idx, origem), origem) == CountAff(affs, origem) + |idx|
  {
    if idx == [] {
      assert Assign(affs, idx, origem) == affs;
    } else {
      var m := |idx|;
      var front := idx[..m - 1];
      var before := Assign(affs, front, origem);
      AssignCount(affs, front, origem);
      assert idx[m - 1] !in front;
      assert Assign(affs, idx, origem) == before[idx[m - 1] := Some(origem)];
      SetOneCount(before, idx[m - 1], origem);
    }
  }

  /**
   * One quota of assign_lanes, when none of the empty lanes already has the
   * origin: an origin below its quota reaches the quota, or takes every
   * empty lane left when there are too few; an origin at or above its quota
   * takes nothing.
   */
  lemma QuotaStep(affs: seq<Option<Origin>>, empty: seq<int>, origem: Origin, need: int)
    requires forall k :: 0 <= k < |empty| ==> 0 <= empty[k] < |affs| && affs[empty[k]] != Some(origem)
    requires forall k, j :: 0 <= k < j < |empty| ==> empty[k] < empty[j]
    ensures var have := CountAff(affs, origem);
      var t := Taken(have, need, |empty|);
      CountAff(Assign(affs, empty[|empty| - t..], origem), origem) ==
        if have >= need then have else if need < have + |empty| then need else have + |empty|
  {
    var t := Taken(CountAff(affs, origem), need, |empty|);
    AssignCount(affs, empty[|empty| - t..], origem);
  }

  /**
   * assign_lanes counts an empty lane that already has the origin towards
   * its quota and can then give that same lane the origin again: with lane 0
   * free and lane 1 empty but already of A, a quota of two lanes for A
   * takes lane 1 and leaves A with one lane while lane 0 stays free.
   */
  lemma RetakenLaneLeavesQuotaShort()
    ensures var ls := [LaneState(None, []), LaneState(Some(A), [])];
      var r := AssignSpec(Affinities(ls), EmptyLanes(ls, 2), [(A, 2)]);
      r == [None, Some(A)] && CountAff(r, A) == 1 && r[0] == None
  {
    ExampleLanes();
    ExampleAssign();
    ExampleCount();
  }

  /** Lane 0 free, lane 1 empty but already of A: both are empty at the start. */
  lemma ExampleLanes()
    ensures var ls := [LaneState(None, []), LaneState(Some(A), [])];
      Affinities(ls) == [None, Some(A)] && EmptyLanes(ls, 2) == [0, 1]
  {
    var ls := [LaneState(None, []), LaneState(Some(A), [])];
    var affs := Affinities(ls);
    assert |affs| == 2 && affs[0] == None && affs[1] == Some(A);
    assert EmptyLanes(ls, 1) == [] + [0];
    assert EmptyLanes(ls, 2) == EmptyLanes(ls, 1) + [1];
  }

  /** A counts one lane already, so a quota of two takes one lane: the last empty one, lane 1. */
  lemma ExampleAssign()
    ensures AssignSpec([None, Some(A)], [0, 1], [(A, 2)]) == [None, Some(A)]
  {
    var affs: seq<Option<Origin>> := [None, Some(A)];
    var empty := [0, 1];
    ExampleCount();
    assert Taken(1, 2, 2) == 1;
    assert empty[1..] == [1] && empty[..1] == [0];
    assert [(A, 2)][1..] == [];
    assert Assign(affs, [1], A) == affs;
  }

  lemma ExampleCount()
    ensures CountAff([None, Some(A)], A) == 1
  {
    var affs: seq<Option<Origin>> := [None, Some(A)];
    assert affs[..1] == [None];
  }

  /** Sistema: the twelve lanes and the policies over them. */
  class Sistema {
    const esteiras: seq<Esteira>

    ghost predicate Valid()
      reads this, esteiras
    {
      && |esteiras| == NLanes
      && (forall i, j :: 0 <= i < j < |esteiras| ==> esteiras[i] != esteiras[j])
      && (forall i :: 0 <= i < |esteiras| ==> esteiras[i].cap == LaneCap && esteiras[i].Valid())
    }

    /** The lanes as values, in order. */
    function Lanes(): (ls: seq<LaneState>)
      reads this, esteiras
      ensures |ls| == |esteiras|
      ensures forall i :: 0 <= i < |esteiras| ==> ls[i] == LaneState(esteiras[i].origem, esteiras[i].q)
    {
      seq(|esteiras|, i reads esteiras requires 0 <= i < |esteiras| => LaneState(esteiras[i].origem, esteiras[i].q))
    }

    constructor ()
      ensures Valid() && fresh(esteiras)
      ensures forall i :: 0 <= i < NLanes ==> Lanes()[i] == LaneState(None, [])
    {
      var lanes: seq<Esteira> := [];
      for i := 0 to NLanes
        invariant |lanes| == i
        invariant forall k, j :: 0 <= k < j < i ==> lanes[k] != lanes[j]
        invariant forall k :: 0 <= k < i ==> fresh(lanes[k])
        invariant forall k :: 0 <= k < i ==> lanes[k].cap == LaneCap && lanes[k].q == [] && lanes[k].origem == None
      {
        var e := new Esteira(LaneCap);
        lanes := lanes + [e];
      }
      esteiras := lanes;
    }

    /**
     * assign_lanes: for each (origin, quota) in turn, empty lanes taken from
     * the end of the list of lanes that were empty at the start get that
     * origin, while the origin's count is below its quota and such lanes
     * remain. Queues never change, and only lanes that were empty change
     * their affinity, always to an origin of `quotas`.
     */
    method AssignLanes(quotas: seq<(Origin, int)>)
      requires Valid()
      modifies esteiras
      ensures Valid()
      ensures forall i :: 0 <= i < NLanes ==> Lanes()[i].q == old(Lanes())[i].q
      ensures forall i :: 0 <= i < NLanes && old(Lanes())[i].q != [] ==> Lanes()[i].origem == old(Lanes())[i].origem
      ensures forall i :: 0 <= i < NLanes && Lanes()[i].origem != old(Lanes())[i].origem ==>
                exists k :: 0 <= k < |quotas| && Lanes()[i].origem == Some(quotas[k].0)
      ensures Affinities(Lanes()) == AssignSpec(Affinities(old(Lanes())), EmptyLanes(old(Lanes()), NLanes), quotas)
    {
      ghost var ls0 := Lanes();
      ghost var spec := AssignSpec(Affinities(ls0), EmptyLanes(ls0, NLanes), quotas);
      var empty := EmptyAtStart();
      for n := 0 to |quotas|
        invariant Valid()
        invariant forall k :: 0 <= k < |empty| ==> 0 <= empty[k] < NLanes && esteiras[empty[k]].q == []
        invariant forall i :: 0 <= i < NLanes ==>
                    && Lanes()[i].q == ls0[i].q
                    && (Lanes()[i].origem != ls0[i].origem ==>
                          ls0[i].q == [] && exists k :: 0 <= k < n && Lanes()[i].origem == Some(quotas[k].0))
        invariant AssignSpec(Affinities(Lanes()), empty, quotas[n..]) == spec
      {
        assert quotas[n..][0] == quotas[n] && quotas[n..][1..] == quotas[n + 1..];
        empty := ApplyQuota(empty, quotas[n].0, quotas[n].1, quotas[n..]);
      }
    }

    /** The first pass of assign_lanes: the lanes whose queue is empty, in lane order. */
    method EmptyAtStart() returns (empty: seq<int>)
      requires Valid()
      ensures empty == EmptyLanes(Lanes(), NLanes)
    {
      empty := [];
      for i := 0 to NLanes
        invariant empty == EmptyLanes(Lanes(), i)
      {
        if |esteiras[i].q| == 0 {
          empty := empty + [i];
        }
      }
    }

    /**
     * One quota of assign_lanes: the origin's current count is taken and
     * lanes from the end of `empty` get the origin, as AssignSpec's step says.
     */
    method ApplyQuota(empty: seq<int>, origem: Origin, need: int, ghost quotas: seq<(Origin, int)>) returns (rest: seq<int>)
      requires Valid() && quotas != [] && quotas[0] == (origem, need)
      requires forall k :: 0 <= k < |empty| ==> 0 <= empty[k] < NLanes && esteiras[empty[k]].q == []
      modifies esteiras
      ensures Valid()
      ensures |rest| == |empty| - Taken(CountAff(old(Affinities(Lanes())), origem), need, |empty|)
      ensures rest == empty[..|rest|]
      ensures forall k :: 0 <= k < |rest| ==> 0 <= rest[k] < NLanes && esteiras[rest[k]].q == []
      ensures Affinities(Lanes()) == Assign(old(Affinities(Lanes())), empty[|rest|..], origem)
      ensures AssignSpec(Affinities(Lanes()), rest, quotas[1..]) == AssignSpec(old(Affinities(Lanes())), empty, quotas)
      ensures forall i :: 0 <= i < NLanes ==> Lanes()[i].q == old(Lanes())[i].q
      ensures forall i :: 0 <= i < NLanes && Lanes()[i].origem != old(Lanes())[i].origem ==>
        Lanes()[i].origem == Some(origem) && old(Lanes())[i].q == []
    {
      var before := Affinities(Lanes());
      var have := CountAff(before, origem);
      rest := TakeEmpty(empty, origem, have, need);
      assert Affinities(Lanes()) == Assign(before, empty[|rest|..], origem);
      AssignSpecStep(before, empty, quotas);
    }

    /**
     * The inner loop of assign_lanes for one origin: lanes are popped from
     * the end of `empty` and given `origem` until `have` reaches `need` or
     * `empty` runs out. `rest` is what is left of `empty`.
     */
    method TakeEmpty(empty: seq<int>, origem: Origin, have: int, need: int) returns (rest: seq<int>)
      requires Valid()
      requires forall k :: 0 <= k < |empty| ==> 0 <= empty[k] < NLanes && esteiras[empty[k]].q == []
      modifies esteiras
      ensures Valid()
      ensures |rest| <= |empty| && rest == empty[..|rest|]
      ensures have + (|empty| - |rest|) >= need || rest == []
      ensures |empty| - |rest| == 0 || have + (|empty| - |rest|) <= need
      ensures |empty| - |rest| == Taken(have, need, |empty|)
      ensures forall i :: 0 <= i < NLanes ==> Lanes()[i].q == old(Lanes())[i].q
      ensures forall i :: 0 <= i < NLanes ==>
        Lanes()[i].origem == (if i in empty[|rest|..] then Some(origem) else old(Lanes())[i].origem)
    {
      rest := empty;
      var h := have;
      while h < need && rest != []
        invariant Valid()
        invariant rest == empty[..|rest|]
        invariant h == have + (|empty| - |rest|)
        invariant |empty| - |rest| == 0 || h <= need
        invariant forall i :: 0 <= i < NLanes ==> Lanes()[i].q == old(Lanes())[i].q
        invariant forall i :: 0 <= i < NLanes ==>
          Lanes()[i].origem == (if i in empty[|rest|..] then Some(origem) else old(Lanes())[i].origem)
        decreases |rest|
      {
        var e := rest[|rest| - 1];
        assert empty[|rest| - 1..] == [e] + empty[|rest|..];
        rest := rest[..|rest| - 1];
        esteiras[e].origem := Some(origem);
        h := h + 1;
      }
    }

    /** Appends `p` to lane i when it has room; every other lane is untouched. */
    method StoreAt(i: int, p: LanePallet) returns (ok: bool)
      requires Valid() && 0 <= i < NLanes
      modifies esteiras[i]
      ensures Valid()
      ensures ok == (|old(Lanes())[i].q| < LaneCap)
      ensures ok ==> Lanes() == old(Lanes())[i := LaneState(old(Lanes())[i].origem, old(Lanes())[i].q + [p])]
      ensures !ok ==> Lanes() == old(Lanes())
    {
      ok := esteiras[i].Push(p);
      assert forall k :: 0 <= k < NLanes && k != i ==> esteiras[k] != esteiras[i];
    }

    /** The first candidate lane for `origem` with the most space, if any. */
    method BestCandidate(origem: Origin) returns (best: Option<int>)
      requires Valid()
      ensures best.None? <==> !exists j :: 0 <= j < NLanes && Candidate(Lanes(), j, origem)
      ensures best.Some? ==> 0 <= best.value < NLanes && MostSpaceCandidate(Lanes(), best.value, origem)
    {
      ghost var ls := Lanes();
      best := None;
      for i := 0 to NLanes
        invariant best.None? ==> forall j :: 0 <= j < i ==> !Candidate(ls, j, origem)
        invariant best.Some? ==> (0 <= best.value < i && Candidate(ls, best.value, origem)
          && (forall j :: 0 <= j < i && Candidate(ls, j, origem) ==> |ls[best.value].q| <= |ls[j].q|)
          && (forall j :: 0 <= j < best.value && Candidate(ls, j, origem) ==> |ls[best.value].q| < |ls[j].q|))
      {
        var e := esteiras[i];
        if e.origem == Some(origem) && e.Space() > 0 {
          if best.None? || e.Space() > esteiras[best.value].Space() {
            best := Some(i);
          }
        }
      }
    }

    /** The first empty lane with no affinity or affinity `origem`, if any. */
    method FirstEmptyFor(origem: Origin) returns (r: Option<int>)
      requires Valid()
      ensures r.None? <==> !exists j :: 0 <= j < NLanes && EmptyFor(Lanes(), j, origem)
      ensures r.Some? ==> (0 <= r.value < NLanes && EmptyFor(Lanes(), r.value, origem)
        && forall j :: 0 <= j < r.value ==> !EmptyFor(Lanes(), j, origem))
    {
      ghost var ls := Lanes();
      for i := 0 to NLanes
        invariant forall j :: 0 <= j < i ==> !EmptyFor(ls, j, origem)
      {
        var e := esteiras[i];
        if |e.q| == 0 && (e.origem == None || e.origem == Some(origem)) {
          assert EmptyFor(ls, i, origem);
          return Some(i);
        }
      }
      return None;
    }

    /**
     * push_pallet: a lane that already has the pallet's origin and free
     * space, the one with the most space; failing that, the first empty lane
     * with no affinity (or the same one), which takes the origin. False,
     * with nothing changed, when there is neither (backpressure).
     */
    method PushPallet(p: LanePallet) returns (ok: bool)
      requires Valid()
      modifies esteiras
      ensures Valid()
      ensures ok <==> exists i :: 0 <= i < NLanes && (Candidate(old(Lanes()), i, p.origem) || EmptyFor(old(Lanes()), i, p.origem))
      ensures !ok ==> Lanes() == old(Lanes())
      ensures ok ==> exists i :: (0 <= i < NLanes && PushTarget(old(Lanes()), i, p.origem)
        && Lanes() == old(Lanes())[i := LaneState(Some(p.origem), old(Lanes())[i].q + [p])])
    {
      ghost var ls := Lanes();
      var best := BestCandidate(p.origem);
      if best.Some? {
        assert Candidate(ls, best.value, p.origem) && PushTarget(ls, best.value, p.origem);
        ok := StoreAt(best.value, p);
        return;
      }
      var empty := FirstEmptyFor(p.origem);
      assert Lanes() == ls;
      if empty.None? {
        assert !exists j :: 0 <= j < NLanes && Candidate(ls, j, p.origem);
        assert !exists j :: 0 <= j < NLanes && EmptyFor(ls, j, p.origem);
        return false;
      }
      assert PushTarget(ls, empty.value, p.origem);
      assert ls[empty.value].q + [p] == [p];
      ClaimAndStore(empty.value, p);
      ok := true;
    }

    /** Gives empty lane i the pallet's origin and stores the pallet there. */
    method ClaimAndStore(i: int, p: LanePallet)
      requires Valid() && 0 <= i < NLanes && EmptyFor(Lanes(), i, p.origem)
      modifies esteiras[i]
      ensures Valid()
      ensures Lanes() == old(Lanes())[i := LaneState(Some(p.origem), [p])]
    {
      esteiras[i].origem := Some(p.origem);
      esteiras[i].q := [p];
      assert forall k :: 0 <= k < NLanes && k != i ==> esteiras[k] != esteiras[i];
    }

    /**
     * matured_inventory: over the lanes of `origem`, the pallets at the
     * front of each queue that are ready, each count stopping at the first
     * pallet that is not.
     */
    method MaturedInventory(origem: Origin, now: int) returns (total: nat)
      requires Valid()
      ensures total == Inventory(Lanes(), origem, now)
    {
      ghost var ls := Lanes();
      total := 0;
      for i := 0 to NLanes
        invariant total == Inventory(ls[..i], origem, now)
      {
        assert ls[..i + 1][..i] == ls[..i];
        var e := esteiras[i];
        if e.origem == Some(origem) {
          var c := 0;
          while c < |e.q| && Pronto(e.q[c], now)
            invariant 0 <= c <= |e.q|
            invariant forall k :: 0 <= k < c ==> Pronto(e.q[k], now)
            invariant total == Inventory(ls[..i], origem, now) + c
          {
            total := total + 1;
            c := c + 1;
          }
          ReadyPrefixIs(e.q, now, c);
        }
      }
      assert ls[..NLanes] == ls;
    }

    /** The first ready lane of `origem` with the longest queue, if any. */
    method LongestReadyLane(origem: Origin, now: int) returns (best: Option<int>)
      requires Valid()
      ensures best.None? <==> !exists j :: 0 <= j < NLanes && ReadyLane(Lanes(), j, origem, now)
      ensures best.Some? ==> 0 <= best.value < NLanes && LongestReady(Lanes(), best.value, origem, now)
    {
      ghost var ls := Lanes();
      best := None;
      for i := 0 to NLanes
        invariant best.None? ==> forall j :: 0 <= j < i ==> !ReadyLane(ls, j, origem, now)
        invariant best.Some? ==> (0 <= best.value < i && ReadyLane(ls, best.value, origem, now)
          && (forall j :: 0 <= j < i && ReadyLane(ls, j, origem, now) ==> |ls[j].q| <= |ls[best.value].q|)
          && (forall j :: 0 <= j < best.value && ReadyLane(ls, j, origem, now) ==> |ls[j].q| < |ls[best.value].q|))
      {
        var e := esteiras[i];
        if e.origem == Some(origem) && e.PeekReady(now).Some? {
          if best.None? || |e.q| > |esteiras[best.value].q| {
            best := Some(i);
          }
        }
      }
    }

    /** Pops the ready head of lane i; every other lane is untouched. */
    method PopAt(i: int, now: int) returns (p: Option<LanePallet>)
      requires Valid() && 0 <= i < NLanes
      modifies esteiras[i]
      ensures Valid()
      ensures var l := old(Lanes())[i];
        && (p.Some? <==> l.q != [] && Pronto(l.q[0], now))
        && (p.Some? ==> p.value == l.q[0] && Lanes() == old(Lanes())[i := LaneState(l.origem, l.q[1..])])
        && (p.None? ==> Lanes() == old(Lanes()))
    {
      p := esteiras[i].PopReady(now);
      assert forall k :: 0 <= k < NLanes && k != i ==> esteiras[k] != esteiras[i];
    }

    /**
     * pop_one_for: the ready head of the longest ready lane of `origem`
     * (the first such lane on ties). None, with nothing changed, exactly
     * when the origin has no matured inventory; otherwise that inventory
     * drops by exactly one.
     */
    method PopOneFor(origem: Origin, now: int) returns (p: Option<LanePallet>)
      requires Valid()
      modifies esteiras
      ensures Valid()
      ensures p.None? <==> Inventory(old(Lanes()), origem, now) == 0
      ensures p.None? ==> Lanes() == old(Lanes())
      ensures p.Some? ==> exists i :: (0 <= i < NLanes && LongestReady(old(Lanes()), i, origem, now)
        && p.value == old(Lanes())[i].q[0]
        && Lanes() == old(Lanes())[i := LaneState(Some(origem), old(Lanes())[i].q[1..])])
      ensures p.Some? ==> Inventory(Lanes(), origem, now) == Inventory(old(Lanes()), origem, now) - 1
    {
      ghost var ls := Lanes();
      InventoryPositiveIff(ls, origem, now);
      var best := LongestReadyLane(origem, now);
      if best.None? {
        return None;
      }
      p := PopAt(best.value, now);
      PopLowersInventory(ls, best.value, origem, now);
    }
  }
}

=== FILE: simulation.dfy ===
/**
 * SimulationEngine of simulation.py: a minute-stepped production, storage
 * and consumption scheduler over twelve belts.
 *
 * Each minute the engine (1) closes an expired window and may open the
 * next one in the rotation A, B, C, (2) makes at most one consumption
 * attempt for the active origin, (3) produces the pallets that are due,
 * and (4) advances the clock.
 */
module Simulation {
  import opened Options
  import opened Belts
  import opened Allocation
  import opened Consumption

  datatype AllocationKind = MostFree | RoundRobin | DedicatedThreePlusDynamic
  datatype ConsumptionKind = DynamicLeastFreeSpace | PrioritizedFirstThree | LongestQueueHead

  /** The `window_start` event the engine emits for the user interface. */
  datatype Event = WindowStart(origin: Origin, time: int, lotSize: int)

  /** One per-pallet record kept for export; `consumidoMin` is set when it leaves. */
  datatype Record = Record(tipo: Origin, lote: int, palletId: int, criadoMin: int, consumidoMin: Option<int>)

  /** What one iteration of the production loop did. */
  datatype ProduceOutcome = Produced | NoLot | NoBelt | Mixed

  /** A grid cell: 'vazio' or the origin of the pallet, with its lot id (0 when empty). */
  datatype CellState = Vazio | Holding(origin: Origin)
  datatype Cell = Cell(state: CellState, lot: int)

  function Max(a: int, b: int): int {
    if a >= b then a else b
  }

  /**
   * The record of pallet `id` after it left at minute `now`: the minute is
   * written only if the record exists and has none yet.
   */
  function MarkConsumed(recs: map<int, Record>, id: int, now: int): (r: map<int, Record>)
    ensures r.Keys == recs.Keys
    ensures forall k :: k in recs && (k != id || recs[k].consumidoMin.Some?) ==> r[k] == recs[k]
    ensures id in recs && recs[id].consumidoMin.None? ==>
      r[id] == recs[id].(consumidoMin := Some(now))
  {
    if id in recs && recs[id].consumidoMin.None? then recs[id := recs[id].(consumidoMin := Some(now))] else recs
  }

  /** Slot i of the k-th belt listed in `rows` exists. */
  predicate InRows(belts: seq<seq<Pallet>>, rows: seq<int>, k: int, i: int)
    requires ValidRows(belts, rows)
  {
    0 <= k < |rows| && 0 <= i < |belts[rows[k]]|
  }

  /**
   * _get_current_lot_last_mature: the latest maturation minute among the
   * pallets of `lot` from `origin` on the belts of `rows`; None when there is none.
   */
  method LastMature(belts: seq<seq<Pallet>>, rows: seq<int>, origin: Origin, lot: int) returns (last: Option<int>)
    requires ValidRows(belts, rows)
    ensures last.None? <==> forall k, i :: InRows(belts, rows, k, i) ==> !IsLotPallet(belts[rows[k]][i], origin, lot)
    ensures last.Some? ==>
      && (exists k, i :: InRows(belts, rows, k, i) && IsLotPallet(belts[rows[k]][i], origin, lot)
                          && belts[rows[k]][i].tMature == last.value)
      && (forall k, i :: (InRows(belts, rows, k, i) && IsLotPallet(belts[rows[k]][i], origin, lot))
                          ==> belts[rows[k]][i].tMature <= last.value)
  {
    last := None;
    for k := 0 to |rows|
      invariant last.None? ==> forall k', i :: 0 <= k' < k && InRows(belts, rows, k', i) ==> !IsLotPallet(belts[rows[k']][i], origin, lot)
      invariant last.Some? ==>
        && (exists k', i :: 0 <= k' < k && InRows(belts, rows, k', i) && IsLotPallet(belts[rows[k']][i], origin, lot)
                            && belts[rows[k']][i].tMature == last.value)
        && (forall k', i :: 0 <= k' < k && InRows(belts, rows, k', i) && IsLotPallet(belts[rows[k']][i], origin, lot)
                            ==> belts[rows[k']][i].tMature <= last.value)
    {
      var belt := belts[rows[k]];
      for i := 0 to |belt|
        invariant last.None? ==> forall k', i' :: (0 <= k' < k || (k' == k && i' < i)) && InRows(belts, rows, k', i')
                                    ==> !IsLotPallet(belts[rows[k']][i'], origin, lot)
        invariant last.Some? ==>
          && (exists k', i' :: (0 <= k' < k || (k' == k && i' < i)) && InRows(belts, rows, k', i')
                               && IsLotPallet(belts[rows[k']][i'], origin, lot) && belts[rows[k']][i'].tMature == last.value)
          && (forall k', i' :: ((0 <= k' < k || (k' == k && i' < i)) && InRows(belts, rows, k', i')
                               && IsLotPallet(belts[rows[k']][i'], origin, lot)) ==> belts[rows[k']][i'].tMature <= last.value)
      {
        var p := belt[i];
        if p.origin == origin && p.lotId == lot {
          if last.None? || p.tMature > last.value {
            last := Some(p.tMature);
          }
        }
      }
    }
  }

  /**
   * The last-maturation rule: lot `lot` of `o` has pallets on the origin's
   * dedicated or the shared belts, and every one of them is mature by `limit`.
   */
  ghost predicate LotDue(belts: seq<seq<Pallet>>, o: Origin, lot: int, limit: int)
    requires |belts| == Rows
  {
    var rows := OriginRows(o) + DynamicRows;
    && (exists k, i :: InRows(belts, rows, k, i) && IsLotPallet(belts[rows[k]][i], o, lot))
    && (forall k, i :: InRows(belts, rows, k, i) && IsLotPallet(belts[rows[k]][i], o, lot)
                       ==> belts[rows[k]][i].tMature <= limit)
  }

  /** Twelve belts, none over capacity, each holding a single lot in FIFO order. */
  ghost predicate BeltsOk(belts: seq<seq<Pallet>>, nextLot: int, now: int, maturation: int) {
    |belts| == Rows && BeltsOkBelow(belts, Rows, nextLot, now, maturation)
  }

  /** The outstanding count of each origin is the number of pallets of its current lot on the belts. */
  ghost predicate OutstandingStored(belts: seq<seq<Pallet>>, current: PerOrigin<int>, outstanding: PerOrigin<int>) {
    && outstanding.a == LotCount(belts, A, current.a)
    && outstanding.b == LotCount(belts, B, current.b)
    && outstanding.c == LotCount(belts, C, current.c)
  }

  /** A per-origin counter, set back to 0 for `o` when a new lot starts. */
  function ResetFor(m: PerOrigin<int>, o: Origin, reset: bool): PerOrigin<int> {
    if reset then m.Set(o, 0) else m
  }

  /** A per-origin counter, one higher for `o` when a pallet of `o` is stored. */
  function CountOne(m: PerOrigin<int>, o: Origin, counted: bool): PerOrigin<int> {
    if counted then m.Set(o, m.Get(o) + 1) else m
  }

  /**
   * The belt `r` allocation strategy `kind` picks for a pallet of `o` on
   * `belts` when the round-robin cursor of `o` is `cursor`, and the cursor
   * `next` it leaves: MostFree's first most free dedicated belt, round-robin's
   * scan, or the dedicated strategy's tiers for lot `stickyLot` (`producedA`,
   * the size of A's current lot, decides A's preferred shared belts).
   */
  ghost predicate Picks(kind: AllocationKind, belts: seq<seq<Pallet>>, o: Origin, producedA: int, stickyLot: int,
                        cursor: int, r: Option<int>, next: int)
    requires |belts| == Rows
  {
    match kind
    case MostFree => next == cursor && (r.Some? ==> FirstMostFree(belts, OriginRows(o), r.value, Cols))
    case RoundRobin => RoundRobinPick(belts, OriginRows(o), Cols, cursor, r, next)
    case DedicatedThreePlusDynamic => next == cursor && DedicatedPick(belts, Cols, o, producedA, stickyLot, r)
  }

  /**
   * The production loop's belt choice for a pallet of lot `lot` of `o`: the
   * strategy's pick `first` from cursor `cursor`, after which the cursor is
   * `mid`, is kept when it accepts the lot; otherwise a second pick `second`
   * from `mid` replaces it when it names another belt, and leaves the cursor
   * at `after`. NoBelt exactly when `first` is None; `row` is the belt chosen.
   */
  ghost predicate ChoosesBelt(kind: AllocationKind, belts: seq<seq<Pallet>>, o: Origin, producedA: int, stickyLot: int,
                              lot: int, cursor: int, outcome: ProduceOutcome, row: int,
                              first: Option<int>, mid: int, second: Option<int>, after: int)
    requires |belts| == Rows
  {
    match first
    case None => Picks(kind, belts, o, producedA, stickyLot, cursor, first, mid) && outcome == NoBelt && after == mid
    case Some(f) =>
      && Picks(kind, belts, o, producedA, stickyLot, cursor, first, mid) && outcome != NoBelt && 0 <= f < Rows
      && if AcceptsLot(belts[f], lot) then row == f && after == mid
         else Picks(kind, belts, o, producedA, stickyLot, mid, second, after)
              && row == (if second.Some? && second.value != f then second.value else f)
  }

  /** The clock moving on keeps every belt in FIFO order. */
  lemma ClockKeepsBelts(belts: seq<seq<Pallet>>, nextLot: int, now: int, later: int, maturation: int)
    requires BeltsOk(belts, nextLot, now, maturation) && now <= later
    ensures BeltsOk(belts, nextLot, later, maturation)
  {
    BeltsOkBelowLater(belts, Rows, nextLot, now, maturation, nextLot, later);
  }

  /**
   * Storing a pallet produced now, of its origin's current lot, at the tail
   * of a belt with room that is empty or ends with that lot keeps the belts
   * valid and adds one to that origin's outstanding count.
   */
  lemma StoreKeepsInvariant(belts: seq<seq<Pallet>>, row: int, p: Pallet, nextLot: int, now: int, maturation: int,
                            current: PerOrigin<int>, outstanding: PerOrigin<int>)
    requires BeltsOk(belts, nextLot, now, maturation) && OutstandingStored(belts, current, outstanding)
    requires 0 <= row < Rows && |belts[row]| < Cols
    requires belts[row] == [] || belts[row][|belts[row]| - 1].lotId == p.lotId
    requires p.lotId == current.Get(p.origin) && p.lotId < nextLot
    requires p.tProd == now && p.tMature == now + maturation
    ensures BeltsOk(belts[row := belts[row] + [p]], nextLot, now, maturation)
    ensures OutstandingStored(belts[row := belts[row] + [p]], current, outstanding.Set(p.origin, outstanding.Get(p.origin) + 1))
  {
    BeltsOkBelowAt(belts, Rows, row, nextLot, now, maturation);
    AppendKeepsSingleLot(belts[row], p, nextLot);
    AppendKeepsFifo(belts[row], p, now, maturation);
    AppendCount(belts, row, p, A, current.a);
    AppendCount(belts, row, p, B, current.b);
    AppendCount(belts, row, p, C, current.c);
    BeltsOkBelowUpdate(belts, Rows, row, belts[row] + [p], nextLot, now, maturation);
  }

  /**
   * Removing the head of a belt keeps the belts valid. When the head is of
   * its origin's current lot, that origin's outstanding count is positive
   * and drops by one; otherwise no count changes.
   */
  lemma PopKeepsInvariant(belts: seq<seq<Pallet>>, row: int, nextLot: int, now: int, maturation: int,
                          current: PerOrigin<int>, outstanding: PerOrigin<int>)
    requires BeltsOk(belts, nextLot, now, maturation) && OutstandingStored(belts, current, outstanding)
    requires 0 <= row < Rows && belts[row] != []
    ensures BeltsOk(belts[row := belts[row][1..]], nextLot, now, maturation)
    ensures var p := belts[row][0];
      && (p.lotId == current.Get(p.origin) ==> outstanding.Get(p.origin) > 0)
      && OutstandingStored(belts[row := belts[row][1..]], current,
           if p.lotId == current.Get(p.origin) then outstanding.Set(p.origin, outstanding.Get(p.origin) - 1) else outstanding)
  {
    BeltsOkBelowAt(belts, Rows, row, nextLot, now, maturation);
    TailKeepsSingleLot(belts[row], nextLot);
    TailKeepsFifo(belts[row], now, maturation);
    PopCount(belts, row, A, current.a);
    PopCount(belts, row, B, current.b);
    PopCount(belts, row, C, current.c);
    BeltsOkBelowUpdate(belts, Rows, row, belts[row][1..], nextLot, now, maturation);
    var p := belts[row][0];
    if p.lotId == current.Get(p.origin) {
      LotCountPositive(belts, row, 0, p.origin, p.lotId);
    }
  }

  /**
   * Starting lot `nextLot` for `o`: no stored pallet has that id yet, so the
   * fresh outstanding count 0 is exact, and the belts stay valid once the
   * next id moves on.
   */
  lemma AdvanceKeepsInvariant(belts: seq<seq<Pallet>>, o: Origin, nextLot: int, now: int, maturation: int,
                              current: PerOrigin<int>, outstanding: PerOrigin<int>)
    requires BeltsOk(belts, nextLot, now, maturation) && OutstandingStored(belts, current, outstanding)
    ensures BeltsOk(belts, nextLot + 1, now, maturation)
    ensures OutstandingStored(belts, current.Set(o, nextLot), outstanding.Set(o, 0))
  {
    forall r, i | 0 <= r < |belts| && 0 <= i < |belts[r]|
      ensures belts[r][i].lotId < nextLot
    {
      BeltsOkBelowAt(belts, Rows, r, nextLot, now, maturation);
      assert SingleLotBelt(belts[r], nextLot);
    }
    LotCountBelow(belts, o, nextLot);
    BeltsOkBelowLater(belts, Rows, nextLot, now, maturation, nextLot + 1, now);
  }

  class SimulationEngine {
    // Parameters
    const x: int
    const maturationMinutes: int
    const windowMinutes: int
    const lotSize: int
    const allocation: AllocationKind
    const consumption: ConsumptionKind
    const roundRobin: RoundRobinAllocation
    const activationTime: PerOrigin<int>

    // Clock, events and export records
    var now: int
    var events: seq<Event>
    var records: map<int, Record>
    var nextPalletId: int

    // Belts: head at index 0
    var belts: seq<seq<Pallet>>

    // Production and lots
    var nextProdTime: PerOrigin<int>
    var currentLotId: PerOrigin<int>
    var globalNextLotId: int
    var lotProduced: PerOrigin<int>
    var lotOutstanding: PerOrigin<int>

    // Consumption windows. `nextConsume3` is three times next_consume_time,
    // so that the pace of one pallet every X/3 minutes stays exact.
    var rotationIdx: int
    var activeOrigin: Option<Origin>
    var windowEndTime: int
    var nextConsume3: int
    var windowConsumed: int

    ghost predicate ConfigValid()
      reads roundRobin
    {
      x >= 1 && lotSize >= 1 && roundRobin.Valid()
    }

    ghost predicate BeltsValid()
      reads this`belts, this`globalNextLotId, this`now
    {
      BeltsOk(belts, globalNextLotId, now, maturationMinutes)
    }

    /** The lot counters stay bounded and lot ids already handed out stay below the next one. */
    ghost predicate LotsValid()
      reads this`belts, this`currentLotId, this`globalNextLotId, this`lotProduced, this`lotOutstanding
    {
      LotValid(A) && LotValid(B) && LotValid(C) && OutstandingStored(belts, currentLotId, lotOutstanding)
    }

    ghost predicate LotValid(o: Origin)
      reads this`currentLotId, this`globalNextLotId, this`lotProduced, this`lotOutstanding
    {
      && 0 <= lotOutstanding.Get(o) <= lotProduced.Get(o) <= lotSize
      && currentLotId.Get(o) < globalNextLotId
    }

    ghost predicate RecordsValid()
      reads this`records, this`nextPalletId
    {
      nextPalletId >= 1 && forall id :: id in records ==> 1 <= id < nextPalletId
    }

    /** At most one window is active, and it belongs to the origin the rotation points at. */
    ghost predicate WindowValid()
      reads this`rotationIdx, this`activeOrigin
    {
      0 <= rotationIdx < |Rotation| && (activeOrigin.Some? ==> activeOrigin.value == Rotation[rotationIdx])
    }

    ghost predicate Valid()
      reads this, roundRobin
    {
      ConfigValid() && BeltsValid() && LotsValid() && RecordsValid() && WindowValid()
    }

    twostate predicate SameLots()
      reads this`currentLotId, this`globalNextLotId, this`lotProduced, this`lotOutstanding
    {
      && currentLotId == old(currentLotId) && globalNextLotId == old(globalNextLotId)
      && lotProduced == old(lotProduced) && lotOutstanding == old(lotOutstanding)
    }

    twostate predicate SameWindow()
      reads this`rotationIdx, this`activeOrigin, this`windowEndTime, this`nextConsume3, this`windowConsumed, this`events
    {
      && rotationIdx == old(rotationIdx) && activeOrigin == old(activeOrigin) && windowEndTime == old(windowEndTime)
      && nextConsume3 == old(nextConsume3) && windowConsumed == old(windowConsumed) && events == old(events)
    }

    twostate predicate SameProduction()
      reads this`nextPalletId, this`nextProdTime
    {
      nextPalletId == old(nextPalletId) && nextProdTime == old(nextProdTime)
    }

    /**
     * What removing the head of belt `row` does to the belts and the lots:
     * the belt loses its head, the record gets its consumption minute, and
     * the outstanding count of the head's origin drops by one when the head
     * belongs to that origin's current lot and the count is positive.
     */
    twostate predicate HeadRemoved(row: int)
      reads this`belts, this`records, this`lotOutstanding, this`currentLotId, this`now
    {
      && 0 <= row < |old(belts)| && old(belts)[row] != []
      && var p := old(belts)[row][0];
      && belts == old(belts)[row := old(belts)[row][1..]]
      && records == MarkConsumed(old(records), p.palletId, old(now))
      && lotOutstanding == (if p.lotId == old(currentLotId).Get(p.origin) && old(lotOutstanding).Get(p.origin) > 0
                            then old(lotOutstanding).Set(p.origin, old(lotOutstanding).Get(p.origin) - 1)
                            else old(lotOutstanding))
    }

    /** The effect of popping the head of belt `row`: HeadRemoved, and nothing else changes. */
    twostate predicate PoppedHead(row: int)
      reads this
    {
      && HeadRemoved(row)
      && now == old(now) && currentLotId == old(currentLotId) && globalNextLotId == old(globalNextLotId)
      && lotProduced == old(lotProduced) && SameProduction() && SameWindow()
    }

    /**
     * A stored pallet of its origin's current lot is counted as outstanding,
     * so the `> 0` guard of the decrement in pop_if_mature_head_of_origin
     * always holds when that decrement is reached.
     */
    lemma CurrentLotPalletIsOutstanding(row: int, i: int)
      requires Valid() && 0 <= row < Rows && 0 <= i < |belts[row]|
      requires belts[row][i].lotId == currentLotId.Get(belts[row][i].origin)
      ensures lotOutstanding.Get(belts[row][i].origin) > 0
    {
      var p := belts[row][i];
      LotCountPositive(belts, row, i, p.origin, p.lotId);
    }

    constructor (xMinutes: int, maturationHours: int, windowHours: int, allocation: AllocationKind, consumption: ConsumptionKind)
      ensures Valid() && fresh(roundRobin)
      ensures x == Max(1, xMinutes) && maturationMinutes == maturationHours * 60 && windowMinutes == windowHours * 60
      ensures lotSize == Max(1, 2160 / x)
      ensures this.allocation == allocation && this.consumption == consumption
      ensures activationTime == PerOrigin(0, windowMinutes, 2 * windowMinutes)
      ensures now == 0 && events == [] && records == map[] && nextPalletId == 1
      ensures |belts| == Rows && forall r :: 0 <= r < Rows ==> belts[r] == []
      ensures nextProdTime == activationTime
      ensures currentLotId == PerOrigin(1, 2, 3) && globalNextLotId == 4
      ensures lotProduced == PerOrigin(0, 0, 0) && lotOutstanding == PerOrigin(0, 0, 0)
      ensures rotationIdx == 0 && activeOrigin == None && windowEndTime == 0 && nextConsume3 == 0 && windowConsumed == 0
    {
      x := Max(1, xMinutes);
      maturationMinutes := maturationHours * 60;
      windowMinutes := windowHours * 60;
      lotSize := Max(1, 2160 / Max(1, xMinutes));
      this.allocation := allocation;
      this.consumption := consumption;
      roundRobin := new RoundRobinAllocation();
      activationTime := PerOrigin(0, windowHours * 60, 2 * (windowHours * 60));
      now := 0;
      events := [];
      records := map[];
      nextPalletId := 1;
      var empty: seq<seq<Pallet>> := seq(Rows, _ => []);
      LotCountBelow(empty, A, 1);
      LotCountBelow(empty, B, 2);
      LotCountBelow(empty, C, 3);
      EmptyBeltsOk(empty, Rows, 4, 0, maturationHours * 60);
      belts := empty;
      nextProdTime := PerOrigin(0, windowHours * 60, 2 * (windowHours * 60));
      currentLotId := PerOrigin(1, 2, 3);
      globalNextLotId := 4;
      lotProduced := PerOrigin(0, 0, 0);
      lotOutstanding := PerOrigin(0, 0, 0);
      rotationIdx := 0;
      activeOrigin := None;
      windowEndTime := 0;
      nextConsume3 := 0;
      windowConsumed := 0;
    }

    /**
     * peek_next_lot_id: the current lot while it still has room; a fresh id
     * once it is complete and none of its pallets is left on the belts;
     * None (production waits) while a complete lot still has pallets stored.
     */
    function PeekNextLotId(o: Origin): (r: Option<int>)
      reads this
      requires LotsValid()
      ensures r == Some(currentLotId.Get(o)) <==> lotProduced.Get(o) < lotSize
      ensures r.None? <==> lotProduced.Get(o) >= lotSize && lotOutstanding.Get(o) > 0
      ensures r.Some? && r.value != currentLotId.Get(o) ==> forall o' :: currentLotId.Get(o') < r.value
    {
      if lotProduced.Get(o) < lotSize then Some(currentLotId.Get(o))
      else if lotOutstanding.Get(o) > 0 then None
      else Some(globalNextLotId)
    }

    /** _advance_lot: the origin takes the next global lot id with fresh counters. */
    method AdvanceLot(o: Origin)
      requires Valid()
      modifies this
      ensures Valid()
      ensures currentLotId == old(currentLotId).Set(o, old(globalNextLotId))
      ensures globalNextLotId == old(globalNextLotId) + 1
      ensures lotProduced == old(lotProduced).Set(o, 0) && lotOutstanding == old(lotOutstanding).Set(o, 0)
      ensures belts == old(belts) && records == old(records) && now == old(now)
      ensures SameProduction() && SameWindow()
    {
      var lot := globalNextLotId;
      AdvanceKeepsInvariant(belts, o, lot, now, maturationMinutes, currentLotId, lotOutstanding);
      currentLotId := currentLotId.Set(o, lot);
      globalNextLotId := globalNextLotId + 1;
      lotProduced := lotProduced.Set(o, 0);
      lotOutstanding := lotOutstanding.Set(o, 0);
    }

    /**
     * _assign_lot: the lot of the next pallet of `o`, or None when production
     * must wait because the complete current lot still has pallets stored.
     * A new lot is started only once the current one is complete and fully
     * consumed.
     */
    method AssignLot(o: Origin) returns (lot: Option<int>)
      requires Valid()
      modifies this
      ensures Valid()
      ensures lot.Some? <==> old(lotProduced.Get(o) < lotSize || lotOutstanding.Get(o) == 0)
      ensures lot.Some? ==> lot.value == currentLotId.Get(o) && lotProduced.Get(o) < lotSize
      ensures lot.Some? && old(lotProduced.Get(o)) >= lotSize ==>
        && currentLotId == old(currentLotId).Set(o, old(globalNextLotId))
        && globalNextLotId == old(globalNextLotId) + 1
        && lotProduced == old(lotProduced).Set(o, 0) && lotOutstanding == old(lotOutstanding).Set(o, 0)
      ensures lot.None? || old(lotProduced.Get(o)) < lotSize ==> SameLots()
      ensures lot.Some? ==>
        && lotProduced == ResetFor(old(lotProduced), o, old(lotProduced.Get(o)) >= lotSize)
        && lotOutstanding == ResetFor(old(lotOutstanding), o, old(lotProduced.Get(o)) >= lotSize)
      ensures belts == old(belts) && records == old(records) && now == old(now)
      ensures SameProduction() && SameWindow()
    {
      var produced := lotProduced.Get(o);
      var outstanding := lotOutstanding.Get(o);
      if produced >= lotSize && outstanding == produced {
        return None;
      }
      var nxt := PeekNextLotId(o);
      if nxt.None? {
        return None;
      }
      if nxt.value != currentLotId.Get(o) {
        if outstanding < produced {
          AdvanceLot(o);
        } else {
          return None;
        }
      }
      return Some(currentLotId.Get(o));
    }

    /** Belts the configured allocation strategy may choose for `o`. */
    function AdmissibleRows(o: Origin): (rows: seq<int>)
      ensures forall r :: r in rows ==> 0 <= r < Rows
    {
      if allocation == DedicatedThreePlusDynamic then OriginRows(o) + DynamicRows else OriginRows(o)
    }

    /** The lot the dedicated strategy keeps together: the next pallet's lot, else the current one. */
    function StickyLot(o: Origin): int
      reads this
      requires LotsValid()
    {
      var nextLot := PeekNextLotId(o);
      if nextLot.Some? then nextLot.value else currentLotId.Get(o)
    }

    /**
     * allocation_strategy.select_belt: the configured strategy's pick, a belt
     * with room among the admissible ones, or None exactly when all of them
     * are full; only the round-robin cursor of `o` may move.
     */
    method SelectBelt(o: Origin) returns (r: Option<int>)
      requires Valid()
      modifies roundRobin
      ensures Valid()
      ensures r.Some? ==> 0 <= r.value < Rows && r.value in AdmissibleRows(o) && |belts[r.value]| < Cols
      ensures r.None? <==> forall row :: row in AdmissibleRows(o) ==> |belts[row]| >= Cols
      ensures Picks(allocation, belts, o, lotProduced.Get(A), StickyLot(o), old(roundRobin.nextIndex.Get(o)), r, roundRobin.nextIndex.Get(o))
      ensures roundRobin.nextIndex == old(roundRobin.nextIndex).Set(o, roundRobin.nextIndex.Get(o))
    {
      match allocation {
        case MostFree =>
          r := SelectMostFreeBelt(o);
        case RoundRobin =>
          r := SelectRoundRobinBelt(o);
        case DedicatedThreePlusDynamic =>
          r := SelectDedicatedThreePlusDynamic(belts, Cols, o, lotProduced.Get(A), StickyLot(o));
      }
    }

    /** SelectBelt under MostFreeAllocation, which leaves the cursor alone. */
    method SelectMostFreeBelt(o: Origin) returns (r: Option<int>)
      requires |belts| == Rows && LotsValid() && allocation == MostFree
      ensures r.Some? ==> 0 <= r.value < Rows && r.value in AdmissibleRows(o) && |belts[r.value]| < Cols
      ensures r.None? <==> forall row :: row in AdmissibleRows(o) ==> |belts[row]| >= Cols
      ensures Picks(allocation, belts, o, lotProduced.Get(A), StickyLot(o), roundRobin.nextIndex.Get(o), r, roundRobin.nextIndex.Get(o))
    {
      r := SelectMostFree(belts, OriginRows(o), Cols);
      if r.None? {
        forall row | row in OriginRows(o)
          ensures |belts[row]| >= Cols
        {
          var j :| 0 <= j < 3 && OriginRows(o)[j] == row;
        }
      }
    }

    /** SelectBelt under RoundRobinAllocation, which moves the cursor of `o`. */
    method SelectRoundRobinBelt(o: Origin) returns (r: Option<int>)
      requires Valid() && allocation == RoundRobin
      modifies roundRobin
      ensures Valid()
      ensures r.Some? ==> 0 <= r.value < Rows && r.value in AdmissibleRows(o) && |belts[r.value]| < Cols
      ensures r.None? <==> forall row :: row in AdmissibleRows(o) ==> |belts[row]| >= Cols
      ensures Picks(allocation, belts, o, lotProduced.Get(A), StickyLot(o), old(roundRobin.nextIndex.Get(o)), r, roundRobin.nextIndex.Get(o))
      ensures roundRobin.nextIndex == old(roundRobin.nextIndex).Set(o, roundRobin.nextIndex.Get(o))
    {
      r := roundRobin.SelectBelt(belts, OriginRows(o), Cols, o);
      if r.Some? {
        var n := |OriginRows(o)|;
        var start := old(roundRobin.nextIndex.Get(o)) % n;
        ghost var k :| 0 <= k < n && r.value == OriginRows(o)[ScanPos(start, k, n)];
      } else {
        forall row | row in OriginRows(o)
          ensures |belts[row]| >= Cols
        {
          var j :| 0 <= j < 3 && OriginRows(o)[j] == row;
        }
      }
    }

    /**
     * One iteration of the production loop of _try_produce: the lot is
     * assigned first (which may start a new lot), then the pallet is placed.
     */
    method ProduceOne(o: Origin)
      returns (outcome: ProduceOutcome, ghost row: int, ghost first: Option<int>, ghost mid: int, ghost second: Option<int>)
      requires Valid()
      modifies this, roundRobin
      ensures Valid()
      ensures now == old(now) && SameWindow()
      ensures outcome == NoLot <==> old(lotProduced.Get(o) >= lotSize && lotOutstanding.Get(o) > 0)
      ensures outcome != NoLot && old(lotProduced.Get(o)) >= lotSize ==>
        currentLotId == old(currentLotId).Set(o, old(globalNextLotId)) && globalNextLotId == old(globalNextLotId) + 1
      ensures !(outcome != NoLot && old(lotProduced.Get(o)) >= lotSize) ==>
        currentLotId == old(currentLotId) && globalNextLotId == old(globalNextLotId)
      ensures outcome != Produced ==> belts == old(belts) && records == old(records) && SameProduction()
      ensures outcome == NoLot ==> SameLots()
      ensures outcome == NoBelt ==> forall row :: row in AdmissibleRows(o) ==> |belts[row]| >= Cols
      ensures outcome == Produced ==> PalletStoredOn(o, row, old(belts), old(nextPalletId), old(records), old(nextProdTime))
      ensures outcome != NoLot ==>
        ChoosesBelt(allocation, old(belts), o, ResetFor(old(lotProduced), o, old(lotProduced.Get(o)) >= lotSize).Get(A),
                    currentLotId.Get(o), currentLotId.Get(o), old(roundRobin.nextIndex.Get(o)),
                    outcome, row, first, mid, second, roundRobin.nextIndex.Get(o))
      ensures outcome != NoLot ==>
        && lotProduced == CountOne(ResetFor(old(lotProduced), o, old(lotProduced.Get(o)) >= lotSize), o, outcome == Produced)
        && lotOutstanding == CountOne(ResetFor(old(lotOutstanding), o, old(lotProduced.Get(o)) >= lotSize), o, outcome == Produced)
    {
      var lotOpt := AssignLot(o);
      if lotOpt.None? {
        return NoLot, 0, None, 0, None;
      }
      assert belts == old(belts) && nextPalletId == old(nextPalletId) && StickyLot(o) == currentLotId.Get(o);
      outcome, row, first, mid, second := PlacePallet(o);
    }

    /**
     * The effect of storing one pallet of `o` on belt `row`, from belts
     * `before`, next pallet id `id`, records `recs` and next production
     * minutes `prodTime`: the belt, one the strategy may use and empty or
     * ending with the same lot, gets the pallet at its tail; the pallet gets
     * id `id` and a record, and the next production minute of `o` moves X
     * minutes on.
     */
    predicate PalletStoredOn(o: Origin, row: int, before: seq<seq<Pallet>>, id: int,
                             recs: map<int, Record>, prodTime: PerOrigin<int>)
      reads this`belts, this`nextPalletId, this`records, this`nextProdTime, this`now, this`currentLotId
    {
      var p := Pallet(o, now, now + maturationMinutes, currentLotId.Get(o), id);
      && |before| == Rows && 0 <= row < Rows && row in AdmissibleRows(o)
      && AcceptsLot(before[row], p.lotId)
      && belts == before[row := before[row] + [p]]
      && nextPalletId == id + 1
      && records == recs[id := Record(o, p.lotId, id, now, None)]
      && nextProdTime == prodTime.Set(o, prodTime.Get(o) + x)
    }

    /**
     * Places the next pallet of `o`, whose lot has room: on the belt the
     * strategy selects, or on a second selection when the first would mix
     * lots. The source reserves the pallet id and record before the mixing
     * check and rolls both back when the pallet is not stored; deciding
     * first and committing afterwards has the same effect.
     */
    method PlacePallet(o: Origin)
      returns (outcome: ProduceOutcome, row: int, ghost first: Option<int>, ghost mid: int, ghost second: Option<int>)
      requires Valid() && lotProduced.Get(o) < lotSize
      modifies this, roundRobin
      ensures Valid()
      ensures outcome != NoLot
      ensures now == old(now) && SameWindow()
      ensures currentLotId == old(currentLotId) && globalNextLotId == old(globalNextLotId)
      ensures outcome != Produced ==> belts == old(belts) && records == old(records) && SameProduction() && SameLots()
      ensures outcome == NoBelt ==> forall row :: row in AdmissibleRows(o) ==> |belts[row]| >= Cols
      ensures ChoosesBelt(allocation, old(belts), o, old(lotProduced.Get(A)), old(StickyLot(o)), currentLotId.Get(o),
                          old(roundRobin.nextIndex.Get(o)), outcome, row, first, mid, second, roundRobin.nextIndex.Get(o))
      ensures outcome == Produced ==> PalletStoredOn(o, row, old(belts), old(nextPalletId), old(records), old(nextProdTime))
      ensures lotProduced == CountOne(old(lotProduced), o, outcome == Produced)
      ensures lotOutstanding == CountOne(old(lotOutstanding), o, outcome == Produced)
    {
      ghost var before, producedA, sticky := belts, lotProduced.Get(A), StickyLot(o);
      outcome, row, first, mid, second := ChooseBelt(o, currentLotId.Get(o));
      if outcome == Produced {
        assert belts == old(belts);
        CommitPallet(o, row);
      }
    }

    /**
     * The belt choice of the production loop: the strategy's belt, or a
     * second selection when the first would mix lots. `Produced` means a
     * compatible belt `row` was found; only the round-robin cursor changes.
     */
    method ChooseBelt(o: Origin, lot: int)
      returns (outcome: ProduceOutcome, row: int, ghost first: Option<int>, ghost mid: int, ghost second: Option<int>)
      requires Valid()
      modifies roundRobin
      ensures Valid()
      ensures ChoosesBelt(allocation, belts, o, lotProduced.Get(A), StickyLot(o), lot, old(roundRobin.nextIndex.Get(o)),
                          outcome, row, first, mid, second, roundRobin.nextIndex.Get(o))
      ensures roundRobin.nextIndex == old(roundRobin.nextIndex).Set(o, roundRobin.nextIndex.Get(o))
      ensures outcome == Produced || outcome == NoBelt || outcome == Mixed
      ensures outcome == NoBelt ==> forall r :: r in AdmissibleRows(o) ==> |belts[r]| >= Cols
      ensures outcome == Produced ==> 0 <= row < Rows && row in AdmissibleRows(o) && |belts[row]| < Cols && AcceptsLot(belts[row], lot)
      ensures outcome == Mixed ==> 0 <= row < Rows && !AcceptsLot(belts[row], lot)
    {
      var target := SelectBelt(o);
      first, mid, second := target, roundRobin.nextIndex.Get(o), None;
      if target.None? {
        return NoBelt, 0, first, mid, second;
      }
      row := target.value;
      if belts[row] != [] && belts[row][|belts[row]| - 1].lotId != lot {
        row, second := RetryBelt(o, row);
      }
      // still mixing: production blocks for this minute
      outcome := if AcceptsLot(belts[row], lot) then Produced else Mixed;
    }

    /** The retry when belt `row` would mix lots: a second selection, used when it names another belt. */
    method RetryBelt(o: Origin, row: int) returns (chosen: int, ghost second: Option<int>)
      requires Valid() && 0 <= row < Rows && row in AdmissibleRows(o) && |belts[row]| < Cols
      modifies roundRobin
      ensures Valid()
      ensures Picks(allocation, belts, o, lotProduced.Get(A), StickyLot(o), old(roundRobin.nextIndex.Get(o)), second, roundRobin.nextIndex.Get(o))
      ensures roundRobin.nextIndex == old(roundRobin.nextIndex).Set(o, roundRobin.nextIndex.Get(o))
      ensures chosen == (if second.Some? && second.value != row then second.value else row)
      ensures 0 <= chosen < Rows && chosen in AdmissibleRows(o) && |belts[chosen]| < Cols
    {
      // try another compatible belt
      var alt := SelectBelt(o);
      second := alt;
      chosen := if alt.Some? && alt.value != row then alt.value else row;
    }

    /**
     * Stores the next pallet of `o` at the tail of belt `row`: a new pallet
     * id and record, the lot counters and the next production minute.
     */
    method CommitPallet(o: Origin, row: int)
      requires Valid() && 0 <= row < Rows && |belts[row]| < Cols
      requires lotProduced.Get(o) < lotSize
      requires row in AdmissibleRows(o) && AcceptsLot(belts[row], currentLotId.Get(o))
      modifies this`belts, this`lotProduced, this`lotOutstanding, this`nextPalletId, this`records, this`nextProdTime
      ensures Valid()
      ensures PalletStoredOn(o, row, old(belts), old(nextPalletId), old(records), old(nextProdTime))
      ensures lotProduced == CountOne(old(lotProduced), o, true)
      ensures lotOutstanding == CountOne(old(lotOutstanding), o, true)
      ensures now == old(now) && currentLotId == old(currentLotId) && globalNextLotId == old(globalNextLotId)
      ensures SameWindow()
    {
      var pid := nextPalletId;
      var pallet := Pallet(o, now, now + maturationMinutes, currentLotId.Get(o), pid);
      ghost var before := belts;
      StorePallet(row, pallet);
      assert belts == before[row := before[row] + [pallet]];
      RecordPallet(pallet);
    }

    /** Gives `p` the next pallet id and its record, and moves its origin's next production minute X minutes on. */
    method RecordPallet(p: Pallet)
      requires RecordsValid() && p.palletId == nextPalletId
      modifies this`nextPalletId, this`records, this`nextProdTime
      ensures RecordsValid()
      ensures nextPalletId == old(nextPalletId) + 1
      ensures records == old(records)[p.palletId := Record(p.origin, p.lotId, p.palletId, now, None)]
      ensures nextProdTime == old(nextProdTime).Set(p.origin, old(nextProdTime.Get(p.origin)) + x)
    {
      nextPalletId := nextPalletId + 1;
      records := records[p.palletId := Record(p.origin, p.lotId, p.palletId, now, None)];
      nextProdTime := nextProdTime.Set(p.origin, nextProdTime.Get(p.origin) + x);
    }

    /** Appends `p` to belt `row` and counts it in its lot. */
    method StorePallet(row: int, p: Pallet)
      requires Valid() && 0 <= row < Rows && |belts[row]| < Cols
      requires p.lotId == currentLotId.Get(p.origin) && lotProduced.Get(p.origin) < lotSize
      requires belts[row] == [] || belts[row][|belts[row]| - 1].lotId == p.lotId
      requires p.palletId >= nextPalletId
      requires p.tProd == now && p.tMature == now + maturationMinutes
      modifies this`belts, this`lotProduced, this`lotOutstanding
      ensures Valid()
      ensures belts == old(belts)[row := old(belts)[row] + [p]]
      ensures lotProduced == CountOne(old(lotProduced), p.origin, true)
      ensures lotOutstanding == CountOne(old(lotOutstanding), p.origin, true)
      ensures now == old(now) && currentLotId == old(currentLotId) && globalNextLotId == old(globalNextLotId)
      ensures records == old(records) && SameProduction() && SameWindow()
    {
      StoreKeepsInvariant(belts, row, p, globalNextLotId, now, maturationMinutes, currentLotId, lotOutstanding);
      belts := belts[row := belts[row] + [p]];
      lotProduced := lotProduced.Set(p.origin, lotProduced.Get(p.origin) + 1);
      lotOutstanding := lotOutstanding.Set(p.origin, lotOutstanding.Get(p.origin) + 1);
    }

    /**
     * _try_produce: for A, B and C in turn (once active), produce what is
     * due; a pallet that would mix lots ends the whole pass. Production only
     * ever appends at the tails of the belts.
     */
    method TryProduce()
      requires Valid()
      modifies this, roundRobin
      ensures Valid()
      ensures now == old(now) && SameWindow()
      ensures forall r :: 0 <= r < Rows ==> old(belts)[r] <= belts[r]
    {
      var origins := [A, B, C];
      for n := 0 to 3
        invariant Valid() && now == old(now) && SameWindow()
        invariant forall r :: 0 <= r < Rows ==> old(belts)[r] <= belts[r]
      {
        var o := origins[n];
        if now < activationTime.Get(o) {
          continue;
        }
        var mixed := ProduceDue(o);
        if mixed {
          return;
        }
      }
    }

    /**
     * The production loop of one origin: pallets are produced while the
     * production minute is due, until no lot or no belt is available or a
     * pallet would mix lots (`mixed`).
     */
    method ProduceDue(o: Origin) returns (mixed: bool)
      requires Valid()
      modifies this, roundRobin
      ensures Valid()
      ensures now == old(now) && SameWindow()
      ensures forall r :: 0 <= r < Rows ==> old(belts)[r] <= belts[r]
      ensures !mixed ==>
        || now < nextProdTime.Get(o)
        || (lotProduced.Get(o) >= lotSize && lotOutstanding.Get(o) > 0)
        || (forall row :: row in AdmissibleRows(o) ==> |belts[row]| >= Cols)
    {
      mixed := false;
      while now >= nextProdTime.Get(o)
        invariant Valid() && now == old(now) && SameWindow()
        invariant forall r :: 0 <= r < Rows ==> old(belts)[r] <= belts[r]
        decreases now - nextProdTime.Get(o)
      {
        var outcome, _, _, _, _ := ProduceOne(o);
        if outcome == Mixed {
          return true;
        }
        if outcome != Produced {
          return false;
        }
      }
    }

    /**
     * pop_if_mature_head_of_origin: removes the head of belt `row` only when
     * it comes from `origin` and is mature; otherwise nothing changes.
     */
    method PopIfMatureHeadOfOrigin(row: int, origin: Origin) returns (ok: bool)
      requires Valid() && 0 <= row < Rows
      modifies this
      ensures Valid()
      ensures ok == old(HeadReady(belts, row, origin, now))
      ensures ok ==> PoppedHead(row)
      ensures !ok ==> unchanged(this)
    {
      if belts[row] == [] {
        return false;
      }
      var head := belts[row][0];
      if head.origin != origin {
        return false;
      }
      if !IsMature(head, now) {
        return false;
      }
      RemoveHead(row);
      return true;
    }

    /**
     * Removes the head of belt `row`: marks its record consumed and, when it
     * belongs to its origin's current lot, lowers that lot's outstanding count.
     */
    method RemoveHead(row: int)
      requires Valid() && 0 <= row < Rows && belts[row] != []
      modifies this
      ensures Valid() && PoppedHead(row)
    {
      var head := belts[row][0];
      var o := head.origin;
      PopKeepsInvariant(belts, row, globalNextLotId, now, maturationMinutes, currentLotId, lotOutstanding);
      belts := belts[row := belts[row][1..]];
      records := MarkConsumed(records, head.palletId, now);
      if head.lotId == currentLotId.Get(o) && lotOutstanding.Get(o) > 0 {
        lotOutstanding := lotOutstanding.Set(o, lotOutstanding.Get(o) - 1);
      }
    }

    /** Pops the first ready head in the order of `rows`. */
    method PopFirstReady(rows: seq<int>, origin: Origin) returns (ok: bool)
      requires Valid() && ValidRows(belts, rows)
      modifies this
      ensures Valid()
      ensures ok == old(AnyReady(belts, rows, origin, now))
      ensures ok ==> exists k :: (0 <= k < |rows| && HeadReady(old(belts), rows[k], origin, old(now)) && PoppedHead(rows[k])
                     && forall j :: 0 <= j < k ==> !HeadReady(old(belts), rows[j], origin, old(now)))
      ensures !ok ==> unchanged(this)
    {
      for i := 0 to |rows|
        invariant Valid() && unchanged(this)
        invariant forall j :: 0 <= j < i ==> !HeadReady(belts, rows[j], origin, now)
      {
        ok := PopIfMatureHeadOfOrigin(rows[i], origin);
        if ok {
          return;
        }
      }
      return false;
    }

    /** Belt `row`, a dedicated or shared belt of `origin` whose head was ready, lost that head. */
    twostate predicate PoppedReady(origin: Origin, row: int)
      reads this
    {
      && |old(belts)| == Rows && row in OriginRows(origin) + DynamicRows
      && HeadReady(old(belts), row, origin, old(now)) && PoppedHead(row)
    }

    /** The effect of PrioritizedFirstThree for `origin`: its FirstReadyRow lost its head. */
    twostate predicate PoppedFirstReady(origin: Origin)
      reads this
    {
      && |old(belts)| == Rows
      && exists row :: (PoppedReady(origin, row) && FirstReadyRow(old(belts), origin, old(now), row))
    }

    /** The effect of LongestQueueHead for `origin`: its LongestReadyRow lost its head. */
    twostate predicate PoppedLongestReady(origin: Origin)
      reads this
    {
      && |old(belts)| == Rows
      && exists row :: (PoppedReady(origin, row) && LongestReadyRow(old(belts), origin, old(now), row))
    }

    /** The effect of DynamicLeastFreeSpace for `origin`: its LeastFreeRow lost its head. */
    twostate predicate PoppedLeastFree(origin: Origin)
      reads this
    {
      && |old(belts)| == Rows
      && exists row :: (PoppedReady(origin, row) && LeastFreeRow(old(belts), origin, old(now), row))
    }

    /** The row whose head the configured consumption strategy takes for `origin`. */
    predicate StrategyRow(b: seq<seq<Pallet>>, origin: Origin, now: int, row: int)
      requires |b| == Rows
    {
      match consumption
      case PrioritizedFirstThree => FirstReadyRow(b, origin, now, row)
      case LongestQueueHead => LongestReadyRow(b, origin, now, row)
      case DynamicLeastFreeSpace => LeastFreeRow(b, origin, now, row)
    }

    /** PrioritizedFirstThreeConsumption: the dedicated belts in order, then the shared ones. */
    method ConsumePrioritizedFirstThree(origin: Origin) returns (ok: bool)
      requires Valid()
      modifies this
      ensures Valid()
      ensures ok == old(AnyReady(belts, OriginRows(origin) + DynamicRows, origin, now))
      ensures ok ==> PoppedFirstReady(origin)
      ensures !ok ==> unchanged(this)
    {
      var rows := OriginRows(origin) + DynamicRows;
      ok := PopFirstReady(rows, origin);
      if ok {
        ghost var k :| 0 <= k < |rows| && HeadReady(old(belts), rows[k], origin, old(now)) && PoppedHead(rows[k])
          && forall j :: 0 <= j < k ==> !HeadReady(old(belts), rows[j], origin, old(now));
        assert FirstReadyRow(old(belts), origin, old(now), rows[k]);
      }
    }

    /**
     * LongestQueueHeadConsumption: the longest queue among the belts whose
     * head is ready, else a scan of the same belts (which then finds nothing).
     */
    method ConsumeLongestQueueHead(origin: Origin) returns (ok: bool)
      requires Valid()
      modifies this
      ensures Valid()
      ensures ok == old(AnyReady(belts, OriginRows(origin) + DynamicRows, origin, now))
      ensures ok ==> PoppedLongestReady(origin)
      ensures !ok ==> unchanged(this)
    {
      var rows := OriginRows(origin) + DynamicRows;
      var best := LongestReadyQueue(belts, rows, origin, now);
      if best.Some? {
        ok := PopIfMatureHeadOfOrigin(best.value, origin);
        assert PoppedReady(origin, best.value);
        return;
      }
      ok := PopFirstReady(rows, origin);
    }

    /**
     * DynamicLeastFreeSpaceConsumption: the shared belts first, then the
     * dedicated ones; within a group the ready belt with the fewest free slots.
     */
    method ConsumeDynamicLeastFreeSpace(origin: Origin) returns (ok: bool)
      requires Valid()
      modifies this
      ensures Valid()
      ensures ok == old(AnyReady(belts, DynamicRows, origin, now) || AnyReady(belts, OriginRows(origin), origin, now))
      ensures ok ==> PoppedLeastFree(origin)
      ensures !ok ==> unchanged(this)
    {
      ok := PopLeastFree(DynamicRows, origin);
      if ok {
        ghost var row :| LeastFreeReady(old(belts), DynamicRows, row, origin, old(now), Cols) && PoppedHead(row);
        assert PoppedReady(origin, row) && LeastFreeRow(old(belts), origin, old(now), row);
      } else {
        label Before:
        ok := PopLeastFree(OriginRows(origin), origin);
        if ok {
          ghost var row :| LeastFreeReady(old@Before(belts), OriginRows(origin), row, origin, old@Before(now), Cols)
                           && PoppedHead@Before(row);
          assert PoppedHead(row);
          assert PoppedReady(origin, row) && LeastFreeRow(old(belts), origin, old(now), row);
        }
      }
    }

    /** pick_row over `rows`, then the pop of the chosen head. */
    method PopLeastFree(rows: seq<int>, origin: Origin) returns (ok: bool)
      requires Valid() && ValidRows(belts, rows)
      modifies this
      ensures Valid()
      ensures ok == old(AnyReady(belts, rows, origin, now))
      ensures ok ==> exists row :: LeastFreeReady(old(belts), rows, row, origin, old(now), Cols) && PoppedHead(row)
      ensures !ok ==> unchanged(this)
    {
      var r := PickLeastFree(belts, rows, origin, now, Cols);
      if r.None? {
        return false;
      }
      ok := PopIfMatureHeadOfOrigin(r.value, origin);
    }

    /** Some dedicated or shared belt has a ready head for `origin`. */
    predicate ReadyAnywhere(origin: Origin)
      reads this
      requires |belts| == Rows
    {
      AnyReady(belts, OriginRows(origin) + DynamicRows, origin, now)
    }

    /**
     * consumption_strategy.consume: every strategy pops exactly when some
     * dedicated or shared belt of the origin has a ready head, and then pops
     * one such head, the one the configured strategy chooses.
     */
    method Consume(origin: Origin) returns (ok: bool)
      requires Valid()
      modifies this
      ensures Valid()
      ensures ok == old(ReadyAnywhere(origin))
      ensures ok ==> exists row :: (PoppedReady(origin, row) && StrategyRow(old(belts), origin, old(now), row))
      ensures !ok ==> unchanged(this)
    {
      match consumption {
        case PrioritizedFirstThree =>
          ok := ConsumePrioritizedFirstThree(origin);
          if ok {
            ghost var row :| PoppedReady(origin, row) && FirstReadyRow(old(belts), origin, old(now), row);
            assert StrategyRow(old(belts), origin, old(now), row);
          }
        case LongestQueueHead =>
          ok := ConsumeLongestQueueHead(origin);
          if ok {
            ghost var row :| PoppedReady(origin, row) && LongestReadyRow(old(belts), origin, old(now), row);
            assert StrategyRow(old(belts), origin, old(now), row);
          }
        case DynamicLeastFreeSpace =>
          AnyReadySplit(old(belts), OriginRows(origin), DynamicRows, origin, old(now));
          ok := ConsumeDynamicLeastFreeSpace(origin);
          if ok {
            ghost var row :| PoppedReady(origin, row) && LeastFreeRow(old(belts), origin, old(now), row);
            assert StrategyRow(old(belts), origin, old(now), row);
          }
      }
    }

    /** The paced slot of the active window: next_consume_time <= now <= window_end_time. */
    predicate PacedSlot()
      reads this
    {
      nextConsume3 <= 3 * now && now <= windowEndTime
    }

    /** The one extra attempt at the window's last minute when the lot is not finished. */
    predicate BoundarySlot()
      reads this
    {
      !PacedSlot() && now == windowEndTime && windowConsumed < lotSize
    }

    /**
     * The effect of one consumption attempt for `o`: when a head is ready
     * one is popped (its record is marked and its lot's outstanding count
     * drops), the window counts it, a paced attempt moves the next
     * slot X/3 minutes on, and the window ends at once when the whole lot
     * has been consumed; when no head is ready nothing changes.
     */
    twostate predicate Attempted(o: Origin, paced: bool)
      reads this
    {
      && |old(belts)| == Rows
      && if old(ReadyAnywhere(o)) then
           && (exists row :: (row in OriginRows(o) + DynamicRows && HeadReady(old(belts), row, o, old(now))
                 && StrategyRow(old(belts), o, old(now), row) && HeadRemoved(row)))
           && windowConsumed == old(windowConsumed) + 1
           && nextConsume3 == old(nextConsume3) + (if paced then x else 0)
           && windowEndTime == (if windowConsumed >= lotSize then old(now) else old(windowEndTime))
         else
           && belts == old(belts) && records == old(records) && lotOutstanding == old(lotOutstanding)
           && windowConsumed == old(windowConsumed) && nextConsume3 == old(nextConsume3)
           && windowEndTime == old(windowEndTime)
    }

    /**
     * _try_consume: at most one attempt per minute, made only in the paced
     * slot of an active window or as the boundary's extra attempt.
     */
    method TryConsume()
      requires Valid()
      modifies this
      ensures Valid()
      ensures now == old(now) && SameProduction() && events == old(events)
      ensures activeOrigin == old(activeOrigin) && rotationIdx == old(rotationIdx)
      ensures currentLotId == old(currentLotId) && globalNextLotId == old(globalNextLotId) && lotProduced == old(lotProduced)
      ensures old(activeOrigin.None? || (!PacedSlot() && !BoundarySlot())) ==> unchanged(this)
      ensures old(activeOrigin.Some? && PacedSlot()) ==> Attempted(activeOrigin.value, true)
      ensures old(activeOrigin.Some? && BoundarySlot()) ==> Attempted(activeOrigin.value, false)
    {
      if activeOrigin.None? {
        return;
      }
      if 3 * now < nextConsume3 || now > windowEndTime {
        // last chance at the window boundary
        if now == windowEndTime && windowConsumed < lotSize {
          ConsumeSlot(false);
        }
        return;
      }
      ConsumeSlot(true);
    }

    /** One consumption attempt for the active origin, paced or at the boundary. */
    method ConsumeSlot(paced: bool)
      requires Valid() && activeOrigin.Some?
      modifies this
      ensures Valid()
      ensures now == old(now) && SameProduction() && events == old(events)
      ensures activeOrigin == old(activeOrigin) && rotationIdx == old(rotationIdx)
      ensures Attempted(activeOrigin.value, paced)
      ensures currentLotId == old(currentLotId) && globalNextLotId == old(globalNextLotId) && lotProduced == old(lotProduced)
    {
      var popped := Consume(activeOrigin.value);
      if popped {
        CountConsumed(paced);
      }
    }

    /**
     * The window counts a consumed pallet; a paced attempt moves the next
     * slot X/3 minutes on, and the window ends now once the whole lot has
     * been consumed.
     */
    method CountConsumed(paced: bool)
      requires Valid()
      modifies this`windowConsumed, this`nextConsume3, this`windowEndTime
      ensures Valid()
      ensures windowConsumed == old(windowConsumed) + 1
      ensures nextConsume3 == old(nextConsume3) + (if paced then x else 0)
      ensures windowEndTime == (if windowConsumed >= lotSize then now else old(windowEndTime))
    {
      windowConsumed := windowConsumed + 1;
      if paced {
        nextConsume3 := nextConsume3 + x;
      }
      if windowConsumed >= lotSize {
        windowEndTime := now;
      }
    }

    /** _is_current_lot_fully_produced_and_unconsumed */
    predicate LotFullyProducedAndUnconsumed(o: Origin)
      reads this
    {
      lotProduced.Get(o) >= lotSize && lotOutstanding.Get(o) == lotProduced.Get(o)
    }

    /**
     * The timing test of _maybe_start_window: the last maturation minute of
     * the current lot is found, and the window is due when now is at least
     * that minute minus window_minutes.
     */
    method WindowDueNow(o: Origin) returns (due: bool)
      requires |belts| == Rows
      ensures due == LotDue(belts, o, currentLotId.Get(o), now + windowMinutes)
    {
      var tLast := LastMature(belts, OriginRows(o) + DynamicRows, o, currentLotId.Get(o));
      if tLast.None? {
        return false;
      }
      var targetStart := tLast.value - windowMinutes;
      due := now >= targetStart;
    }

    /**
     * _maybe_start_window: an expired window is closed and the rotation
     * advances by one; a window then opens for the origin the rotation
     * points at when its lot is complete and unconsumed and the lot's last
     * pallet matures within window_minutes. Opening appends one event.
     */
    method MaybeStartWindow()
      requires Valid()
      modifies this
      ensures Valid()
      ensures belts == old(belts) && records == old(records) && now == old(now)
      ensures SameLots() && SameProduction()
      ensures old(activeOrigin.Some? && now < windowEndTime) ==> unchanged(this)
      ensures rotationIdx == (if old(activeOrigin.Some? && now >= windowEndTime) then (old(rotationIdx) + 1) % 3 else old(rotationIdx))
      ensures !old(activeOrigin.Some? && now < windowEndTime) ==>
        var o := Rotation[rotationIdx];
        if LotFullyProducedAndUnconsumed(o) && LotDue(belts, o, currentLotId.Get(o), now + windowMinutes) then
          && activeOrigin == Some(o) && windowEndTime == now + windowMinutes
          && nextConsume3 == 3 * now && windowConsumed == 0
          && events == old(events) + [WindowStart(o, now, lotSize)]
        else
          && activeOrigin == None && events == old(events) && windowEndTime == old(windowEndTime)
          && nextConsume3 == old(nextConsume3) && windowConsumed == old(windowConsumed)
    {
      if activeOrigin.Some? && now < windowEndTime {
        return;
      }
      CloseExpiredWindow();
      OpenWindowIfDue();
    }

    /** The end of an expired window: the rotation advances and no origin is active. */
    method CloseExpiredWindow()
      requires Valid()
      modifies this
      ensures Valid()
      ensures old(activeOrigin.Some? && now >= windowEndTime) ==>
        && rotationIdx == (old(rotationIdx) + 1) % 3 && activeOrigin == None
        && windowEndTime == old(windowEndTime) && nextConsume3 == old(nextConsume3)
        && windowConsumed == old(windowConsumed) && events == old(events)
        && belts == old(belts) && records == old(records) && now == old(now) && SameLots() && SameProduction()
      ensures !old(activeOrigin.Some? && now >= windowEndTime) ==> unchanged(this)
    {
      if activeOrigin.Some? && now >= windowEndTime {
        rotationIdx := (rotationIdx + 1) % |Rotation|;
        activeOrigin := None;
      }
    }

    /**
     * The opening of a window for the origin the rotation points at, when
     * its lot is complete and unconsumed and due by the last-maturation rule.
     */
    method OpenWindowIfDue()
      requires Valid() && activeOrigin.None?
      modifies this
      ensures Valid()
      ensures var o := Rotation[old(rotationIdx)];
        if old(LotFullyProducedAndUnconsumed(o) && LotDue(belts, o, currentLotId.Get(o), now + windowMinutes)) then
          && activeOrigin == Some(o) && windowEndTime == now + windowMinutes
          && nextConsume3 == 3 * now && windowConsumed == 0
          && events == old(events) + [WindowStart(o, now, lotSize)]
          && rotationIdx == old(rotationIdx) && belts == old(belts) && records == old(records) && now == old(now)
          && SameLots() && SameProduction()
        else
          unchanged(this)
    {
      var origin := Rotation[rotationIdx];
      if !LotFullyProducedAndUnconsumed(origin) {
        return;
      }
      var due := WindowDueNow(origin);
      if due {
        OpenWindow(origin);
      }
    }

    /** A window of window_minutes for `o` starting now, announced by one event. */
    method OpenWindow(o: Origin)
      requires Valid() && o == Rotation[rotationIdx]
      modifies this
      ensures Valid()
      ensures activeOrigin == Some(o) && windowEndTime == now + windowMinutes
      ensures nextConsume3 == 3 * now && windowConsumed == 0
      ensures events == old(events) + [WindowStart(o, now, lotSize)]
      ensures rotationIdx == old(rotationIdx) && belts == old(belts) && records == old(records) && now == old(now)
      ensures SameLots() && SameProduction()
    {
      activeOrigin := Some(o);
      windowEndTime := now + windowMinutes;
      nextConsume3 := 3 * now;
      windowConsumed := 0;
      events := events + [WindowStart(o, now, lotSize)];
    }

    /**
     * step: advances the clock by max(1, dt) minutes, each minute running the
     * window scheduler, one consumption attempt and production, in that order.
     * Every invariant of Valid holds after every minute.
     */
    method Step(dt: int)
      requires Valid()
      modifies this, roundRobin
      ensures Valid()
      ensures now == old(now) + Max(1, dt)
      ensures old(events) <= events
    {
      var steps := Max(1, dt);
      for i := 0 to steps
        invariant Valid() && now == old(now) + i
        invariant old(events) <= events
      {
        Tick();
      }
    }

    /** One minute of step: window start, consumption, production, then the clock moves on. */
    method Tick()
      requires Valid()
      modifies this, roundRobin
      ensures Valid()
      ensures now == old(now) + 1
      ensures old(events) <= events
    {
      MaybeStartWindow();
      TryConsume();
      TryProduce();
      ClockKeepsBelts(belts, globalNextLotId, now, now + 1, maturationMinutes);
      now := now + 1;
    }

    /** drain_events: returns the pending events and clears them. */
    method DrainEvents() returns (ev: seq<Event>)
      requires Valid()
      modifies this
      ensures Valid()
      ensures ev == old(events) && events == []
      ensures belts == old(belts) && records == old(records) && now == old(now) && SameLots() && SameProduction()
      ensures rotationIdx == old(rotationIdx) && activeOrigin == old(activeOrigin) && windowEndTime == old(windowEndTime)
      ensures nextConsume3 == old(nextConsume3) && windowConsumed == old(windowConsumed)
    {
      ev := events;
      events := [];
    }

    /**
     * grid_as_cells: a 12 x 22 view of the belts with the head of each belt
     * in the rightmost column and the newest pallet furthest left; unused
     * slots are 'vazio' with lot 0.
     */
    method GridAsCells() returns (grid: seq<seq<Cell>>)
      requires |belts| == Rows
      ensures |grid| == Rows && forall r :: 0 <= r < Rows ==> |grid[r]| == Cols
      ensures forall r, c :: 0 <= r < Rows && 0 <= c < Cols ==>
        grid[r][c] == (if Cols - 1 - c < |belts[r]|
                       then Cell(Holding(belts[r][Cols - 1 - c].origin), belts[r][Cols - 1 - c].lotId)
                       else Cell(Vazio, 0))
    {
      grid := seq(Rows, _ => seq(Cols, _ => Cell(Vazio, 0)));
      for r := 0 to Rows
        invariant |grid| == Rows && forall r' :: 0 <= r' < Rows ==> |grid[r']| == Cols
        invariant forall r', c :: 0 <= r' < r && 0 <= c < Cols ==>
          grid[r'][c] == (if Cols - 1 - c < |belts[r']|
                          then Cell(Holding(belts[r'][Cols - 1 - c].origin), belts[r'][Cols - 1 - c].lotId)
                          else Cell(Vazio, 0))
        invariant forall r', c :: r <= r' < Rows && 0 <= c < Cols ==> grid[r'][c] == Cell(Vazio, 0)
      {
        var belt := belts[r];
        var n := if |belt| < Cols then |belt| else Cols;
        for idx := 0 to n
          invariant |grid| == Rows && forall r' :: 0 <= r' < Rows ==> |grid[r']| == Cols
          invariant forall r', c :: 0 <= r' < r && 0 <= c < Cols ==>
            grid[r'][c] == (if Cols - 1 - c < |belts[r']|
                            then Cell(Holding(belts[r'][Cols - 1 - c].origin), belts[r'][Cols - 1 - c].lotId)
                            else Cell(Vazio, 0))
          invariant forall r', c :: r < r' < Rows && 0 <= c < Cols ==> grid[r'][c] == Cell(Vazio, 0)
          invariant forall c :: 0 <= c < Cols ==>
            grid[r][c] == (if Cols - 1 - c < idx
                           then Cell(Holding(belt[Cols - 1 - c].origin), belt[Cols - 1 - c].lotId)
                           else Cell(Vazio, 0))
        {
          var p := belt[idx];
          var c := Cols - 1 - idx;
          grid := grid[r := grid[r][c := Cell(Holding(p.origin), p.lotId)]];
        }
      }
    }
  }

  /** Readiness over two groups of belts is readiness over either group. */
  lemma AnyReadySplit(belts: seq<seq<Pallet>>, rows1: seq<int>, rows2: seq<int>, origin: Origin, now: int)
    requires ValidRows(belts, rows1) && ValidRows(belts, rows2)
    ensures ValidRows(belts, rows1 + rows2)
    ensures AnyReady(belts, rows1 + rows2, origin, now) <==> AnyReady(belts, rows1, origin, now) || AnyReady(belts, rows2, origin, now)
  {
    var rows := rows1 + rows2;
    if AnyReady(belts, rows, origin, now) {
      var j :| 0 <= j < |rows| && HeadReady(belts, rows[j], origin, now);
      if j >= |rows1| {
        assert rows[j] == rows2[j - |rows1|];
      }
    }
    if AnyReady(belts, rows1, origin, now) {
      var j :| 0 <= j < |rows1| && HeadReady(belts, rows1[j], origin, now);
      assert rows[j] == rows1[j];
    }
    if AnyReady(belts, rows2, origin, now) {
      var j :| 0 <= j < |rows2| && HeadReady(belts, rows2[j], origin, now);
      assert rows[|rows1| + j] == rows2[j];
    }
  }
}
